=== FILE: README.md ===
# PortDetective discovery core in Dafny

PortDetective listens on a host's network interfaces for link-layer discovery
frames. It decodes Cisco Discovery Protocol (CDP) and IEEE 802.1AB Link Layer
Discovery Protocol (LLDP) advertisements into neighbour records and keeps them
in keyed tables that a window then filters and counts.

This project models that pipeline as pure functions over byte sequences and
immutable maps, and proves properties about it:

- `Bytes`, `Strings`, `Render`, `Flags`: the shared primitives.
  - big-endian 16/32-bit reads;
  - the text decode with its leading and trailing NUL strip;
  - dotted-decimal and colon-hex renderings, each with an inverse parser;
  - bitmask-to-name tables.
- `TypeLength`: the TLV as both decoders cut it out, and the last TLV of a type, whose value a record ends up holding.
- `CdpAddress`: the nested address list of the CDP Address TLVs.
- `Cdp`: the CDP decoder.
  - Finds the header: the fixed LLC/SNAP offset, then the signature scan over offsets 14 to 49, then gives up.
  - Walks the type/total-length TLV chain and dispatches each TLV onto the record.
- `CdpFrames`: an encoder for CDP frames and TLVs, used to state round trips.
  - The decoder recovers every advertised record.
  - A frame whose TLV chain breaks still yields the fields decoded before the break.
- `Lldp`: the LLDP decoder.
  - The 7-bit type / 9-bit length TLV header of clause 8.4 of IEEE 802.1AB.
  - The Chassis ID, Port ID, TTL, System Capabilities and Management Address TLVs.
  - The IEEE 802.1 Port VLAN ID and VLAN Name TLVs of Annex D.
- `LldpFrames`: an encoder for LLDP frames and the round trip to the decoder.
- `Neighbor`: the protocol-neutral record.
  - The conversions from either decoder's record.
  - The display IP and the protocol-dependent key set of the detail dictionary.
  - The ":"-joined table key.
- `Nic`: the interface helpers.
  - The link-speed display rule.
  - The address and loopback classification.
  - The capture filter, lookup by name, and the name-to-interface table.
- `Discovery`: the combined CDP/LLDP capture.
  - The frame classifier and the packet handler.
  - The per-interface tables and the multi-interface coordinator.
- `CdpCapture`: the CDP-only capture and its coordinator.
- `Display`: the window's neighbour table, its protocol-mode filter and its counts.

The tables are keyed by the very string the program builds: the fields joined
with ":". Distinct neighbours therefore share a key when a field itself
contains ":". `Neighbor.KeyCollision` and `CdpCapture.AggregateKeyCollision`
exhibit such pairs. The lemmas that say the combined table mirrors every
per-interface table assume interface names without ":".

## Model

| member | source | states |
|---|---|---|
| Bytes.Decode | cdp_parser.py:295-297 | the text decode yields only ASCII characters and never more characters than bytes |
| Bytes.EncodeAscii | lldp_parser.py:183 | ASCII text survives an encode followed by the decode unchanged |
| Bytes.StripNulOfPadded | cdp_parser.py:295-297 | stripping NULs removes exactly the NUL padding on both ends of a text that does not itself start or end with NUL |
| Bytes.StripNulIdempotent | cdp_parser.py:295-297 | stripping NULs twice gives the same text as stripping once |
| Bytes.Text | cdp_parser.py:295-297 | a decoded text field is ASCII, no longer than its payload, and neither starts nor ends with NUL |
| Bytes.TextOfEncoded | lldp_parser.py:318-331 | every ASCII text without NUL padding is recovered from its encoding by the text-field decode |
| Bytes.U16Bytes | cdp_parser.py:285-286 | the two-byte big-endian encoding of a 16-bit value reads back as that value |
| Bytes.U32Bytes | cdp_parser.py:130 | the four-byte big-endian encoding of a 32-bit value reads back as that value |
| Strings.SplitJoin | neighbor.py:89 | splitting a join of separator-free fields at the separator gives back the fields |
| Strings.SeparatedPrefix | discovery_capture.py:178 | two ":"-joined strings whose first fields hold no ":" are equal only if their first fields and their remainders are equal |
| Strings.DecRoundTrip | cdp_parser.py:159 | the decimal rendering of a number reads back as that number |
| Render.DottedDecimalRoundTrip | cdp_parser.py:157-160 | the dotted-decimal rendering of a non-empty byte string parses back to those bytes |
| Render.DottedDecimalInjective | cdp_parser.py:157-160 | distinct addresses have distinct dotted-decimal renderings |
| Render.ColonHexRoundTrip | lldp_parser.py:170-171 | the colon-separated two-digit hex rendering of a MAC parses back to its bytes |
| Render.HexGroupsRoundTrip | lldp_parser.py:176-181 | the colon-separated four-digit hex groups of an IPv6 address parse back to its bytes |
| Render.SourceMac | cdp_parser.py:186-189 | the source MAC text of a frame of at least 12 bytes parses back to bytes 6 to 11, and is empty otherwise |
| Flags.DecodeMembership | cdp_parser.py:114-118 | a table name is emitted exactly when its bit is set |
| Flags.DecodeInTableOrder | cdp_parser.py:114-118 | the emitted names appear in table order |
| Flags.EncodeDecode | cdp_parser.py:103-120 | a mask within the table width is recovered from its decoded names |
| Flags.DecodeEncode | cdp_parser.py:103-120 | a list of names in table order is recovered by decoding its mask |
| Flags.HighBitsIgnored | cdp_parser.py:114-118 | bits above the table width do not change the decoded names |
| Cdp.Default | cdp_parser.py:217-219 | a fresh record has TTL 180 and the given timestamp; every text field is empty, the address and capability lists are empty, VLANs and duplex are absent, and there is no source MAC, interface or speed |
| Cdp.ParseCapabilities | cdp_parser.py:103-120 | at most seven names, all from the capability table and in its order; which names appear is `Cdp.CapabilitiesMembership` |
| Cdp.CapabilitiesMembership | cdp_parser.py:103-120 | the CDP capability names are emitted exactly for their set bits, in the order Router, Trans-Bridge, Source-Bridge, Switch, Host, IGMP, Repeater |
| Cdp.CapabilitiesIgnoreHighBits | cdp_parser.py:103-120 | bits above 0x40 do not change the decoded capabilities |
| Cdp.CapabilitiesRoundTrip | cdp_parser.py:103-120 | every 7-bit mask is recovered from its decoded capability names |
| Cdp.CapabilitiesExample | cdp_parser.py:103-120 | the mask 0x28 decodes to Switch and IGMP |
| Cdp.Scan | cdp_parser.py:245-267 | the scan returns the first offset from 14 up to its bound that carries the CDP signature, and nothing when no offset does |
| Cdp.FindStart | cdp_parser.py:231-273 | an LLC/SNAP header with the Cisco OUI and PID 0x2000 puts the start at 22; otherwise the start is the first signature offset, if any |
| Cdp.FindStartLoop | cdp_parser.py:231-273 | the program's nested header search computes the same start as the functional definition |
| Cdp.SnapHeaderWins | cdp_parser.py:234-242 | the LLC/SNAP check takes precedence over a signature found by the scan |
| Cdp.Tlvs | cdp_parser.py:284-292 | each TLV the walk yields takes at least its 4-byte header, so the bytes after the offset bound how many are yielded; where each lies is `Cdp.TlvsWithinFrame` and `Cdp.TlvsFirst` |
| Cdp.TlvsWithinFrame | cdp_parser.py:284-292 | the TLVs the walk yields lie entirely inside the frame |
| Cdp.TlvsFirst | cdp_parser.py:285-292 | each TLV's type and payload are the header word and the bytes its total length covers |
| TypeLength.LastPayload | cdp_parser.py:294-330 | the payload found is that of the last TLV of the type in the chain that is long enough, with no such TLV after it; none is found only when no such TLV exists |
| Cdp.DuplexValue | cdp_parser.py:323-324 | the duplex is "Full" exactly when the first payload byte is nonzero, and "Half" otherwise |
| Cdp.DuplexRule | cdp_parser.py:323-324 | every Duplex TLV with a payload records a duplex: "Full" exactly when its first byte is nonzero, "Half" exactly when it is zero |
| Cdp.VoiceVlanValue | cdp_parser.py:317-322 | the voice VLAN is the 16-bit value whose big-endian encoding is bytes 1 and 2 of a payload of three or more bytes, or the whole of a two-byte payload |
| Cdp.VoiceVlanRead | cdp_parser.py:317-322 | for every flag byte, every 16-bit id and every trailing bytes, a flagged payload yields the id after the flag, and a bare two-byte payload yields the id it encodes |
| Cdp.VoiceVlanExamples | cdp_parser.py:317-322 | three sample payloads: [1, 0, 10] and [0, 10] give 10, and [1, 0x01, 0x2C, 0xFF] gives 300 |
| Cdp.ApplyTlv | cdp_parser.py:294-330 | applying a TLV never changes the source MAC, interface, speed, timestamp or TTL |
| Cdp.UnknownTlvIgnored | cdp_parser.py:294-330 | a TLV of an unhandled type leaves the record unchanged |
| Cdp.ApplyTlvTextFields | cdp_parser.py:294-330 | Device ID, Port ID, Version, Platform and VTP Domain TLVs set their text field from the payload and leave the others alone |
| Cdp.ApplyTlvAddressFields | cdp_parser.py:298-299 | Address and Management Address TLVs replace their address list with the decoded list |
| Cdp.ApplyTlvNumericFields | cdp_parser.py:304-324 | capabilities need a payload of at least 4 bytes, native VLAN at least 2, voice VLAN at least 2, duplex at least 1; shorter payloads change nothing |
| Cdp.ApplyAllAppend | cdp_parser.py:284-332 | walking a TLV sequence in two parts equals walking it at once |
| Cdp.TextFieldsLastWins | cdp_parser.py:294-330 | each text field holds the text of the last TLV of its type, or its default when there is none |
| Cdp.AddressFieldsLastWins | cdp_parser.py:298-330 | each address list holds the decoding of the last TLV of its type, or its default |
| Cdp.NumericFieldsLastWins | cdp_parser.py:304-324 | each numeric field holds the value of the last long-enough TLV of its type, or its default |
| Cdp.ParseRaw | cdp_parser.py:203-341 | a record is returned exactly when a header start is found; it carries the TTL byte after the start, the given MAC and timestamp, and no interface or speed |
| Cdp.ParseRawLoop | cdp_parser.py:203-341 | the program's loop-based decoder computes the same record as the functional definition |
| Cdp.WalkLoop | cdp_parser.py:284-332 | the TLV loop applies exactly the TLVs of the chain, stopping at a short or overrunning TLV |
| Cdp.WalkStep | cdp_parser.py:284-292 | each step either stops with nothing left to decode or advances the offset by at least 4, staying inside the frame and losing no TLV |
| Cdp.ParsePacket | cdp_parser.py:170-200 | a packet decodes exactly when a CDP header is found, and the record carries the packet's source MAC |
| CdpAddress.ParseAddress | cdp_parser.py:123-167 | a payload under 4 bytes gives no addresses; otherwise at most the announced count, each an IPv4 dotted-decimal text |
| CdpAddress.Walk | cdp_parser.py:133-154 | the entry walk yields at most the announced number of entries, each a 4-octet address; what they decode to is `CdpAddress.ParseEncoded` |
| CdpAddress.ParseAddressLoop | cdp_parser.py:123-167 | the program's bounds-checked loop computes the same list as the functional definition |
| CdpAddress.NextEntry | cdp_parser.py:136-154 | a bounds-checked step either finds an entry lying wholly inside the payload or shows that the walk ends here |
| CdpAddress.ParseEncoded | cdp_parser.py:123-167 | an encoded address list decodes to the IPv4 addresses of its entries, in order, skipping entries of other lengths |
| CdpAddress.ParseEncodedThenStop | cdp_parser.py:123-167 | entries decoded before a point where the walk stalls are kept, and nothing after it is added |
| CdpAddress.TruncatedListKeepsDecoded | cdp_parser.py:133-154 | a list cut short inside an entry still yields every address decoded before that entry |
| CdpAddress.ParseOfTruncated | cdp_parser.py:133-154 | truncating a payload can only shorten the decoded list, never change its earlier entries |
| CdpFrames.TlvsOfEncoded | cdp_parser.py:284-332 | the TLV walk recovers every encoded TLV in order |
| CdpFrames.ShortLengthStops | cdp_parser.py:288-289 | a TLV whose length is under 4 ends the walk |
| CdpFrames.OverrunStops | cdp_parser.py:288-289 | a TLV whose length runs past the frame end ends the walk |
| CdpFrames.ParseSnapFrame | cdp_parser.py:231-334 | a frame with an LLC/SNAP header decodes to the record its TLVs build, followed by whatever its tail adds |
| CdpFrames.PartialRecordOnMalformedTlv | cdp_parser.py:284-334 | a malformed TLV after well-formed ones still yields the record of the well-formed ones |
| CdpFrames.BareFrameFound | cdp_parser.py:245-267 | without LLC/SNAP, a header directly after the Ethernet header followed by a Device ID TLV is found at offset 14 |
| CdpFrames.ParseBareFrame | cdp_parser.py:245-334 | such a frame decodes to the record its TLVs build |
| CdpFrames.SnapFrameSourceMac | cdp_parser.py:186-189 | the source MAC text is the rendering of bytes 6 to 11 of the frame |
| CdpFrames.AddressPayloadDecodes | cdp_parser.py:123-167 | an Address TLV payload built from entries decodes to their IPv4 addresses |
| CdpFrames.CapabilityTlvDecodes | cdp_parser.py:304-306 | a Capabilities TLV built from names in table order sets exactly those names |
| CdpFrames.DecodeAdvertised | cdp_parser.py:284-334 | applying the TLVs that advertise a record to a blank record gives back the record |
| Lldp.Default | lldp_parser.py:273-276 | a fresh record has TTL 120 and the given timestamp; the chassis, port, both descriptions and system name are empty, both capability lists and the address list are empty, there is no VLAN id or name, and there is no source MAC, interface or speed |
| Lldp.ParseCapabilities | lldp_parser.py:140-165 | at most eleven names, all from the capability table and in its order; which names appear is `Lldp.CapabilitiesMembership` |
| Lldp.CapabilitiesMembership | lldp_parser.py:140-165 | the LLDP capability names are emitted exactly for their set bits, in the order Other, Repeater, Bridge, WLAN AP, Router, Telephone, DOCSIS, Station, C-VLAN, S-VLAN, TPMR |
| Lldp.CapabilitiesIgnoreHighBits | lldp_parser.py:140-165 | bits above 0x400 do not change the decoded capabilities |
| Lldp.CapabilitiesRoundTrip | lldp_parser.py:140-165 | every 11-bit mask is recovered from its decoded names |
| Lldp.CapabilitiesExample | lldp_parser.py:140-165 | the mask 0x14 decodes to Bridge and Router |
| Lldp.ChassisId | lldp_parser.py:168-185 | a chassis ID of a subtype other than MAC or network address, or a MAC ID not of 6 bytes, is the text decode; the renderings are `Lldp.ChassisIdDecodes` |
| Lldp.ChassisIdDecodes | lldp_parser.py:168-185 | a MAC chassis ID of 6 bytes renders as colon hex; a network address renders as IPv4 or IPv6 text by family; anything else is the text decode |
| Lldp.PortId | lldp_parser.py:188-201 | a port ID of a subtype other than MAC or network address, or a MAC ID not of 6 bytes, is the text decode; the renderings are `Lldp.PortIdDecodes` |
| Lldp.PortIdDecodes | lldp_parser.py:188-201 | a MAC port ID of 6 bytes renders as colon hex; an IPv4 network address renders dotted; anything else, IPv6 included, is the text decode |
| Lldp.MgmtAddress | lldp_parser.py:204-226 | an address is found only in a payload holding its declared length of at least 2 and the IPv4 or IPv6 subtype; the exact condition and the read-back are `Lldp.MgmtAddressDecodes` |
| Lldp.MgmtAddressDecodes | lldp_parser.py:204-226 | a management address is produced exactly for a long-enough payload of family IPv4 or IPv6, rendered by family |
| Lldp.HeaderSplit | lldp_parser.py:294-297 | a 16-bit header word is its 7-bit type times 512 plus its 9-bit length |
| Lldp.HeaderWordFields | lldp_parser.py:294-297 | packing a type and a length into a header word and splitting it gives them back |
| Lldp.TlvsWithinFrame | lldp_parser.py:292-305 | the TLVs the walk yields lie inside the frame and carry a type between 1 and 127 |
| Lldp.WalkStops | lldp_parser.py:299-300 | an End of LLDPDU TLV ends the walk |
| Lldp.Tlvs | lldp_parser.py:292-305 | each TLV the walk yields takes at least its 2-byte header, so the bytes after the offset bound how many are yielded; where each lies is `Lldp.TlvsWithinFrame` |
| Lldp.OrgSpecific | lldp_parser.py:344-367 | an organisationally specific TLV changes at most the VLAN id and VLAN name |
| Lldp.ApplyTlv | lldp_parser.py:305-367 | applying a TLV never changes the source MAC, interface, speed or timestamp |
| Lldp.UnknownTlvIgnored | lldp_parser.py:305-367 | a TLV of an unhandled type leaves the record unchanged |
| Lldp.ApplyTlvOverwrittenFields | lldp_parser.py:307-337 | chassis, port, TTL, the three text TLVs and capabilities set their field from the payload; chassis, port and TTL need at least 2 bytes and capabilities at least 4, and shorter payloads change nothing |
| Lldp.ApplyTlvMgmt | lldp_parser.py:339-342 | a Management Address TLV appends its decoded address, if any |
| Lldp.OverwrittenFieldsLastWins | lldp_parser.py:305-337 | each overwritten field holds the value of the last applicable TLV of its type, or its default |
| Lldp.CapabilitiesLastWins | lldp_parser.py:333-337 | both capability lists come from the last System Capabilities TLV of at least 4 bytes |
| Lldp.MgmtAddressesAccumulate | lldp_parser.py:339-342 | management addresses accumulate in TLV order, skipping undecodable ones |
| Lldp.PortVlanSets | lldp_parser.py:352-355 | an IEEE 802.1 Port VLAN ID TLV sets the VLAN id |
| Lldp.VlanNameSets | lldp_parser.py:356-367 | a VLAN Name TLV sets the name when it fits and sets the VLAN id only when none or 0 is held |
| Lldp.PortVlanSurvivesNames | lldp_parser.py:356-367 | a non-zero VLAN id survives any number of VLAN Name TLVs |
| Lldp.OtherOuiIgnored | lldp_parser.py:344-367 | organisationally specific TLVs with another OUI change nothing |
| Lldp.DecodedVlanConsistent | lldp_parser.py:259-378 | no decoded record holds a VLAN name without a VLAN id |
| Lldp.ParseRaw | lldp_parser.py:259-378 | a record is returned exactly for frames of at least 14 bytes with EtherType 0x88CC, and it carries the given MAC and timestamp and no interface or speed |
| Lldp.ParseRawLoop | lldp_parser.py:259-378 | the program's loop-based decoder computes the same record as the functional definition |
| Lldp.WalkLoop | lldp_parser.py:292-369 | the TLV loop applies exactly the TLVs of the chain |
| Lldp.WalkStep | lldp_parser.py:292-305 | each step either stops with nothing left to decode or advances by exactly 2 plus the TLV length inside the frame |
| Lldp.ParsePacket | lldp_parser.py:240-249 | a packet decodes exactly when the decoder accepts it, and the record carries the packet's source MAC |
| LldpFrames.HeaderReads | lldp_parser.py:294-297 | an encoded header word reads back as its type and length |
| LldpFrames.TlvsOfEncoded | lldp_parser.py:292-369 | the TLV walk recovers every encoded TLV in order |
| LldpFrames.EndStops | lldp_parser.py:299-300 | an encoded End of LLDPDU TLV ends the walk |
| LldpFrames.OverrunStops | lldp_parser.py:302-303 | a TLV whose length exceeds the remaining bytes ends the walk |
| LldpFrames.ParseTerminatedFrame | lldp_parser.py:259-378 | a frame of TLVs closed by End of LLDPDU decodes to the record its TLVs build, whatever padding follows |
| LldpFrames.PartialRecordOnOverrun | lldp_parser.py:302-303 | an overrunning TLV after well-formed ones still yields the record of the well-formed ones |
| LldpFrames.OtherEtherTypeRejected | lldp_parser.py:280-286 | a frame with another EtherType is rejected |
| LldpFrames.FrameSourceMac | lldp_parser.py:240-249 | the source MAC text is the rendering of the frame's source address |
| LldpFrames.AdvertiseRoundTrip | lldp_parser.py:305-367 | applying the TLVs that advertise a record to a blank record gives back the record |
| LldpFrames.AdvertisedFrameDecodes | lldp_parser.py:259-378 | a frame advertising a record decodes to that record |
| Neighbor.FromCdp | neighbor.py:56-77 | a CDP record becomes a neighbour with protocol "CDP" that carries every CDP field unchanged |
| Neighbor.FromCdpBijective | neighbor.py:56-77 | the conversion from CDP records is injective, and its image is exactly the CDP-shaped neighbours |
| Neighbor.Platform | neighbor.py:86-90 | the platform is the first line of the description, cut to 50 characters, and empty for an empty description |
| Neighbor.PlatformUnique | neighbor.py:86-90 | the platform is the only text meeting that description |
| Neighbor.FromLldp | neighbor.py:80-114 | the device ID is the system name, else the chassis ID; capabilities are the enabled ones, else the supported ones; IP addresses are empty; the rest is carried over |
| Neighbor.FromLldpSummary | neighbor.py:80-114 | the device ID is empty only when both names are, the platform is a prefix of the software text, and capabilities are empty only when both lists are |
| Neighbor.LldpVlanNameHasVlan | neighbor.py:80-114 | a neighbour converted from a decoded LLDP frame holds a native VLAN id whenever it holds a VLAN name; that id may be 0, which the dictionary shows as "N/A" |
| Neighbor.VlanNameBesideVlanZero | neighbor.py:144 | a VLAN Name TLV with VLAN id 0 and name "A" yields a neighbour holding id 0, whose dictionary shows Native VLAN "N/A" beside VLAN Name "A" |
| Neighbor.VlanShown | neighbor.py:144-152 | a non-CDP neighbour's dictionary shows its VLAN id, with 0 and absence as "N/A", under Native VLAN and its VLAN name under VLAN Name |
| Neighbor.DisplayIp | neighbor.py:163-169 | the display IP is the first IP address, else the first management address, else "N/A" |
| Neighbor.DisplayIpIsAnAddress | neighbor.py:163-169 | the display IP is one of the neighbour's addresses or "N/A" |
| Neighbor.LldpDisplayIp | neighbor.py:163-169 | an LLDP neighbour shows its first management address, or "N/A" |
| Neighbor.Abbreviate | neighbor.py:133-141 | texts up to 150 characters are shown whole; longer ones as their first 150 characters and "..." |
| Neighbor.ProtocolSpecificKeys | neighbor.py:144-152 | the detail dictionary has Voice VLAN and VTP Domain keys exactly for CDP, and VLAN Name and Port Description keys exactly otherwise |
| Neighbor.SoftwareShown | neighbor.py:133-141 | the detail dictionary shows the abbreviated software text |
| Neighbor.ToDict | neighbor.py:116-160 | the dictionary has 16 entries for a CDP neighbour and 15 otherwise, under pairwise distinct keys, as a Python dictionary has; which keys and values is `Neighbor.ProtocolSpecificKeys`, `Neighbor.SoftwareShown` and `Neighbor.VlanShown` |
| Neighbor.Key | discovery_capture.py:178 | a key whose four fields hold no ":" splits at ":" back into protocol, interface, device and port |
| Neighbor.KeyDeterminesIdentity | discovery_capture.py:176-180 | for fields without ":", two neighbours share a key exactly when they share protocol, interface, device and port |
| Neighbor.KeyCollision | discovery_capture.py:178 | a device ID holding ":" gives two different identities the same key |
| Nic.SpeedDisplay | nic_detector.py:26-33 | the speed shows as "Unknown" exactly when it is missing or 0 |
| Nic.SpeedDisplayReadsBack | nic_detector.py:26-33 | a positive speed shows as a decimal number followed by "G" for whole gigabits from 1000 up, and "M" for megabits below |
| Nic.SpeedDisplayExample | nic_detector.py:26-33 | 2500 shows as "2G", 100 as "100M" and 0 as "Unknown" |
| Nic.Classify | nic_detector.py:59-80 | no more IPs are listed than there are address entries, and a loopback interface lists at least one; the exact lists are `Nic.ClassifyAddresses`, `Nic.ClassifyMac` and `Nic.ClassifyLoopback` |
| Nic.ClassifyLoopback | nic_detector.py:67-70 | an interface is a loopback exactly when one of its IPv4 addresses starts with "127." |
| Nic.ClassifyAddresses | nic_detector.py:67-74 | the listed IPs are exactly the IPv4 addresses and the IPv6 addresses not starting with "fe80" |
| Nic.ClassifyMac | nic_detector.py:65-66 | the MAC is the last link-layer address, or empty without one |
| Nic.ClassifyLoop | nic_detector.py:59-80 | the program's address loop computes the same classification as the functional definition |
| Nic.BuildInterface | nic_detector.py:85-96 | the interface record takes its state, MTU and speed from the statistics when present, and its addresses and loopback flag from the classification |
| Nic.AllInterfaces | nic_detector.py:44-100 | one interface record per enumerated interface, in order |
| Nic.CaptureInterfaces | nic_detector.py:155-170 | every listed interface is up, not a loopback and one of the given interfaces; that all such are listed is `Nic.CaptureInterfacesExact` |
| Nic.CaptureInterfacesExact | nic_detector.py:155-170 | the capture interfaces are exactly the up, non-loopback interfaces |
| Nic.CaptureInterfacesAppend | nic_detector.py:166-168 | the filter keeps the original order |
| Nic.InterfaceByName | nic_detector.py:173-187 | the first interface with the name is returned, or nothing when none has it |
| Nic.InfoTable | discovery_capture.py:206-209 | the name table holds exactly the names of the interfaces |
| Nic.InfoTableLastWins | discovery_capture.py:206-209 | for a repeated name the table holds the last interface of that name |
| Nic.InterfaceSpeed | discovery_capture.py:211-216 | the speed of an unknown interface is "Unknown", and otherwise the display of its speed |
| Discovery.DetectProtocol | discovery_capture.py:74-108 | a frame is CDP exactly when it has at least 14 bytes and the CDP destination; LLDP exactly when it has at least 14 bytes, another destination, and an LLDP destination or the LLDP EtherType; unknown otherwise, including every frame under 14 bytes |
| Discovery.CdpDestinationWins | discovery_capture.py:88-92 | a full-length frame to the CDP destination is CDP whatever its EtherType |
| Discovery.LldpDestinationIsLldp | discovery_capture.py:95-101 | a full-length frame to any of the three LLDP destinations is LLDP whatever its EtherType |
| Discovery.LldpDecodableIsLldp | discovery_capture.py:84-108 | every frame the LLDP decoder accepts is classified LLDP, unless it goes to the CDP address |
| Discovery.LldpAddressWithoutEtherType | discovery_capture.py:95-108 | a frame to an LLDP address with another EtherType is classified LLDP but rejected by the decoder |
| Discovery.HandleFrame | discovery_capture.py:118-149 | a neighbour is produced exactly when the classified frame decodes, and it is the normalised record stamped with the capture's interface and the time |
| Discovery.HandledProtocol | discovery_capture.py:130-147 | the produced neighbour's protocol matches the frame's class |
| Discovery.UpdateNeighbor | discovery_capture.py:176-183 | the neighbour is stored under its key, other entries stay, and the table grows only for a new key |
| Discovery.ReannouncementReplaces | discovery_capture.py:176-183 | announcing the same identity twice leaves one entry holding the later record |
| Discovery.NewCoordinatorConsistent | discovery_capture.py:192-209 | a new coordinator is consistent: every capture under its interface and every combined entry under its key with its interface speed |
| Discovery.AddInterface | discovery_capture.py:218-222 | adding a managed interface is a no-op, and a new one gets a stopped, empty capture |
| Discovery.AddInterfaceIdempotent | discovery_capture.py:218-222 | adding an interface twice equals adding it once |
| Discovery.RemoveInterface | discovery_capture.py:224-228 | removing an interface drops only its capture |
| Discovery.SetAll | discovery_capture.py:230-238 | starting or stopping all captures changes only their running flags |
| Discovery.SetInterface | discovery_capture.py:240-248 | starting or stopping one interface changes only its running flag |
| Discovery.IsRunning | discovery_capture.py:250-256 | for a named interface the answer is whether its capture is managed and running; without a name it is whether any capture runs |
| Discovery.SetInterfaceOthersRunning | discovery_capture.py:240-256 | starting or stopping one interface leaves the answer for every other named interface unchanged |
| Discovery.RunningAfterStartStop | discovery_capture.py:250-256 | after starting all, something runs exactly when an interface is managed; after stopping, nothing runs; an unmanaged interface never runs |
| Discovery.ClearAll | discovery_capture.py:262-266 | clearing empties the combined table and every capture's table |
| Discovery.OnNeighborDiscovered | discovery_capture.py:268-278 | the neighbour is stamped with its interface's speed and stored under its key, and no other combined entry changes |
| Discovery.Store | discovery_capture.py:176-183 | storing touches only the capture of the receiving interface and keeps its running flag; what lands where is `Discovery.ReceiveStores` |
| Discovery.Receive | discovery_capture.py:118-149 | a frame on an unmanaged or stopped capture, or one the handler rejects, changes nothing; otherwise the handled neighbour is stored, and no running flag or other capture changes |
| Discovery.ReceiveStores | discovery_capture.py:118-278 | a frame decoded on a running capture lands, stamped, under its key in both the capture's table and the combined table |
| Discovery.ReceiveConsistent | discovery_capture.py:118-278 | receiving a frame keeps the coordinator consistent |
| Discovery.ClearAllConsistent | discovery_capture.py:262-266 | clearing keeps the coordinator consistent |
| Discovery.KeySeparatesInterfaces | discovery_capture.py:178 | for interface names without ":", neighbours on different interfaces never share a key |
| Discovery.ReceiveMirrored | discovery_capture.py:118-278 | every neighbour held by a capture is also in the combined table as the same record, and receiving keeps it so |
| Discovery.SetAllMirrored | discovery_capture.py:230-238 | starting or stopping keeps every capture's entries mirrored |
| CdpCapture.LocalKey | cdp_capture.py:130-131 | a capture key whose device and port hold no ":" splits back into them |
| CdpCapture.AggregateKey | cdp_capture.py:226 | a combined key is the interface, ":" and the capture key, and splits back into interface, device and port when none holds ":" |
| CdpCapture.AggregateKeySeparatesInterfaces | cdp_capture.py:224-231 | for interface names without ":", neighbours on different interfaces never share a combined key |
| CdpCapture.AggregateKeyCollision | cdp_capture.py:226 | interface and device names holding ":" make two neighbours on different interfaces share a combined key |
| CdpCapture.HandleFrame | cdp_capture.py:78-102 | a neighbour is produced exactly when the frame decodes, stamped with the capture's interface |
| CdpCapture.UpdateNeighbor | cdp_capture.py:123-138 | the neighbour is stored under its device and port, other entries stay, and the table grows only for a new key |
| CdpCapture.AddInterfaceIdempotent | cdp_capture.py:174-178 | adding an interface twice equals adding it once |
| CdpCapture.RemoveInterface | cdp_capture.py:180-184 | removing an interface drops only its capture |
| CdpCapture.IsRunning | cdp_capture.py:206-212 | for a named interface the answer is whether its capture is managed and running; without a name it is whether any capture runs |
| CdpCapture.SetInterfaceOthersRunning | cdp_capture.py:196-212 | starting or stopping one interface leaves the answer for every other named interface unchanged |
| CdpCapture.RunningAfterStartStop | cdp_capture.py:186-212 | after starting all, something runs exactly when an interface is managed; after stopping, nothing runs; an unmanaged interface never runs |
| CdpCapture.ClearAll | cdp_capture.py:218-222 | clearing empties the combined table and every capture's table |
| CdpCapture.Store | cdp_capture.py:224-234 | the neighbour is stored with its interface's speed under its combined key, and no other combined entry changes |
| CdpCapture.Receive | cdp_capture.py:78-234 | only frames to the CDP address on a running capture change anything |
| CdpCapture.ReceiveInvariant | cdp_capture.py:78-234 | receiving a frame keeps the coordinator consistent and mirrored |
| CdpCapture.StartStopAllInvariant | cdp_capture.py:186-194 | starting or stopping all keeps the coordinator consistent and mirrored |
| CdpCapture.TwoInterfacesTwoEntries | cdp_capture.py:224-231 | the same device and port seen on two plain-named interfaces gives two combined entries |
| Display.Put | discovery_listener_gui.py:500-506 | a new key is appended and a known key's entry is replaced in place |
| Display.PutWellKeyed | discovery_listener_gui.py:500-506 | putting keeps every key unique and under its own neighbour, and grows the table only for a new key |
| Display.ShouldDisplay | discovery_listener_gui.py:511-536 | only the "cdp", "lldp" and "auto" modes hide anything; a CDP neighbour is hidden only by "lldp", and "auto" hides a neighbour only when a CDP neighbour of the same device and interface is stored; the exact rule per mode is `Display.ShouldDisplayModes` |
| Display.ShouldDisplayModes | discovery_listener_gui.py:511-536 | "cdp" and "lldp" show their own protocol; "auto" shows CDP and hides another neighbour exactly when a CDP neighbour of the same device and interface is stored; any other mode shows everything |
| Display.ShownExact | discovery_listener_gui.py:543-546 | an entry is displayed exactly when it is stored and the filter shows it |
| Display.ShownAll | discovery_listener_gui.py:543-546 | mode "both" displays the whole table in order |
| Display.Refresh | discovery_listener_gui.py:538-567 | displayed CDP and LLDP counts never exceed the stored totals |
| Display.SingleProtocolCounts | discovery_listener_gui.py:554-557 | mode "cdp" displays every CDP entry and no LLDP entry, and mode "lldp" the other way round |
| Display.AutoShowsAllCdp | discovery_listener_gui.py:554-557 | mode "auto" displays every CDP entry |

## Left out

- Threads, the capture loop and its stop event: starting and stopping are modelled as a running flag that the packet handler consults.
- The packet capture library, its capture filters and the packet queue: frames arrive as byte sequences. The CDP capture filter is the predicate `CdpCapture.Delivered`. The combined capture's filter passes every frame the classifier accepts. It also passes frames under 14 bytes that carry a discovery destination, and the classifier calls those unknown. The model therefore hands every frame to the classifier and leaves the filter out.
- Interface enumeration by the operating system and the Windows registry: the interface table, address entries and statistics are inputs. The display name is the interface name.
- The interface name conversion for the capture library and the list of available names: they only wrap foreign calls.
- Clocks: the capture time is a parameter `now`. Its formatting for display is left out.
- The set-based merge of IP and management addresses in the detail dictionary: its order is not determined. The merged text is a parameter, so `Neighbor.ToDict` does not fix it. That includes the one determined case: with no IP and no management address the program shows "N/A".
- The back-reference from a neighbour to the record it came from: no modelled operation reads it.
- Window widgets, colours, row data, scrolling, label text and file export.
- Diagnostic printing and the exception handlers around decoding and callbacks.
- The order in which the neighbour lists are returned: the model keeps maps.
- The packaging script and the start-up checks.
- Bytes.Decode: the UTF-8 decode that drops invalid bytes is modelled as ASCII. Bytes of 0x80 and above are dropped, so multi-byte characters are not reproduced.
- Discovery.ReceiveMirrored: holds only when no managed interface name contains ":". `CdpCapture.AggregateKeyCollision` shows why: otherwise two neighbours on different interfaces can share a combined key, and the later one overwrites the earlier one.
- CdpCapture.ReceiveInvariant: needs the same restriction for the same reason.

=== FILE: bytes.dfy ===
/** Octets, big-endian integer fields and the text conventions shared by the
    CDP and LLDP decoders. */
module Bytes {

  /** One octet of a captured frame. */
  type Byte = b: int | 0 <= b < 0x100

  /** An absent-or-present value: Python's `Optional`, and a decoder's `None`. */
  datatype Option<+T> = None | Some(value: T)

  /** The big-endian unsigned 16-bit field at offset `i` (`struct.unpack(">H", …)`). */
  function ReadU16(s: seq<Byte>, i: nat): (r: nat)
    requires i + 2 <= |s|
    ensures r < 0x1_0000
  {
    s[i] as int * 0x100 + s[i + 1] as int
  }

  /** The big-endian unsigned 32-bit field at offset `i` (`struct.unpack(">I", …)`). */
  function ReadU32(s: seq<Byte>, i: nat): (r: nat)
    requires i + 4 <= |s|
    ensures r < 0x1_0000_0000
  {
    ReadU16(s, i) * 0x1_0000 + ReadU16(s, i + 2)
  }

  /** The big-endian 2-byte encoding of `v`. */
  function U16Bytes(v: nat): (r: seq<Byte>)
    requires v < 0x1_0000
    ensures |r| == 2
    ensures ReadU16(r, 0) == v
  {
    [v / 0x100, v % 0x100]
  }

  /** The big-endian 4-byte encoding of `v`. */
  function U32Bytes(v: nat): (r: seq<Byte>)
    requires v < 0x1_0000_0000
    ensures |r| == 4
    ensures ReadU32(r, 0) == v
  {
    var hi := U16Bytes(v / 0x1_0000);
    var lo := U16Bytes(v % 0x1_0000);
    assert (hi + lo)[2..4] == lo;
    hi + lo
  }

  lemma {:induction false} Assoc<T>(a: seq<T>, b: seq<T>, c: seq<T>)
    ensures (a + b) + c == a + (b + c)
  {
  }

  /** Splitting off the head of a non-empty sequence and appending. */
  lemma {:induction false} ConsAppend<T>(s: seq<T>, x: seq<T>)
    requires s != []
    ensures [s[0]] + (s[1..] + x) == s + x
  {
    assert s == [s[0]] + s[1..];
  }

  /** Reading a 16-bit field through a window: the field at `off + i` of `s` is the
      field at `i` of any slice of `s` starting at `off`. */
  lemma {:induction false} ReadU16Window(s: seq<Byte>, off: nat, w: seq<Byte>, i: nat)
    requires off + |w| <= |s| && s[off..off + |w|] == w
    requires i + 2 <= |w|
    ensures ReadU16(s, off + i) == ReadU16(w, i)
  {
    assert s[off + i] == w[i];
    assert s[off + i + 1] == w[i + 1];
  }

  /** A sub-slice of a window is the corresponding slice of the whole sequence. */
  lemma {:induction false} SubWindow<T>(data: seq<T>, off: nat, w: seq<T>, i: nat, j: nat)
    requires off + |w| <= |data| && data[off..off + |w|] == w
    requires i <= j <= |w|
    ensures data[off + i..off + j] == w[i..j]
  {
    forall k | 0 <= k < j - i
      ensures data[off + i..off + j][k] == w[i..j][k]
    {
      assert data[off + i + k] == data[off..off + |w|][i + k];
    }
  }

  predicate IsAscii(s: string)
  {
    forall i :: 0 <= i < |s| ==> s[i] as int < 0x80
  }

  /** The text decode applied to every string-valued TLV, `decode("utf-8",
      errors="ignore")`, restricted to ASCII: a byte below 0x80 becomes the
      character with that code, and any other byte is dropped. */
  function Decode(bs: seq<Byte>): (r: string)
    ensures |r| <= |bs|
    ensures IsAscii(r)
  {
    if bs == [] then ""
    else (if bs[0] < 0x80 then [bs[0] as char] else []) + Decode(bs[1..])
  }

  /** The bytes of an ASCII string; `Decode` recovers the string. */
  function EncodeAscii(s: string): (r: seq<Byte>)
    requires IsAscii(s)
    ensures |r| == |s|
    ensures Decode(r) == s
  {
    if s == [] then []
    else
      var r := [s[0] as int as Byte] + EncodeAscii(s[1..]);
      assert r[1..] == EncodeAscii(s[1..]);
      r
  }

  const Nul: char := 0 as char

  /** Python's `s.strip("\x00")`: drop leading and trailing NUL characters. */
  function StripNul(s: string): (r: string)
    ensures |r| <= |s|
    ensures r == [] || (r[0] != Nul && r[|r| - 1] != Nul)
    ensures IsAscii(s) ==> IsAscii(r)
  {
    StripTrailingNul(StripLeadingNul(s))
  }

  function StripLeadingNul(s: string): (r: string)
    ensures |r| <= |s|
    ensures r == [] || r[0] != Nul
    ensures IsAscii(s) ==> IsAscii(r)
  {
    if s != [] && s[0] == Nul then StripLeadingNul(s[1..]) else s
  }

  function StripTrailingNul(s: string): (r: string)
    ensures |r| <= |s|
    ensures r == [] || r[|r| - 1] != Nul
    ensures r != [] ==> r[0] == s[0]
    ensures IsAscii(s) ==> IsAscii(r)
  {
    if s != [] && s[|s| - 1] == Nul then StripTrailingNul(s[..|s| - 1]) else s
  }

  /** `k` NUL characters. */
  function Nuls(k: nat): (r: string)
    ensures |r| == k
    ensures forall i :: 0 <= i < k ==> r[i] == Nul
  {
    seq(k, _ => Nul)
  }

  /** A string that `strip("\x00")` leaves alone: no NUL at either end. */
  predicate Unpadded(t: string)
  {
    t == [] || (t[0] != Nul && t[|t| - 1] != Nul)
  }

  lemma {:induction false} StripLeadingOfPadded(k: nat, t: string)
    requires t == [] || t[0] != Nul
    ensures StripLeadingNul(Nuls(k) + t) == t
    decreases k
  {
    if k > 0 {
      assert (Nuls(k) + t)[1..] == Nuls(k - 1) + t;
      StripLeadingOfPadded(k - 1, t);
    } else {
      assert Nuls(k) + t == t;
    }
  }

  lemma {:induction false} StripTrailingOfPadded(t: string, k: nat)
    requires t == [] || t[|t| - 1] != Nul
    ensures StripTrailingNul(t + Nuls(k)) == t
    decreases k
  {
    if k > 0 {
      assert (t + Nuls(k))[..|t| + k - 1] == t + Nuls(k - 1);
      StripTrailingOfPadded(t, k - 1);
    } else {
      assert t + Nuls(k) == t;
    }
  }

  /** `strip("\x00")` removes exactly the NUL padding around an unpadded text,
      whatever the amount of padding on either side. */
  lemma {:induction false} StripNulOfPadded(k1: nat, t: string, k2: nat)
    requires Unpadded(t)
    ensures StripNul(Nuls(k1) + t + Nuls(k2)) == t
  {
    if t == [] {
      assert Nuls(k1) + t + Nuls(k2) == Nuls(k1 + k2);
      StripLeadingOfPadded(k1 + k2, t);
      assert Nuls(k1 + k2) + t == Nuls(k1 + k2);
      assert StripLeadingNul(Nuls(k1 + k2)) == [];
    } else {
      assert Nuls(k1) + t + Nuls(k2) == Nuls(k1) + (t + Nuls(k2));
      StripLeadingOfPadded(k1, t + Nuls(k2));
      StripTrailingOfPadded(t, k2);
    }
  }

  /** Stripping twice is stripping once. */
  lemma {:induction false} StripNulIdempotent(s: string)
    ensures StripNul(StripNul(s)) == StripNul(s)
  {
    var r := StripNul(s);
    assert Nuls(0) + r + Nuls(0) == r;
    StripNulOfPadded(0, r, 0);
  }

  /** The decode-then-strip applied to DeviceID, PortID, Platform, Version and the
      other text TLVs. */
  function Text(bs: seq<Byte>): (r: string)
    ensures |r| <= |bs|
    ensures IsAscii(r) && Unpadded(r)
  {
    StripNul(Decode(bs))
  }

  /** An ASCII text without NUL at either end survives encoding and the
      decode-then-strip unchanged. */
  lemma {:induction false} TextOfEncoded(t: string)
    requires IsAscii(t) && Unpadded(t)
    ensures Text(EncodeAscii(t)) == t
  {
    assert Nuls(0) + t + Nuls(0) == t;
    StripNulOfPadded(0, t, 0);
  }
}

=== FILE: cdp.dfy ===
/** The CDP decoder (`CDPParser`): locating the CDP header in a captured frame,
    walking its chain of type/length TLVs, and dispatching each TLV to the field
    of the neighbour record it sets.

    The walk is split the way the source's loop reads: `Tlvs` is the structural
    walk (which TLVs the loop visits before it stops), and `ApplyAll` is the left
    fold of the per-type dispatch `ApplyTlv` over them. */
module Cdp {
  import opened Bytes
  import opened TypeLength
  import Strings
  import Render
  import Flags
  import CdpAddress

  const DeviceIdType: nat := 0x0001
  const AddressType: nat := 0x0002
  const PortIdType: nat := 0x0003
  const CapabilitiesType: nat := 0x0004
  const VersionType: nat := 0x0005
  const PlatformType: nat := 0x0006
  const VtpDomainType: nat := 0x0009
  const NativeVlanType: nat := 0x000A
  const DuplexType: nat := 0x000B
  const VoiceVlanType: nat := 0x000E
  const MgmtAddressType: nat := 0x0016

  /** The TLV types the dispatch acts on; every other type is skipped. */
  predicate Known(typ: nat)
  {
    || typ == DeviceIdType || typ == AddressType || typ == PortIdType || typ == CapabilitiesType
    || typ == VersionType || typ == PlatformType || typ == VtpDomainType || typ == NativeVlanType
    || typ == DuplexType || typ == VoiceVlanType || typ == MgmtAddressType
  }

  /** Bit `i` of the capability word names `CapabilityNames[i]`
      (0x01 Router … 0x40 Repeater). */
  const CapabilityNames: seq<string> :=
    ["Router", "Trans-Bridge", "Source-Bridge", "Switch", "Host", "IGMP", "Repeater"]

  /** The CDP hold time a fresh record starts with, in seconds. */
  const DefaultTtl: nat := 180

  /** `CDPNeighbor`. The `protocol` field is always "CDP" and is not stored;
      `last_seen` is the capture time, supplied by the caller. */
  datatype CdpNeighbor = CdpNeighbor(
    deviceId: string,
    ipAddresses: seq<string>,
    portId: string,
    capabilities: seq<string>,
    softwareVersion: string,
    platform: string,
    nativeVlan: Option<nat>,
    voiceVlan: Option<nat>,
    duplex: Option<string>,
    vtpDomain: string,
    mgmtAddresses: seq<string>,
    sourceMac: string,
    localInterface: string,
    localPortSpeed: string,
    lastSeen: int,
    ttl: nat)

  /** A record with every field at its default, as `CDPNeighbor()` builds it. */
  function Default(now: int): (r: CdpNeighbor)
    ensures r.ttl == DefaultTtl && r.lastSeen == now
    ensures r.deviceId == "" && r.portId == "" && r.ipAddresses == [] && r.capabilities == []
    ensures r.softwareVersion == "" && r.platform == "" && r.vtpDomain == "" && r.mgmtAddresses == []
    ensures r.nativeVlan.None? && r.voiceVlan.None? && r.duplex.None?
    ensures r.sourceMac == "" && r.localInterface == "" && r.localPortSpeed == ""
  {
    CdpNeighbor("", [], "", [], "", "", None, None, None, "", [], "", "", "", now, DefaultTtl)
  }

  /** `parse_capabilities`: the chain of flag tests over the capability table. */
  function ParseCapabilities(v: nat): (r: seq<string>)
    ensures |r| <= |CapabilityNames|
    ensures Flags.InTableOrder(r, CapabilityNames)
  {
    Flags.DecodeInTableOrder(v, CapabilityNames);
    Flags.DecodeFlags(v, CapabilityNames)
  }

  /** The capability list names exactly the set bits among the low seven, in
      table order. */
  lemma {:induction false} CapabilitiesMembership(v: nat)
    ensures forall i :: 0 <= i < |CapabilityNames| ==>
      (CapabilityNames[i] in ParseCapabilities(v) <==> Flags.Bit(v, i))
    ensures Flags.InTableOrder(ParseCapabilities(v), CapabilityNames)
  {
    CapabilityNamesDistinct();
    forall i | 0 <= i < |CapabilityNames|
      ensures CapabilityNames[i] in Flags.DecodeFlags(v, CapabilityNames) <==> Flags.Bit(v, i)
    {
      Flags.DecodeMembership(v, CapabilityNames, i);
    }
    Flags.DecodeInTableOrder(v, CapabilityNames);
  }

  lemma {:induction false} CapabilityTableSize()
    ensures Flags.Pow2(|CapabilityNames|) == 0x80
  {
    assert Flags.Pow2(0) == 1;
    assert Flags.Pow2(1) == 2;
    assert Flags.Pow2(2) == 4;
    assert Flags.Pow2(3) == 8;
    assert Flags.Pow2(4) == 16;
    assert Flags.Pow2(5) == 32;
    assert Flags.Pow2(6) == 64;
  }

  lemma {:induction false} CapabilityNamesDistinct()
    ensures Flags.Distinct(CapabilityNames)
  {
  }

  /** Bits above 0x40 never change the capability list. */
  lemma {:induction false} CapabilitiesIgnoreHighBits(v: nat, k: nat)
    ensures ParseCapabilities(v + 0x80 * k) == ParseCapabilities(v)
  {
    CapabilityTableSize();
    Flags.HighBitsIgnored(v, k, CapabilityNames);
  }

  /** The capability list names exactly the bits it was decoded from: encoding it
      again gives back the low seven bits. */
  lemma {:induction false} CapabilitiesRoundTrip(v: nat)
    requires v < 0x80
    ensures Flags.EncodeFlags(ParseCapabilities(v), CapabilityNames) == v
  {
    CapabilityNamesDistinct();
    CapabilityTableSize();
    Flags.EncodeDecode(v, CapabilityNames);
  }

  /** 0x28 = Switch (0x08) + IGMP (0x20). */
  lemma {:induction false} CapabilitiesExample()
    ensures ParseCapabilities(0x28) == ["Switch", "IGMP"]
  {
    var ns := CapabilityNames;
    assert Flags.DecodeFlags(0, ns[7..]) == [];
    assert Flags.DecodeFlags(0, ns[6..]) == [];
    assert Flags.DecodeFlags(1, ns[5..]) == ["IGMP"];
    assert Flags.DecodeFlags(2, ns[4..]) == ["IGMP"];
    assert Flags.DecodeFlags(5, ns[3..]) == ["Switch", "IGMP"];
    assert Flags.DecodeFlags(10, ns[2..]) == ["Switch", "IGMP"];
    assert Flags.DecodeFlags(20, ns[1..]) == ["Switch", "IGMP"];
    assert Flags.DecodeFlags(40, ns) == ["Switch", "IGMP"];
  }

  // ---------------------------------------------------------------------------
  // Header location

  /** The 802.3 frame carries the LLC/SNAP header AA AA 03 / 00 00 0C / 20 00 at
      bytes 14..21, so CDP starts at byte 22. */
  predicate SnapHeader(raw: seq<Byte>)
  {
    |raw| >= 26
    && raw[14] == 0xAA && raw[15] == 0xAA && raw[16] == 0x03
    && raw[17] == 0x00 && raw[18] == 0x00 && raw[19] == 0x0C
    && raw[20] == 0x20 && raw[21] == 0x00
  }

  /** The fallback signature at offset `i`: a version byte of 1 or 2, a nonzero
      TTL, and a Device-ID TLV header (type 1, length strictly between 4 and 256)
      right after the 4-byte CDP header. */
  predicate Signature(raw: seq<Byte>, i: nat)
  {
    i + 8 <= |raw|
    && (raw[i] == 1 || raw[i] == 2) && raw[i + 1] > 0
    && ReadU16(raw, i + 4) == DeviceIdType
    && 4 < ReadU16(raw, i + 6) < 256
  }

  /** The end of the scan range, `min(50, len - 4)`. */
  function ScanEnd(raw: seq<Byte>): int
  {
    if 50 < |raw| - 4 then 50 else |raw| - 4
  }

  /** The first offset in `[i, ScanEnd)` carrying the signature. */
  function Scan(raw: seq<Byte>, i: nat): (r: Option<nat>)
    ensures r.Some? ==> i <= r.value < ScanEnd(raw) && Signature(raw, r.value)
    ensures r.Some? ==> forall j :: i <= j < r.value ==> !Signature(raw, j)
    ensures r.None? ==> forall j :: i <= j < ScanEnd(raw) ==> !Signature(raw, j)
    decreases 50 - i
  {
    if i >= ScanEnd(raw) then None
    else if Signature(raw, i) then Some(i)
    else Scan(raw, i + 1)
  }

  /** Where the CDP header starts: byte 22 behind an LLC/SNAP header, else the
      first signature offset from 14, else nowhere. */
  function FindStart(raw: seq<Byte>): (r: Option<nat>)
    ensures SnapHeader(raw) ==> r == Some(22)
    ensures !SnapHeader(raw) ==> r == Scan(raw, 14)
    ensures r.Some? ==> r.value + 4 <= |raw|
  {
    if SnapHeader(raw) then Some(22) else Scan(raw, 14)
  }

  /** The first signature offset is the first one the scan loop meets. */
  method FindStartLoop(raw: seq<Byte>) returns (r: Option<nat>)
    ensures r == FindStart(raw)
  {
    if SnapHeader(raw) {
      return Some(22);
    }
    var i := 14;
    while i < ScanEnd(raw)
      invariant 14 <= i
      invariant Scan(raw, i) == Scan(raw, 14)
      decreases 50 - i
    {
      if Signature(raw, i) {
        return Some(i);
      }
      i := i + 1;
    }
    return None;
  }

  /** The LLC/SNAP check wins over the signature scan, even where the scan would
      find an earlier offset. */
  lemma {:induction false} SnapHeaderWins(raw: seq<Byte>)
    requires SnapHeader(raw) && Scan(raw, 14).Some?
    ensures FindStart(raw) == Some(22)
    ensures Scan(raw, 14).value != 22 ==> FindStart(raw) != Scan(raw, 14)
  {
  }

  // ---------------------------------------------------------------------------
  // TLV walk

  /** The bytes a run of TLVs occupies on the wire: each takes its 4-byte header
      plus its payload. */
  function Span(ts: seq<Tlv>): nat
  {
    if ts == [] then 0 else |ts[0].payload| + 4 + Span(ts[1..])
  }

  /** The TLVs the walk visits from `offset`: it stops before a header that does
      not fit, a declared length below 4, or a TLV running past the frame. */
  function Tlvs(raw: seq<Byte>, offset: nat): (r: seq<Tlv>)
    ensures r != [] ==> offset + 4 * |r| <= |raw|
    decreases |raw| - offset
  {
    if offset + 4 > |raw| then []
    else
      var typ := ReadU16(raw, offset);
      var len := ReadU16(raw, offset + 2);
      if len < 4 || offset + len > |raw| then []
      else [Tlv(typ, raw[offset + 4..offset + len])] + Tlvs(raw, offset + len)
  }

  /** What the walk visits never extends past the end of the frame: the walk
      only reads bytes that are there. */
  lemma {:induction false} TlvsWithinFrame(raw: seq<Byte>, offset: nat)
    ensures Tlvs(raw, offset) != [] ==> offset + Span(Tlvs(raw, offset)) <= |raw|
    decreases |raw| - offset
  {
    if offset + 4 <= |raw| {
      var len := ReadU16(raw, offset + 2);
      if 4 <= len && offset + len <= |raw| {
        TlvsWithinFrame(raw, offset + len);
        var r := Tlvs(raw, offset);
        assert r[1..] == Tlvs(raw, offset + len);
      }
    }
  }

  /** The walk starts with the TLV whose header sits at `offset`, and every TLV
      it visits ends inside the frame. */
  lemma {:induction false} TlvsFirst(raw: seq<Byte>, offset: nat)
    requires Tlvs(raw, offset) != []
    ensures offset + 4 <= |raw|
    ensures Tlvs(raw, offset)[0].typ == ReadU16(raw, offset)
    ensures offset + |Tlvs(raw, offset)[0].payload| + 4 == offset + ReadU16(raw, offset + 2) <= |raw|
    ensures Tlvs(raw, offset)[0].payload == raw[offset + 4..offset + ReadU16(raw, offset + 2)]
  {
  }

  /** The Duplex payload's first byte: nonzero is full duplex, zero is half. */
  function DuplexValue(p: seq<Byte>): (r: string)
    requires |p| >= 1
    ensures r == "Full" || r == "Half"
    ensures r == "Full" <==> p[0] != 0
  {
    if p[0] != 0 then "Full" else "Half"
  }

  /** The Voice VLAN payload is a 1-byte flag followed by the VLAN id; a bare
      2-byte payload is read as the id alone. */
  function VoiceVlanValue(p: seq<Byte>): (r: nat)
    requires |p| >= 2
    ensures r < 0x1_0000
    ensures |p| >= 3 ==> p[1..3] == U16Bytes(r)
    ensures |p| == 2 ==> p == U16Bytes(r)
  {
    if |p| >= 3 then ReadU16(p, 1) else ReadU16(p, 0)
  }

  /** The dispatch on one TLV: the field its type selects, under that field's
      payload-length condition; any other TLV leaves the record as it is. */
  function ApplyTlv(n: CdpNeighbor, t: Tlv): (r: CdpNeighbor)
    ensures r.sourceMac == n.sourceMac && r.localInterface == n.localInterface
    ensures r.localPortSpeed == n.localPortSpeed && r.lastSeen == n.lastSeen && r.ttl == n.ttl
  {
    var p := t.payload;
    if t.typ == DeviceIdType then n.(deviceId := Text(p))
    else if t.typ == AddressType then n.(ipAddresses := CdpAddress.ParseAddress(p))
    else if t.typ == PortIdType then n.(portId := Text(p))
    else if t.typ == CapabilitiesType then (if |p| >= 4 then n.(capabilities := ParseCapabilities(ReadU32(p, 0))) else n)
    else if t.typ == VersionType then n.(softwareVersion := Text(p))
    else if t.typ == PlatformType then n.(platform := Text(p))
    else if t.typ == NativeVlanType then (if |p| >= 2 then n.(nativeVlan := Some(ReadU16(p, 0))) else n)
    else if t.typ == VoiceVlanType then (if |p| >= 2 then n.(voiceVlan := Some(VoiceVlanValue(p))) else n)
    else if t.typ == DuplexType then (if |p| >= 1 then n.(duplex := Some(DuplexValue(p))) else n)
    else if t.typ == VtpDomainType then n.(vtpDomain := Text(p))
    else if t.typ == MgmtAddressType then n.(mgmtAddresses := CdpAddress.ParseAddress(p))
    else n
  }

  /** A TLV of a type outside the dispatch, such as IP Prefix (7), Trust Bitmap
      (0x12) or Power Available (0x1A), changes nothing. */
  lemma {:induction false} UnknownTlvIgnored(n: CdpNeighbor, t: Tlv)
    requires !Known(t.typ)
    ensures ApplyTlv(n, t) == n
  {
  }

  /** Which field each TLV sets: exactly the field its type selects, under that
      field's payload-length condition. */
  lemma {:induction false} ApplyTlvTextFields(n: CdpNeighbor, t: Tlv)
    ensures ApplyTlv(n, t).deviceId == if t.typ == DeviceIdType then Text(t.payload) else n.deviceId
    ensures ApplyTlv(n, t).portId == if t.typ == PortIdType then Text(t.payload) else n.portId
    ensures ApplyTlv(n, t).softwareVersion == if t.typ == VersionType then Text(t.payload) else n.softwareVersion
    ensures ApplyTlv(n, t).platform == if t.typ == PlatformType then Text(t.payload) else n.platform
    ensures ApplyTlv(n, t).vtpDomain == if t.typ == VtpDomainType then Text(t.payload) else n.vtpDomain
  {
  }

  lemma {:induction false} ApplyTlvAddressFields(n: CdpNeighbor, t: Tlv)
    ensures ApplyTlv(n, t).ipAddresses ==
      if t.typ == AddressType then CdpAddress.ParseAddress(t.payload) else n.ipAddresses
    ensures ApplyTlv(n, t).mgmtAddresses ==
      if t.typ == MgmtAddressType then CdpAddress.ParseAddress(t.payload) else n.mgmtAddresses
  {
  }

  lemma {:induction false} ApplyTlvNumericFields(n: CdpNeighbor, t: Tlv)
    ensures ApplyTlv(n, t).capabilities ==
      if t.typ == CapabilitiesType && |t.payload| >= 4 then ParseCapabilities(ReadU32(t.payload, 0)) else n.capabilities
    ensures ApplyTlv(n, t).nativeVlan ==
      if t.typ == NativeVlanType && |t.payload| >= 2 then Some(ReadU16(t.payload, 0)) else n.nativeVlan
    ensures ApplyTlv(n, t).voiceVlan ==
      if t.typ == VoiceVlanType && |t.payload| >= 2 then Some(VoiceVlanValue(t.payload)) else n.voiceVlan
    ensures ApplyTlv(n, t).duplex ==
      if t.typ == DuplexType && |t.payload| >= 1 then Some(DuplexValue(t.payload)) else n.duplex
  {
  }

  /** The dispatch applied to each TLV in turn, first to last: the record the
      loop holds after visiting `ts`. */
  function ApplyAll(n: CdpNeighbor, ts: seq<Tlv>): (r: CdpNeighbor)
    ensures r.sourceMac == n.sourceMac && r.localInterface == n.localInterface
    ensures r.localPortSpeed == n.localPortSpeed && r.lastSeen == n.lastSeen && r.ttl == n.ttl
    decreases |ts|
  {
    if ts == [] then n else ApplyTlv(ApplyAll(n, ts[..|ts| - 1]), ts[|ts| - 1])
  }

  /** The loop's view of one step: the record after one more TLV. */
  lemma {:induction false} ApplyAllSnoc(n: CdpNeighbor, ts: seq<Tlv>, t: Tlv)
    ensures ApplyAll(n, ts + [t]) == ApplyTlv(ApplyAll(n, ts), t)
  {
    assert (ts + [t])[..|ts|] == ts;
  }

  /** The loop's view of one step, from the front: the first TLV is applied
      before the rest. */
  lemma {:induction false} ApplyAllCons(n: CdpNeighbor, t: Tlv, ts: seq<Tlv>)
    ensures ApplyAll(n, [t] + ts) == ApplyAll(ApplyTlv(n, t), ts)
  {
    ApplyAllAppend(n, [t], ts);
    assert [t][..0] == [];
  }

  /** Applying two runs of TLVs one after the other is applying their
      concatenation. */
  lemma {:induction false} ApplyAllAppend(n: CdpNeighbor, a: seq<Tlv>, b: seq<Tlv>)
    ensures ApplyAll(n, a + b) == ApplyAll(ApplyAll(n, a), b)
    decreases |b|
  {
    if b == [] {
      assert a + b == a;
    } else {
      var b' := b[..|b| - 1];
      assert (a + b)[..|a + b| - 1] == a + b';
      assert (a + b)[|a + b| - 1] == b[|b| - 1];
      ApplyAllAppend(n, a, b');
    }
  }

  function AddressesOr(p: Option<seq<Byte>>, default: seq<string>): seq<string>
  {
    match p
    case None => default
    case Some(bs) => CdpAddress.ParseAddress(bs)
  }

  /** Every text field holds the decoded text of the LAST TLV of its type, and
      keeps its earlier value when there is none. */
  lemma {:induction false} TextFieldsLastWins(n: CdpNeighbor, ts: seq<Tlv>)
    ensures ApplyAll(n, ts).deviceId == TextOr(LastPayload(ts, DeviceIdType, 0), n.deviceId)
    ensures ApplyAll(n, ts).portId == TextOr(LastPayload(ts, PortIdType, 0), n.portId)
    ensures ApplyAll(n, ts).softwareVersion == TextOr(LastPayload(ts, VersionType, 0), n.softwareVersion)
    ensures ApplyAll(n, ts).platform == TextOr(LastPayload(ts, PlatformType, 0), n.platform)
    ensures ApplyAll(n, ts).vtpDomain == TextOr(LastPayload(ts, VtpDomainType, 0), n.vtpDomain)
    decreases |ts|
  {
    if ts != [] {
      TextFieldsLastWins(n, ts[..|ts| - 1]);
      ApplyTlvTextFields(ApplyAll(n, ts[..|ts| - 1]), ts[|ts| - 1]);
    }
  }

  /** Both address lists hold the decoding of the LAST Address (resp. Management
      Address) TLV. */
  lemma {:induction false} AddressFieldsLastWins(n: CdpNeighbor, ts: seq<Tlv>)
    ensures ApplyAll(n, ts).ipAddresses == AddressesOr(LastPayload(ts, AddressType, 0), n.ipAddresses)
    ensures ApplyAll(n, ts).mgmtAddresses == AddressesOr(LastPayload(ts, MgmtAddressType, 0), n.mgmtAddresses)
    decreases |ts|
  {
    if ts != [] {
      AddressFieldsLastWins(n, ts[..|ts| - 1]);
      ApplyTlvAddressFields(ApplyAll(n, ts[..|ts| - 1]), ts[|ts| - 1]);
    }
  }

  /** The capability list, the VLANs and the duplex come from the LAST TLV of
      their type that is long enough to be decoded (4, 2, 2 and 1 payload
      bytes); shorter ones are skipped. */
  lemma {:induction false} NumericFieldsLastWins(n: CdpNeighbor, ts: seq<Tlv>)
    ensures ApplyAll(n, ts).capabilities ==
      (match LastPayload(ts, CapabilitiesType, 4)
       case None => n.capabilities
       case Some(p) => ParseCapabilities(ReadU32(p, 0)))
    ensures ApplyAll(n, ts).nativeVlan ==
      (match LastPayload(ts, NativeVlanType, 2)
       case None => n.nativeVlan
       case Some(p) => Some(ReadU16(p, 0)))
    ensures ApplyAll(n, ts).voiceVlan ==
      (match LastPayload(ts, VoiceVlanType, 2)
       case None => n.voiceVlan
       case Some(p) => Some(VoiceVlanValue(p)))
    ensures ApplyAll(n, ts).duplex ==
      (match LastPayload(ts, DuplexType, 1)
       case None => n.duplex
       case Some(p) => Some(DuplexValue(p)))
    decreases |ts|
  {
    if ts != [] {
      NumericFieldsLastWins(n, ts[..|ts| - 1]);
      ApplyTlvNumericFields(ApplyAll(n, ts[..|ts| - 1]), ts[|ts| - 1]);
    }
  }

  /** Whatever the flag byte and whatever follows the id, a Voice VLAN payload
      of three or more bytes yields the id encoded after the flag, and a bare
      two-byte payload yields the id it encodes. */
  lemma {:induction false} VoiceVlanRead(flag: Byte, v: nat, rest: seq<Byte>)
    requires v < 0x1_0000
    ensures VoiceVlanValue([flag] + U16Bytes(v) + rest) == v
    ensures VoiceVlanValue(U16Bytes(v)) == v
  {
  }

  /** Every applied Duplex TLV records a duplex, full exactly when its first
      byte is nonzero. */
  lemma {:induction false} DuplexRule(n: CdpNeighbor, p: seq<Byte>)
    requires |p| >= 1
    ensures ApplyTlv(n, Tlv(DuplexType, p)).duplex.Some?
    ensures ApplyTlv(n, Tlv(DuplexType, p)).duplex == Some("Full") <==> p[0] != 0
    ensures ApplyTlv(n, Tlv(DuplexType, p)).duplex == Some("Half") <==> p[0] == 0
  {
  }

  /** Voice VLAN: with the flag byte, the id is the two bytes after it. */
  lemma {:induction false} VoiceVlanExamples()
    ensures VoiceVlanValue([1, 0, 10]) == 10
    ensures VoiceVlanValue([0, 10]) == 10
    ensures VoiceVlanValue([1, 0x01, 0x2C, 0xFF]) == 300
  {
  }

  /** `parse_raw_cdp`: no record when no header is found (or the header does not
      fit); otherwise the record built by the TLV walk from header + 4, with the
      TTL taken from the byte after the version. */
  function ParseRaw(raw: seq<Byte>, sourceMac: string, now: int): (r: Option<CdpNeighbor>)
    ensures FindStart(raw).None? <==> r.None?
    ensures r.Some? ==> r.value.ttl == raw[FindStart(raw).value + 1]
    ensures r.Some? ==> r.value.sourceMac == sourceMac && r.value.lastSeen == now
    ensures r.Some? ==> r.value.localInterface == "" && r.value.localPortSpeed == ""
  {
    match FindStart(raw)
    case None => None
    case Some(start) =>
      if |raw| < start + 4 then None
      else Some(ApplyAll(Default(now).(sourceMac := sourceMac, ttl := raw[start + 1]), Tlvs(raw, start + 4)))
  }

  /** The `while offset + 4 <= len(raw_data)` loop of `parse_raw_cdp`, field
      updates in place. */
  method ParseRawLoop(raw: seq<Byte>, sourceMac: string, now: int) returns (r: Option<CdpNeighbor>)
    ensures r == ParseRaw(raw, sourceMac, now)
  {
    var found := FindStartLoop(raw);
    if found.None? {
      return None;
    }
    var start := found.value;
    if |raw| < start + 4 {
      return None;
    }
    var n := WalkLoop(raw, Default(now).(sourceMac := sourceMac, ttl := raw[start + 1]), start + 4);
    return Some(n);
  }

  /** The TLV loop itself: from `offset`, each well-formed TLV updates the
      record in place until the first one that does not fit. */
  method WalkLoop(raw: seq<Byte>, n0: CdpNeighbor, start: nat) returns (n: CdpNeighbor)
    requires start <= |raw|
    ensures n == ApplyAll(n0, Tlvs(raw, start))
  {
    n := n0;
    var offset := start;
    while offset + 4 <= |raw|
      invariant offset <= |raw|
      invariant ApplyAll(n, Tlvs(raw, offset)) == ApplyAll(n0, Tlvs(raw, start))
      decreases |raw| - offset
    {
      var stop;
      n, offset, stop := WalkStep(raw, n, offset);
      if stop {
        return;
      }
    }
  }

  /** One pass of the loop body: reads the header at `offset`, stops on a
      malformed one, and otherwise applies the TLV and moves past it. */
  method WalkStep(raw: seq<Byte>, n: CdpNeighbor, offset: nat) returns (n': CdpNeighbor, offset': nat, stop: bool)
    requires offset + 4 <= |raw|
    ensures stop ==> Tlvs(raw, offset) == [] && n' == n
    ensures !stop ==> offset + 4 <= offset' <= |raw|
    ensures !stop ==> ApplyAll(n', Tlvs(raw, offset')) == ApplyAll(n, Tlvs(raw, offset))
  {
    var typ := ReadU16(raw, offset);
    var len := ReadU16(raw, offset + 2);
    if len < 4 || offset + len > |raw| {
      return n, offset, true;
    }
    var t := Tlv(typ, raw[offset + 4..offset + len]);
    TlvsStep(raw, offset);
    ApplyAllCons(n, t, Tlvs(raw, offset + len));
    return ApplyTlv(n, t), offset + len, false;
  }

  /** One step of the walk over a well-formed TLV header. */
  lemma {:induction false} TlvsStep(raw: seq<Byte>, offset: nat)
    requires offset + 4 <= |raw|
    requires 4 <= ReadU16(raw, offset + 2) && offset + ReadU16(raw, offset + 2) <= |raw|
    ensures Tlvs(raw, offset) ==
      [Tlv(ReadU16(raw, offset), raw[offset + 4..offset + ReadU16(raw, offset + 2)])]
      + Tlvs(raw, offset + ReadU16(raw, offset + 2))
  {
  }

  /** `parse_cdp_packet`: the raw decode with the frame's own source MAC. */
  function ParsePacket(raw: seq<Byte>, now: int): (r: Option<CdpNeighbor>)
    ensures r.Some? <==> FindStart(raw).Some?
    ensures r.Some? ==> r.value.sourceMac == Render.SourceMac(raw)
  {
    ParseRaw(raw, Render.SourceMac(raw), now)
  }
}

=== FILE: cdp_address.dfy ===
/** The payload of the CDP Address and Management-Address TLVs
    (`CDPParser.parse_address`): a 4-byte entry count, then per entry a 1-byte
    protocol type, a 1-byte protocol length, that many protocol bytes, a 2-byte
    address length and the address. Only 4-byte (IPv4) addresses are kept.

    The walk over the entries yields the raw 4-octet addresses; the
    dotted-decimal rendering is applied to them afterwards, which is the same
    list the source builds entry by entry. */
module CdpAddress {
  import opened Bytes
  import Render

  /** Text that reads back as exactly four octets of dotted decimal. */
  predicate IsIpv4Text(s: string)
  {
    var p := Render.ParseDottedDecimal(s);
    p.Some? && |p.value| == 4
  }

  /** The four octets at offset `i`: `data[offset:offset + 4]`, written out
      element by element. */
  function Octets4(s: seq<Byte>, i: nat): (r: seq<Byte>)
    requires i + 4 <= |s|
    ensures |r| == 4
  {
    [s[i], s[i + 1], s[i + 2], s[i + 3]]
  }

  /** The dotted-decimal rendering of each address, in order. */
  function RenderAll(qs: seq<seq<Byte>>): (r: seq<string>)
    ensures |r| == |qs|
  {
    if qs == [] then [] else [Render.DottedDecimal(qs[0])] + RenderAll(qs[1..])
  }

  lemma {:induction false} RenderAllIndex(qs: seq<seq<Byte>>, i: nat)
    requires i < |qs|
    ensures RenderAll(qs)[i] == Render.DottedDecimal(qs[i])
    decreases i
  {
    if i > 0 {
      RenderAllIndex(qs[1..], i - 1);
    }
  }

  lemma {:induction false} RenderAllAppend(a: seq<seq<Byte>>, b: seq<seq<Byte>>)
    ensures RenderAll(a + b) == RenderAll(a) + RenderAll(b)
    decreases |a|
  {
    if a != [] {
      assert (a + b)[1..] == a[1..] + b;
      RenderAllAppend(a[1..], b);
    } else {
      assert a + b == b;
    }
  }

  /** The 4-octet addresses of at most `remaining` entries starting at `offset`.
      A truncated entry ends the walk and keeps what was read before it. */
  function Walk(data: seq<Byte>, offset: nat, remaining: nat): (r: seq<seq<Byte>>)
    ensures |r| <= remaining
    ensures forall k :: 0 <= k < |r| ==> |r[k]| == 4
    decreases remaining
  {
    if remaining == 0 then []
    else if offset + 2 > |data| then []
    else
      var protoStart := offset + 2;
      var protoLen := data[offset + 1] as nat;
      if protoStart + protoLen > |data| then []
      else
        var lenAt := protoStart + protoLen;
        if lenAt + 2 > |data| then []
        else
          var addrLen := ReadU16(data, lenAt);
          var addrStart := lenAt + 2;
          if addrStart + addrLen > |data| then []
          else
            (if addrLen == 4 then [Octets4(data, addrStart)] else [])
            + Walk(data, addrStart + addrLen, remaining - 1)
  }

  /** Every address the walk yields is four octets long. */
  lemma {:induction false} WalkQuads(data: seq<Byte>, offset: nat, remaining: nat, i: nat)
    requires i < |Walk(data, offset, remaining)|
    ensures |Walk(data, offset, remaining)[i]| == 4
    decreases remaining
  {
    var lenAt := offset + 2 + data[offset + 1] as nat;
    var addrLen := ReadU16(data, lenAt);
    var addrStart := lenAt + 2;
    if addrLen != 4 || i > 0 {
      WalkQuads(data, addrStart + addrLen, remaining - 1, if addrLen == 4 then i - 1 else i);
    }
  }

  /** `parse_address`: no addresses from a payload shorter than the count field;
      otherwise at most `count` addresses, each four octets in dotted decimal. */
  function ParseAddress(data: seq<Byte>): (r: seq<string>)
    ensures |data| < 4 ==> r == []
    ensures |data| >= 4 ==> |r| <= ReadU32(data, 0)
    ensures forall i :: 0 <= i < |r| ==> IsIpv4Text(r[i])
  {
    if |data| < 4 then []
    else
      var qs := Walk(data, 4, ReadU32(data, 0));
      ParseAddressIsIpv4(data, qs);
      RenderAll(qs)
  }

  lemma {:induction false} ParseAddressIsIpv4(data: seq<Byte>, qs: seq<seq<Byte>>)
    requires |data| >= 4 && qs == Walk(data, 4, ReadU32(data, 0))
    ensures forall i :: 0 <= i < |qs| ==> IsIpv4Text(RenderAll(qs)[i])
  {
    forall i | 0 <= i < |qs|
      ensures IsIpv4Text(RenderAll(qs)[i])
    {
      WalkQuads(data, 4, ReadU32(data, 0), i);
      RenderAllIndex(qs, i);
      Render.DottedDecimalRoundTrip(qs[i]);
    }
  }

  /** The loop of `parse_address` as written, appending each rendered address as
      it is read, computes `ParseAddress`. */
  method ParseAddressLoop(data: seq<Byte>) returns (addresses: seq<string>)
    ensures addresses == ParseAddress(data)
  {
    addresses := [];
    if |data| < 4 {
      return;
    }
    var count := ReadU32(data, 0);
    var offset: nat := 4;
    var done: nat := 0;
    assert [] + RenderAll(Walk(data, 4, count)) == RenderAll(Walk(data, 4, count));
    while done < count
      invariant done <= count
      invariant Progress(data, count, offset, count - done, addresses)
      decreases count - done
    {
      var entry := NextEntry(data, offset, count - done);
      if entry.None? {
        break;
      }
      var (addrStart, addrLen) := entry.value;
      var here := if addrLen == 4 then [Render.DottedDecimal(Octets4(data, addrStart))] else [];
      LoopStep(data, count, offset, count - done, addresses, addrStart, addrLen, here);
      addresses := addresses + here;
      offset := addrStart + addrLen;
      done := done + 1;
    }
  }

  /** The bounds checks of one iteration: where the address of the entry at
      `offset` starts and how long it is, or `None` when the entry does not fit
      and the loop stops. */
  method NextEntry(data: seq<Byte>, offset: nat, remaining: nat) returns (r: Option<(nat, nat)>)
    requires remaining > 0
    ensures r.None? ==> Walk(data, offset, remaining) == []
    ensures r.Some? ==>
      && offset + 2 <= |data|
      && r.value.0 == offset + 4 + data[offset + 1] as nat
      && r.value.0 <= |data|
      && r.value.1 == ReadU16(data, r.value.0 - 2)
      && r.value.0 + r.value.1 <= |data|
  {
    if offset + 2 > |data| {
      return None;
    }
    var protoLen := data[offset + 1] as nat;
    var next := offset + 2;
    if next + protoLen > |data| {
      return None;
    }
    next := next + protoLen;
    if next + 2 > |data| {
      return None;
    }
    var addrLen := ReadU16(data, next);
    next := next + 2;
    if next + addrLen > |data| {
      return None;
    }
    return Some((next, addrLen));
  }

  /** The addresses read so far followed by those still to be walked are the
      addresses of the whole payload. */
  ghost predicate Progress(data: seq<Byte>, count: nat, offset: nat, remaining: nat, addresses: seq<string>)
  {
    addresses + RenderAll(Walk(data, offset, remaining)) == RenderAll(Walk(data, 4, count))
  }

  /** One iteration of the loop moves one entry from the walk to the output. */
  lemma {:induction false} LoopStep(data: seq<Byte>, count: nat, offset: nat, remaining: nat, addresses: seq<string>,
                                    addrStart: nat, addrLen: nat, here: seq<string>)
    requires remaining > 0 && offset + 2 <= |data|
    requires addrStart == offset + 4 + data[offset + 1] as nat && addrStart <= |data|
    requires addrLen == ReadU16(data, addrStart - 2) && addrStart + addrLen <= |data|
    requires here == if addrLen == 4 then [Render.DottedDecimal(Octets4(data, addrStart))] else []
    requires Progress(data, count, offset, remaining, addresses)
    ensures Progress(data, count, addrStart + addrLen, remaining - 1, addresses + here)
  {
    var first := if addrLen == 4 then [Octets4(data, addrStart)] else [];
    var rest := Walk(data, addrStart + addrLen, remaining - 1);
    assert Walk(data, offset, remaining) == first + rest;
    RenderAllAppend(first, rest);
    assert RenderAll(first) == here;
    assert addresses + (here + RenderAll(rest)) == (addresses + here) + RenderAll(rest);
  }

  /** One address entry as it appears on the wire. */
  datatype Entry = Entry(protocolType: Byte, protocol: seq<Byte>, address: seq<Byte>)

  predicate WellFormed(e: Entry)
  {
    |e.protocol| < 0x100 && |e.address| < 0x1_0000
  }

  predicate AllWellFormed(es: seq<Entry>)
  {
    forall i :: 0 <= i < |es| ==> WellFormed(es[i])
  }

  function EncodeEntry(e: Entry): (r: seq<Byte>)
    requires WellFormed(e)
    ensures |r| == 4 + |e.protocol| + |e.address|
  {
    [e.protocolType, |e.protocol|] + e.protocol + U16Bytes(|e.address|) + e.address
  }

  function EncodeEntries(es: seq<Entry>): (r: seq<Byte>)
    requires AllWellFormed(es)
  {
    if es == [] then [] else EncodeEntry(es[0]) + EncodeEntries(es[1..])
  }

  /** The 4-octet addresses among the entries, in order. */
  function Ipv4Octets(es: seq<Entry>): seq<seq<Byte>>
  {
    if es == [] then []
    else
      var here := if |es[0].address| == 4 then [es[0].address] else [];
      here + Ipv4Octets(es[1..])
  }

  /** The renderings of the IPv4 entries, in order. */
  function Ipv4Addresses(es: seq<Entry>): seq<string>
  {
    RenderAll(Ipv4Octets(es))
  }

  /** Walking from `k + j` is walking the payload with its first `k` bytes cut off,
      from `j`. */
  lemma {:induction false} WalkShift(data: seq<Byte>, k: nat, j: nat, remaining: nat)
    requires k <= |data|
    ensures Walk(data, k + j, remaining) == Walk(data[k..], j, remaining)
    decreases remaining
  {
    var d := data[k..];
    if remaining > 0 && j + 2 <= |d| {
      assert d[j + 1] == data[k + j + 1];
      var lenAt := j + 2 + d[j + 1] as nat;
      if lenAt + 2 <= |d| {
        assert d[lenAt] == data[k + lenAt] && d[lenAt + 1] == data[k + lenAt + 1];
        var addrStart := lenAt + 2;
        var addrLen := ReadU16(d, lenAt);
        if addrStart + addrLen <= |d| {
          WalkShift(data, k, addrStart + addrLen, remaining - 1);
          if addrLen == 4 {
            assert Octets4(d, addrStart) == Octets4(data, k + addrStart);
          }
        }
      }
    }
  }

  /** One step of the walk over an entry whose protocol length and address
      length are known. */
  lemma {:induction false} WalkOne(data: seq<Byte>, offset: nat, remaining: nat, protoLen: nat, addrLen: nat)
    requires remaining > 0 && offset + 4 + protoLen + addrLen <= |data|
    requires data[offset + 1] as nat == protoLen && ReadU16(data, offset + 2 + protoLen) == addrLen
    ensures Walk(data, offset, remaining)
            == (if addrLen == 4 then [Octets4(data, offset + 4 + protoLen)] else [])
               + Walk(data, offset + 4 + protoLen + addrLen, remaining - 1)
  {
  }

  /** Where the fields of an encoded entry sit when something follows it. */
  lemma {:induction false} EntryLayout(e: Entry, rest: seq<Byte>)
    requires WellFormed(e)
    ensures var data := EncodeEntry(e) + rest;
      && data[1] as nat == |e.protocol|
      && ReadU16(data, 2 + |e.protocol|) == |e.address|
      && (|e.address| == 4 ==> Octets4(data, 4 + |e.protocol|) == e.address)
      && data[|EncodeEntry(e)|..] == rest
  {
    var enc := EncodeEntry(e);
    var data := enc + rest;
    var p := |e.protocol|;
    assert data[2 + p..4 + p] == U16Bytes(|e.address|);
    assert ReadU16(data, 2 + p) == ReadU16(U16Bytes(|e.address|), 0);
    if |e.address| == 4 {
      assert data[4 + p..|enc|] == e.address;
    }
  }

  /** One step of the walk over a well-formed encoded entry followed by `rest`. */
  lemma {:induction false} WalkStep(e: Entry, rest: seq<Byte>, remaining: nat)
    requires WellFormed(e) && remaining > 0
    ensures Walk(EncodeEntry(e) + rest, 0, remaining) == Ipv4Octets([e]) + Walk(rest, 0, remaining - 1)
  {
    var data := EncodeEntry(e) + rest;
    EntryLayout(e, rest);
    WalkOne(data, 0, remaining, |e.protocol|, |e.address|);
    WalkShift(data, |EncodeEntry(e)|, 0, remaining - 1);
    assert Ipv4Octets([e]) == (if |e.address| == 4 then [e.address] else []) + Ipv4Octets([]);
  }

  lemma {:induction false} Ipv4OctetsCons(es: seq<Entry>)
    requires es != []
    ensures Ipv4Octets(es) == Ipv4Octets([es[0]]) + Ipv4Octets(es[1..])
  {
    assert [es[0]][1..] == [];
  }

  lemma {:induction false} EncodeEntriesCons(es: seq<Entry>, tail: seq<Byte>)
    requires AllWellFormed(es) && es != []
    ensures EncodeEntries(es) + tail == EncodeEntry(es[0]) + (EncodeEntries(es[1..]) + tail)
  {
  }

  /** Walking over encoded entries yields their IPv4 addresses, then carries on
      with whatever follows them. */
  lemma {:induction false} WalkEncoded(es: seq<Entry>, tail: seq<Byte>, remaining: nat)
    requires AllWellFormed(es) && remaining >= |es|
    ensures Walk(EncodeEntries(es) + tail, 0, remaining) == Ipv4Octets(es) + Walk(tail, 0, remaining - |es|)
    decreases |es|
  {
    if es == [] {
      assert EncodeEntries(es) + tail == tail;
    } else {
      var rest := EncodeEntries(es[1..]) + tail;
      WalkEncoded(es[1..], tail, remaining - 1);
      EncodeEntriesCons(es, tail);
      WalkGlue(EncodeEntries(es) + tail, es[0], rest, tail, remaining, |es[1..]|, Ipv4Octets(es[1..]));
      Ipv4OctetsCons(es);
    }
  }

  /** One encoded entry in front of a payload whose walk is known. */
  lemma {:induction false} WalkGlue(data: seq<Byte>, e: Entry, rest: seq<Byte>, tail: seq<Byte>, remaining: nat, k: nat,
                 decoded: seq<seq<Byte>>)
    requires WellFormed(e) && remaining > k
    requires data == EncodeEntry(e) + rest
    requires Walk(rest, 0, remaining - 1) == decoded + Walk(tail, 0, remaining - 1 - k)
    ensures Walk(data, 0, remaining) == Ipv4Octets([e]) + decoded + Walk(tail, 0, remaining - 1 - k)
  {
    WalkStep(e, rest, remaining);
  }

  /** The walk from the start of `data` reads nothing. */
  predicate Stalls(data: seq<Byte>, remaining: nat)
  {
    Walk(data, 0, remaining) == []
  }

  /** Encoded entries followed by bytes the walk cannot read: just the entries. */
  lemma {:induction false} WalkEncodedThenStop(es: seq<Entry>, tail: seq<Byte>, remaining: nat)
    requires AllWellFormed(es) && remaining >= |es|
    requires Stalls(tail, remaining - |es|)
    ensures Walk(EncodeEntries(es) + tail, 0, remaining) == Ipv4Octets(es)
  {
    WalkEncoded(es, tail, remaining);
  }

  /** `parse_address` reads the count from the first four bytes and walks the rest. */
  lemma {:induction false} ParseAfterCount(count: nat, body: seq<Byte>, tail: seq<Byte>)
    requires count < 0x1_0000_0000
    ensures ParseAddress(U32Bytes(count) + body + tail) == RenderAll(Walk(body + tail, 0, count))
  {
    var head := U32Bytes(count);
    var data := head + body + tail;
    assert data[..4] == head;
    Bytes.ReadU16Window(data, 0, head, 0);
    Bytes.ReadU16Window(data, 0, head, 2);
    WalkShift(data, 4, 0, count);
    assert data[4..] == body + tail;
  }

  /** A counted list whose declared count runs past bytes the walk cannot read
      yields exactly the IPv4 entries of the list. */
  lemma {:induction false} ParseEncodedThenStop(count: nat, es: seq<Entry>, tail: seq<Byte>)
    requires AllWellFormed(es) && |es| <= count < 0x1_0000_0000
    requires Stalls(tail, count - |es|)
    ensures ParseAddress(U32Bytes(count) + EncodeEntries(es) + tail) == Ipv4Addresses(es)
  {
    ParseAfterCount(count, EncodeEntries(es), tail);
    WalkEncodedThenStop(es, tail, count);
  }

  /** `parse_address` of an encoded list: exactly the IPv4 entries, in order,
      whatever follows the list. */
  lemma {:induction false} ParseEncoded(es: seq<Entry>, tail: seq<Byte>)
    requires AllWellFormed(es) && |es| < 0x1_0000_0000
    ensures ParseAddress(U32Bytes(|es|) + EncodeEntries(es) + tail) == Ipv4Addresses(es)
  {
    assert Stalls(tail, 0);
    ParseEncodedThenStop(|es|, es, tail);
  }

  /** A walk that starts on a strict prefix of an entry stops there without
      failing. */
  lemma {:induction false} WalkOnTruncatedEntry(e: Entry, k: nat, remaining: nat)
    requires WellFormed(e) && k < |EncodeEntry(e)|
    ensures Stalls(EncodeEntry(e)[..k], remaining)
  {
    var enc := EncodeEntry(e);
    var data := enc[..k];
    var p := |e.protocol|;
    if remaining > 0 && 2 <= k {
      assert data[1] == enc[1];
      if 2 + p + 2 <= k {
        assert enc[2 + p..4 + p] == U16Bytes(|e.address|);
        assert data[2 + p] == enc[2 + p];
        assert data[3 + p] == enc[3 + p];
        assert ReadU16(data, 2 + p) == ReadU16(U16Bytes(|e.address|), 0);
      }
    }
  }

  /** A list cut short inside an entry keeps every address decoded before the cut. */
  lemma {:induction false} TruncatedListKeepsDecoded(count: nat, es: seq<Entry>, e: Entry, k: nat, tail: seq<Byte>)
    requires AllWellFormed(es) && WellFormed(e)
    requires |es| < count < 0x1_0000_0000
    requires k < |EncodeEntry(e)| && tail == EncodeEntry(e)[..k]
    ensures ParseAddress(U32Bytes(count) + EncodeEntries(es) + tail) == Ipv4Addresses(es)
  {
    WalkOnTruncatedEntry(e, k, count - |es|);
    ParseEncodedThenStop(count, es, tail);
  }

  predicate IsPrefix<T(==)>(a: seq<T>, b: seq<T>)
  {
    |a| <= |b| && b[..|a|] == a
  }

  /** Cutting the payload short can only lose addresses from the end. */
  lemma {:induction false} WalkOfTruncated(data: seq<Byte>, m: nat, offset: nat, remaining: nat)
    requires m <= |data|
    ensures IsPrefix(Walk(data[..m], offset, remaining), Walk(data, offset, remaining))
    decreases remaining
  {
    var short := data[..m];
    if remaining > 0 && offset + 2 <= |short| {
      var protoLen := short[offset + 1] as nat;
      var lenAt := offset + 2 + protoLen;
      if lenAt + 2 <= |short| {
        assert ReadU16(short, lenAt) == ReadU16(data, lenAt);
        var addrLen := ReadU16(data, lenAt);
        var addrStart := lenAt + 2;
        if addrStart + addrLen <= |short| {
          WalkOfTruncated(data, m, addrStart + addrLen, remaining - 1);
          if addrLen == 4 {
            assert Octets4(short, addrStart) == Octets4(data, addrStart);
          }
        }
      }
    }
  }

  lemma {:induction false} RenderAllPrefix(a: seq<seq<Byte>>, b: seq<seq<Byte>>)
    requires IsPrefix(a, b)
    ensures IsPrefix(RenderAll(a), RenderAll(b))
  {
    assert b == a + b[|a|..];
    RenderAllAppend(a, b[|a|..]);
  }

  /** A payload cut short after the count field yields a prefix of the addresses
      of the whole payload. */
  lemma {:induction false} ParseOfTruncated(data: seq<Byte>, m: nat)
    requires 4 <= m <= |data|
    ensures IsPrefix(ParseAddress(data[..m]), ParseAddress(data))
  {
    var short := data[..m];
    assert ReadU32(short, 0) == ReadU32(data, 0);
    WalkOfTruncated(data, m, 4, ReadU32(data, 0));
    RenderAllPrefix(Walk(short, 4, ReadU32(data, 0)), Walk(data, 4, ReadU32(data, 0)));
  }
}

=== FILE: cdp_capture.dfy ===
/** The CDP-only capture: one capture per interface, each keeping its CDP
    neighbours by device and port, and a coordinator that stamps every
    neighbour with the local link speed and keeps them all by interface,
    device and port. Capture threads are modelled by a running flag; a frame
    arrives as bytes with the interface it was received on and the capture
    time. */
module CdpCapture {
  import opened Bytes
  import opened Strings
  import Cdp
  import Nic
  import Discovery

  // ---------------------------------------------------------------------------
  // Keys

  /** The key of a capture's own table: `device_id:port_id`. */
  function LocalKey(n: Cdp.CdpNeighbor): (r: string)
    ensures r == n.deviceId + ":" + n.portId
    ensures ':' !in n.deviceId && ':' !in n.portId ==> Split(r, ':') == [n.deviceId, n.portId]
  {
    SplitJoinWhenFree([n.deviceId, n.portId], ':');
    assert [n.deviceId, n.portId][1..] == [n.portId];
    assert Join([n.portId], ":") == n.portId;
    Join([n.deviceId, n.portId], ":")
  }

  /** The key of the combined table: `local_interface:device_id:port_id`. */
  function AggregateKey(n: Cdp.CdpNeighbor): (r: string)
    ensures r == n.localInterface + ":" + LocalKey(n)
    ensures ':' !in n.localInterface && ':' !in n.deviceId && ':' !in n.portId ==>
      Split(r, ':') == [n.localInterface, n.deviceId, n.portId]
  {
    SplitJoinWhenFree([n.localInterface, n.deviceId, n.portId], ':');
    Join([n.localInterface, n.deviceId, n.portId], ":")
  }

  /** Neighbours on two different interfaces whose names hold no ":" never
      share a combined key, even when device and port are the same: the same
      switch port seen on two interfaces is two entries. */
  lemma {:induction false} AggregateKeySeparatesInterfaces(a: Cdp.CdpNeighbor, b: Cdp.CdpNeighbor)
    requires ':' !in a.localInterface && ':' !in b.localInterface
    ensures AggregateKey(a) == AggregateKey(b) ==>
      a.localInterface == b.localInterface && LocalKey(a) == LocalKey(b)
  {
    if AggregateKey(a) == AggregateKey(b) {
      SeparatedPrefix(a.localInterface, LocalKey(a), b.localInterface, LocalKey(b), ':');
    }
  }

  /** An interface name holding ":" breaks that: "eth0" with device "sw:1"
      and "eth0:sw" with device "1" share a combined key. */
  lemma {:induction false} AggregateKeyCollision(a: Cdp.CdpNeighbor, b: Cdp.CdpNeighbor)
    requires a.localInterface == "eth0" && a.deviceId == "sw:1" && a.portId == "Gi0/1"
    requires b.localInterface == "eth0:sw" && b.deviceId == "1" && b.portId == "Gi0/1"
    ensures AggregateKey(a) == AggregateKey(b) && a.localInterface != b.localInterface
  {
    assert LocalKey(a) == "sw:1:Gi0/1";
    assert LocalKey(b) == "1:Gi0/1";
    assert AggregateKey(a) == "eth0:sw:1:Gi0/1" == AggregateKey(b);
  }

  // ---------------------------------------------------------------------------
  // One interface

  /** `CDPCapture`: the interface, whether its capture runs, and its neighbour
      table keyed by `LocalKey`. */
  datatype Capture = Capture(interface: string, running: bool, neighbors: map<string, Cdp.CdpNeighbor>)

  function NewCapture(interface: string): Capture
  {
    Capture(interface, false, map[])
  }

  /** The capture filter: only frames sent to the CDP multicast address reach
      the handler. */
  predicate Delivered(raw: seq<Byte>)
  {
    |raw| >= 6 && raw[..6] == Discovery.CdpMulticast
  }

  /** The packet handler of a capture on `interface`: decode the frame and
      record the interface it arrived on. */
  function HandleFrame(interface: string, raw: seq<Byte>, now: int): (r: Option<Cdp.CdpNeighbor>)
    ensures r.Some? <==> Cdp.ParsePacket(raw, now).Some?
    ensures r.Some? ==> r.value == Cdp.ParsePacket(raw, now).value.(localInterface := interface)
  {
    match Cdp.ParsePacket(raw, now)
    case None => None
    case Some(n) => Some(n.(localInterface := interface))
  }

  ghost predicate CaptureConsistent(c: Capture)
  {
    forall k :: k in c.neighbors ==> k == LocalKey(c.neighbors[k]) && c.neighbors[k].localInterface == c.interface
  }

  /** `_update_neighbor`: store the neighbour under its device and port,
      replacing any entry with the same key. */
  function UpdateNeighbor(c: Capture, n: Cdp.CdpNeighbor): (r: Capture)
    ensures r.interface == c.interface && r.running == c.running
    ensures LocalKey(n) in r.neighbors && r.neighbors[LocalKey(n)] == n
    ensures forall k :: k != LocalKey(n) ==> (k in r.neighbors <==> k in c.neighbors)
    ensures forall k :: k in c.neighbors && k != LocalKey(n) ==> r.neighbors[k] == c.neighbors[k]
    ensures |r.neighbors| == if LocalKey(n) in c.neighbors then |c.neighbors| else |c.neighbors| + 1
  {
    c.(neighbors := c.neighbors[LocalKey(n) := n])
  }

  // ---------------------------------------------------------------------------
  // The coordinator

  /** `MultiInterfaceCapture`: captures by interface name, the combined table
      keyed by `AggregateKey`, and the interface table loaded at creation. */
  datatype Coordinator = Coordinator(
    captures: map<string, Capture>,
    all: map<string, Cdp.CdpNeighbor>,
    info: map<string, Nic.NetworkInterface>)

  function NewCoordinator(ifs: seq<Nic.NetworkInterface>): (r: Coordinator)
    ensures r.captures == map[] && r.all == map[]
    ensures forall i :: 0 <= i < |ifs| ==> ifs[i].name in r.info
  {
    Coordinator(map[], map[], Nic.InfoTable(ifs))
  }

  function Stamp(info: map<string, Nic.NetworkInterface>, n: Cdp.CdpNeighbor): (r: Cdp.CdpNeighbor)
    ensures r == n.(localPortSpeed := r.localPortSpeed)
    ensures LocalKey(r) == LocalKey(n) && AggregateKey(r) == AggregateKey(n)
  {
    n.(localPortSpeed := Nic.InterfaceSpeed(info, n.localInterface))
  }

  /** `add_interface`. */
  function AddInterface(co: Coordinator, interface: string): (r: Coordinator)
    ensures r.captures.Keys == co.captures.Keys + {interface}
    ensures interface in co.captures ==> r == co
    ensures interface !in co.captures ==> r.captures[interface] == NewCapture(interface)
    ensures forall i :: i in co.captures ==> r.captures[i] == co.captures[i]
    ensures r.all == co.all && r.info == co.info
  {
    if interface in co.captures then co
    else co.(captures := co.captures[interface := NewCapture(interface)])
  }

  /** Adding an interface twice is adding it once. */
  lemma {:induction false} AddInterfaceIdempotent(co: Coordinator, interface: string)
    ensures AddInterface(AddInterface(co, interface), interface) == AddInterface(co, interface)
  {
  }

  /** `remove_interface`: the capture goes, its neighbours stay in the
      combined table. */
  function RemoveInterface(co: Coordinator, interface: string): (r: Coordinator)
    ensures r.captures.Keys == co.captures.Keys - {interface}
    ensures forall i :: i in r.captures ==> r.captures[i] == co.captures[i]
    ensures r.all == co.all && r.info == co.info
  {
    if interface in co.captures then co.(captures := co.captures - {interface})
    else co
  }

  /** `start_all` (`on`) and `stop_all` (not `on`). */
  function SetAll(co: Coordinator, on: bool): (r: Coordinator)
    ensures r.captures.Keys == co.captures.Keys
    ensures forall i :: i in r.captures ==> r.captures[i] == co.captures[i].(running := on)
    ensures r.all == co.all && r.info == co.info
  {
    co.(captures := map i | i in co.captures :: co.captures[i].(running := on))
  }

  /** `start_interface` (`on`) and `stop_interface` (not `on`). */
  function SetInterface(co: Coordinator, interface: string, on: bool): (r: Coordinator)
    ensures r.captures.Keys == co.captures.Keys
    ensures interface in co.captures ==> r.captures[interface] == co.captures[interface].(running := on)
    ensures forall i :: i in co.captures && i != interface ==> r.captures[i] == co.captures[i]
    ensures r.all == co.all && r.info == co.info
  {
    if interface in co.captures then co.(captures := co.captures[interface := co.captures[interface].(running := on)])
    else co
  }

  /** `is_running`, with the empty name standing for no name. */
  function IsRunning(co: Coordinator, interface: string): (r: bool)
    ensures r ==> exists i :: i in co.captures && co.captures[i].running
    ensures interface != "" && r ==> interface in co.captures
    ensures interface == "" && !r ==> forall i :: i in co.captures ==> !co.captures[i].running
    ensures interface != "" ==> (r <==> interface in co.captures && co.captures[interface].running)
  {
    if interface != "" then interface in co.captures && co.captures[interface].running
    else exists i :: i in co.captures && co.captures[i].running
  }

  /** Starting or stopping one interface leaves the answer for every other
      named interface as it was. */
  lemma {:induction false} SetInterfaceOthersRunning(co: Coordinator, interface: string, on: bool, other: string)
    requires other != "" && other != interface
    ensures IsRunning(SetInterface(co, interface, on), other) == IsRunning(co, other)
  {
  }

  /** After `start_all` something runs exactly when some interface is managed,
      and after `stop_all` nothing runs; a single start or stop is seen by the
      query for that interface. */
  lemma {:induction false} RunningAfterStartStop(co: Coordinator, interface: string)
    ensures IsRunning(SetAll(co, true), "") <==> co.captures != map[]
    ensures !IsRunning(SetAll(co, false), interface)
    ensures interface != "" ==>
      (IsRunning(SetInterface(co, interface, true), interface) <==> interface in co.captures)
    ensures !IsRunning(SetInterface(co, interface, false), interface) || interface == ""
    ensures interface != "" && interface !in co.captures ==> !IsRunning(co, interface)
  {
    if co.captures != map[] {
      var i :| i in co.captures;
      assert SetAll(co, true).captures[i].running;
    }
  }

  /** `clear_all_neighbors`. */
  function ClearAll(co: Coordinator): (r: Coordinator)
    ensures r.all == map[] && r.info == co.info
    ensures r.captures.Keys == co.captures.Keys
    ensures forall i :: i in r.captures ==> r.captures[i] == co.captures[i].(neighbors := map[])
  {
    co.(all := map[], captures := map i | i in co.captures :: co.captures[i].(neighbors := map[]))
  }

  /** The neighbour `n` found on `interface`, stored by the capture under its
      device and port and, stamped with the link speed, by the coordinator
      under interface, device and port. The record is one shared object in
      the source, so the stamp shows in both tables. */
  function Store(co: Coordinator, interface: string, n: Cdp.CdpNeighbor): (r: Coordinator)
    requires interface in co.captures
    ensures r.info == co.info && r.captures.Keys == co.captures.Keys
    ensures forall i :: i in co.captures && i != interface ==> r.captures[i] == co.captures[i]
    ensures r.captures[interface].running == co.captures[interface].running
    ensures AggregateKey(n) in r.all && r.all[AggregateKey(n)] == Stamp(co.info, n)
    ensures forall k :: k in co.all && k != AggregateKey(n) ==> k in r.all && r.all[k] == co.all[k]
  {
    var stamped := Stamp(co.info, n);
    co.(captures := co.captures[interface := UpdateNeighbor(co.captures[interface], stamped)],
        all := co.all[AggregateKey(n) := stamped])
  }

  /** A frame received on `interface`: dropped unless the interface's capture
      runs, the filter delivers it and it decodes. */
  function Receive(co: Coordinator, interface: string, raw: seq<Byte>, now: int): (r: Coordinator)
    ensures r.info == co.info && r.captures.Keys == co.captures.Keys
    ensures (interface !in co.captures || !co.captures[interface].running || !Delivered(raw)
             || Cdp.ParsePacket(raw, now).None?) ==> r == co
    ensures (interface in co.captures && co.captures[interface].running && Delivered(raw)
             && Cdp.ParsePacket(raw, now).Some?) ==> r == Store(co, interface, HandleFrame(interface, raw, now).value)
  {
    if interface !in co.captures || !co.captures[interface].running || !Delivered(raw) then co
    else match HandleFrame(interface, raw, now)
      case None => co
      case Some(n) => Store(co, interface, n)
  }

  // ---------------------------------------------------------------------------
  // The invariant

  /** Every capture is filed under its interface and consistent; every entry of
      the combined table sits under its combined key with the speed of its
      interface. */
  ghost predicate Consistent(co: Coordinator)
  {
    CapturesConsistent(co.captures) && StampedTable(co.all, co.info)
  }

  ghost predicate CapturesConsistent(captures: map<string, Capture>)
  {
    forall i :: i in captures ==> captures[i].interface == i && CaptureConsistent(captures[i])
  }

  ghost predicate StampedTable(all: map<string, Cdp.CdpNeighbor>, info: map<string, Nic.NetworkInterface>)
  {
    forall k :: k in all ==>
      k == AggregateKey(all[k]) && all[k].localPortSpeed == Nic.InterfaceSpeed(info, all[k].localInterface)
  }

  /** Every neighbour a capture holds is also in the combined table, as the
      same record. */
  ghost predicate Mirrored(co: Coordinator)
  {
    forall i, k :: i in co.captures && k in co.captures[i].neighbors ==>
      AggregateKey(co.captures[i].neighbors[k]) in co.all
      && co.all[AggregateKey(co.captures[i].neighbors[k])] == co.captures[i].neighbors[k]
  }

  /** No managed interface name holds ":". */
  predicate PlainNames(co: Coordinator)
  {
    forall i :: i in co.captures ==> ':' !in i
  }

  lemma {:induction false} NewCoordinatorInvariant(ifs: seq<Nic.NetworkInterface>)
    ensures Consistent(NewCoordinator(ifs)) && Mirrored(NewCoordinator(ifs))
  {
  }

  lemma {:induction false} AddRemoveInvariant(co: Coordinator, interface: string)
    requires Consistent(co) && Mirrored(co)
    ensures Consistent(AddInterface(co, interface)) && Mirrored(AddInterface(co, interface))
    ensures Consistent(RemoveInterface(co, interface)) && Mirrored(RemoveInterface(co, interface))
  {
  }

  lemma {:induction false} StartStopAllInvariant(co: Coordinator, on: bool)
    requires Consistent(co) && Mirrored(co)
    ensures Consistent(SetAll(co, on)) && Mirrored(SetAll(co, on))
  {
    var r := SetAll(co, on);
    forall i | i in r.captures
      ensures r.captures[i].neighbors == co.captures[i].neighbors
    {
    }
  }

  lemma {:induction false} StartStopInterfaceInvariant(co: Coordinator, interface: string, on: bool)
    requires Consistent(co) && Mirrored(co)
    ensures Consistent(SetInterface(co, interface, on)) && Mirrored(SetInterface(co, interface, on))
  {
  }

  lemma {:induction false} ClearAllInvariant(co: Coordinator)
    requires Consistent(co)
    ensures Consistent(ClearAll(co)) && Mirrored(ClearAll(co))
  {
  }

  lemma {:induction false} StoreConsistent(co: Coordinator, interface: string, n: Cdp.CdpNeighbor)
    requires Consistent(co) && interface in co.captures && n.localInterface == interface
    ensures Consistent(Store(co, interface, n))
  {
    var stamped := Stamp(co.info, n);
    var r := Store(co, interface, n);
    assert r.captures == co.captures[interface := UpdateNeighbor(co.captures[interface], stamped)];
    StampedTableUpdate(co.all, co.info, n);
  }

  lemma {:induction false} StampedTableUpdate(all: map<string, Cdp.CdpNeighbor>, info: map<string, Nic.NetworkInterface>, n: Cdp.CdpNeighbor)
    requires StampedTable(all, info)
    ensures StampedTable(all[AggregateKey(n) := Stamp(info, n)], info)
  {
  }

  /** Storing keeps every capture's neighbours mirrored, provided interface
      names hold no ":": the new combined key cannot land on another
      interface's entry. */
  lemma {:induction false} StoreMirrored(co: Coordinator, interface: string, n: Cdp.CdpNeighbor)
    requires Consistent(co) && Mirrored(co) && PlainNames(co)
    requires interface in co.captures && n.localInterface == interface
    ensures Mirrored(Store(co, interface, n))
  {
    var stamped := Stamp(co.info, n);
    var r := Store(co, interface, n);
    forall i, k | i in r.captures && k in r.captures[i].neighbors
      ensures AggregateKey(r.captures[i].neighbors[k]) in r.all
      ensures r.all[AggregateKey(r.captures[i].neighbors[k])] == r.captures[i].neighbors[k]
    {
      var v := r.captures[i].neighbors[k];
      if i == interface && k == LocalKey(n) {
        assert v == stamped;
      } else {
        assert v == co.captures[i].neighbors[k];
        assert v.localInterface == i;
        AggregateKeySeparatesInterfaces(v, n);
        assert AggregateKey(v) != AggregateKey(n);
      }
    }
  }

  /** Receiving a frame keeps both invariants, for plain interface names. */
  lemma {:induction false} ReceiveInvariant(co: Coordinator, interface: string, raw: seq<Byte>, now: int)
    requires Consistent(co) && Mirrored(co) && PlainNames(co)
    ensures Consistent(Receive(co, interface, raw, now)) && Mirrored(Receive(co, interface, raw, now))
  {
    if interface in co.captures && co.captures[interface].running && Delivered(raw)
       && Cdp.ParsePacket(raw, now).Some? {
      var n := HandleFrame(interface, raw, now).value;
      StoreConsistent(co, interface, n);
      StoreMirrored(co, interface, n);
    }
  }

  /** The same device and port seen on two plain-named interfaces gives two
      entries of the combined table. */
  lemma {:induction false} TwoInterfacesTwoEntries(co: Coordinator, i: string, j: string, a: Cdp.CdpNeighbor, b: Cdp.CdpNeighbor)
    requires i in co.captures && j in co.captures && i != j && ':' !in i && ':' !in j
    requires a.localInterface == i && b.localInterface == j
    ensures var r := Store(Store(co, i, a), j, b);
      AggregateKey(a) in r.all && AggregateKey(b) in r.all && AggregateKey(a) != AggregateKey(b)
  {
    AggregateKeySeparatesInterfaces(a, b);
  }
}

=== FILE: cdp_frames.dfy ===
/** CDP frames as a sender lays them out, and what the decoder recovers from
    them: the TLV walk inverts the TLV encoding, a frame with the LLC/SNAP
    header or a bare CDP header after the Ethernet header is found, a
    malformed TLV ends the walk with the fields decoded so far, and a record
    advertised field by field is decoded back to itself. */
module CdpFrames {
  import opened Bytes
  import opened TypeLength
  import Render
  import Flags
  import CdpAddress
  import opened Cdp

  /** A TLV the 16-bit type and total-length fields can carry. */
  predicate Encodable(t: Tlv)
  {
    t.typ < 0x1_0000 && |t.payload| + 4 < 0x1_0000
  }

  predicate AllEncodable(ts: seq<Tlv>)
  {
    forall k :: 0 <= k < |ts| ==> Encodable(ts[k])
  }

  /** Type, total length (header included), payload. */
  function EncodeTlv(t: Tlv): (r: seq<Byte>)
    requires Encodable(t)
    ensures |r| == |t.payload| + 4
  {
    U16Bytes(t.typ) + U16Bytes(|t.payload| + 4) + t.payload
  }

  function EncodeTlvs(ts: seq<Tlv>): (r: seq<Byte>)
    requires AllEncodable(ts)
    ensures |r| == Span(ts)
  {
    if ts == [] then [] else EncodeTlv(ts[0]) + EncodeTlvs(ts[1..])
  }

  /** Walking from `k + j` is walking the frame with its first `k` bytes cut off,
      from `j`. */
  lemma {:induction false} TlvsShift(data: seq<Byte>, k: nat, j: nat)
    requires k <= |data|
    ensures Tlvs(data, k + j) == Tlvs(data[k..], j)
    decreases |data| - (k + j)
  {
    var d := data[k..];
    if k + j + 4 <= |data| {
      ReadU16Window(data, k, d, j);
      ReadU16Window(data, k, d, j + 2);
      var len := ReadU16(data, k + j + 2);
      if 4 <= len && k + j + len <= |data| {
        SubWindow(data, k, d, j + 4, j + len);
        TlvsShift(data, k, j + len);
      }
    }
  }

  /** One step of the walk from the start of the frame, with the header
      fields known. */
  lemma {:induction false} TlvsOne(data: seq<Byte>, typ: nat, len: nat)
    requires 4 <= len <= |data|
    requires ReadU16(data, 0) == typ && ReadU16(data, 2) == len
    ensures Tlvs(data, 0) == [Tlv(typ, data[4..len])] + Tlvs(data, len)
  {
  }

  /** Where the fields of an encoded TLV sit when something follows it. */
  lemma {:induction false} EncodedTlvLayout(t: Tlv, rest: seq<Byte>)
    requires Encodable(t)
    ensures var data := EncodeTlv(t) + rest;
      && ReadU16(data, 0) == t.typ
      && ReadU16(data, 2) == |t.payload| + 4
      && data[4..|t.payload| + 4] == t.payload
      && data[|t.payload| + 4..] == rest
  {
    var e := EncodeTlv(t);
    var data := e + rest;
    assert data == U16Bytes(t.typ) + U16Bytes(|t.payload| + 4) + (t.payload + rest);
    HeaderFields(t.typ, |t.payload| + 4, t.payload + rest);
    assert data[4..|e|] == t.payload;
    assert data[|e|..] == rest;
  }

  /** The walk over an encoded TLV followed by anything visits that TLV, then
      walks what follows. */
  lemma {:induction false} TlvsOfEncodedTlv(t: Tlv, rest: seq<Byte>)
    requires Encodable(t)
    ensures Tlvs(EncodeTlv(t) + rest, 0) == [t] + Tlvs(rest, 0)
  {
    var data := EncodeTlv(t) + rest;
    var len := |t.payload| + 4;
    EncodedTlvLayout(t, rest);
    TlvsOne(data, t.typ, len);
    TlvsShift(data, len, 0);
  }

  lemma {:induction false} EncodeTlvsCons(ts: seq<Tlv>, tail: seq<Byte>)
    requires AllEncodable(ts) && ts != []
    ensures EncodeTlvs(ts) + tail == EncodeTlv(ts[0]) + (EncodeTlvs(ts[1..]) + tail)
  {
  }

  /** The walk inverts the encoding: it visits exactly the encoded TLVs, then
      walks whatever follows them. */
  lemma {:induction false} TlvsOfEncoded(ts: seq<Tlv>, tail: seq<Byte>)
    requires AllEncodable(ts)
    ensures Tlvs(EncodeTlvs(ts) + tail, 0) == ts + Tlvs(tail, 0)
    decreases |ts|
  {
    if ts == [] {
      assert EncodeTlvs(ts) + tail == tail;
    } else {
      var rest := EncodeTlvs(ts[1..]) + tail;
      EncodeTlvsCons(ts, tail);
      TlvsOfEncodedTlv(ts[0], rest);
      TlvsOfEncoded(ts[1..], tail);
      ConsAppend(ts, Tlvs(tail, 0));
    }
  }

  /** A TLV header whose total length is below 4 ends the walk, whatever
      follows it. */
  lemma {:induction false} ShortLengthStops(typ: nat, len: nat, rest: seq<Byte>)
    requires typ < 0x1_0000 && len < 4
    ensures Tlvs(U16Bytes(typ) + U16Bytes(len) + rest, 0) == []
  {
    HeaderFields(typ, len, rest);
  }

  /** A TLV header announcing more bytes than the frame holds ends the walk. */
  lemma {:induction false} OverrunStops(typ: nat, len: nat, rest: seq<Byte>)
    requires typ < 0x1_0000 && len < 0x1_0000 && 4 + |rest| < len
    ensures Tlvs(U16Bytes(typ) + U16Bytes(len) + rest, 0) == []
  {
    HeaderFields(typ, len, rest);
  }

  /** The type and length fields of an encoded header read back. */
  lemma {:induction false} HeaderFields(typ: nat, len: nat, rest: seq<Byte>)
    requires typ < 0x1_0000 && len < 0x1_0000
    ensures ReadU16(U16Bytes(typ) + U16Bytes(len) + rest, 0) == typ
    ensures ReadU16(U16Bytes(typ) + U16Bytes(len) + rest, 2) == len
  {
    var data := U16Bytes(typ) + U16Bytes(len) + rest;
    assert data[0] == U16Bytes(typ)[0] && data[1] == U16Bytes(typ)[1];
    assert data[2] == U16Bytes(len)[0] && data[3] == U16Bytes(len)[1];
  }

  // ---------------------------------------------------------------------------
  // Whole frames

  /** DSAP AA, SSAP AA, control 03, Cisco OUI 00-00-0C, protocol id 0x2000. */
  const LlcSnap: seq<Byte> := [0xAA, 0xAA, 0x03, 0x00, 0x00, 0x0C, 0x20, 0x00]

  /** An IEEE 802.3 frame carrying CDP: the 14-byte MAC header (destination,
      source, length), LLC/SNAP, the 4-byte CDP header (version, TTL,
      checksum), the encoded TLVs, and trailing bytes. */
  function SnapFrame(mac: seq<Byte>, header: seq<Byte>, ts: seq<Tlv>, tail: seq<Byte>): (r: seq<Byte>)
    requires |mac| == 14 && |header| == 4 && AllEncodable(ts)
    ensures |r| == 26 + Span(ts) + |tail|
  {
    mac + LlcSnap + header + EncodeTlvs(ts) + tail
  }

  /** The decode of a SNAP frame: the header is found at byte 22, the TTL is the
      header's second byte, and the record is the dispatch over the encoded
      TLVs followed by whatever the walk reads from the trailing bytes. */
  lemma {:induction false} ParseSnapFrame(mac: seq<Byte>, header: seq<Byte>, ts: seq<Tlv>, tail: seq<Byte>,
                       sourceMac: string, now: int)
    requires |mac| == 14 && |header| == 4 && AllEncodable(ts)
    ensures FindStart(SnapFrame(mac, header, ts, tail)) == Some(22)
    ensures ParseRaw(SnapFrame(mac, header, ts, tail), sourceMac, now)
         == Some(ApplyAll(Default(now).(sourceMac := sourceMac, ttl := header[1]), ts + Tlvs(tail, 0)))
  {
    var raw := SnapFrame(mac, header, ts, tail);
    var front := mac + LlcSnap + header;
    assert raw == front + (EncodeTlvs(ts) + tail);
    assert raw[14..22] == LlcSnap;
    assert raw[14] == 0xAA && raw[15] == 0xAA && raw[16] == 0x03;
    assert raw[17] == 0x00 && raw[18] == 0x00 && raw[19] == 0x0C && raw[20] == 0x20 && raw[21] == 0x00;
    assert SnapHeader(raw);
    assert raw[23] == header[1];
    TlvsShift(raw, 26, 0);
    assert raw[26..] == EncodeTlvs(ts) + tail;
    TlvsOfEncoded(ts, tail);
  }

  /** A frame that ends right after its TLVs decodes to exactly those TLVs. */
  lemma {:induction false} ParseCompleteSnapFrame(mac: seq<Byte>, header: seq<Byte>, ts: seq<Tlv>, sourceMac: string, now: int)
    requires |mac| == 14 && |header| == 4 && AllEncodable(ts)
    ensures ParseRaw(SnapFrame(mac, header, ts, []), sourceMac, now)
         == Some(ApplyAll(Default(now).(sourceMac := sourceMac, ttl := header[1]), ts))
  {
    ParseSnapFrame(mac, header, ts, [], sourceMac, now);
    assert ts + Tlvs([], 0) == ts;
  }

  /** A malformed TLV after the well-formed ones ends the walk: the record still
      comes back, holding exactly the fields decoded before it. */
  lemma {:induction false} PartialRecordOnMalformedTlv(mac: seq<Byte>, header: seq<Byte>, ts: seq<Tlv>,
                                    typ: nat, len: nat, rest: seq<Byte>, sourceMac: string, now: int)
    requires |mac| == 14 && |header| == 4 && AllEncodable(ts)
    requires typ < 0x1_0000 && len < 0x1_0000 && (len < 4 || 4 + |rest| < len)
    ensures ParseRaw(SnapFrame(mac, header, ts, U16Bytes(typ) + U16Bytes(len) + rest), sourceMac, now)
         == Some(ApplyAll(Default(now).(sourceMac := sourceMac, ttl := header[1]), ts))
  {
    var tail := U16Bytes(typ) + U16Bytes(len) + rest;
    if len < 4 {
      ShortLengthStops(typ, len, rest);
    } else {
      OverrunStops(typ, len, rest);
    }
    ParseSnapFrame(mac, header, ts, tail, sourceMac, now);
    assert ts + Tlvs(tail, 0) == ts;
  }

  /** A frame whose CDP header directly follows the 14-byte MAC header, with no
      LLC/SNAP: version 1 or 2, nonzero TTL, and a Device-ID TLV first. */
  function BareFrame(mac: seq<Byte>, header: seq<Byte>, deviceId: seq<Byte>, ts: seq<Tlv>): (r: seq<Byte>)
    requires |mac| == 14 && |header| == 4 && |deviceId| + 4 < 0x1_0000 && AllEncodable(ts)
  {
    mac + header + EncodeTlv(Tlv(DeviceIdType, deviceId)) + EncodeTlvs(ts)
  }

  /** The signature scan finds a bare CDP header at byte 14 when the version byte
      is 1 or 2, the TTL is nonzero and the Device-ID TLV is 5..255 bytes long. */
  lemma {:induction false} BareFrameFound(mac: seq<Byte>, header: seq<Byte>, deviceId: seq<Byte>, ts: seq<Tlv>)
    requires |mac| == 14 && |header| == 4 && AllEncodable(ts)
    requires (header[0] == 1 || header[0] == 2) && header[1] > 0
    requires 0 < |deviceId| < 252
    ensures FindStart(BareFrame(mac, header, deviceId, ts)) == Some(14)
  {
    var first := Tlv(DeviceIdType, deviceId);
    var raw := BareFrame(mac, header, deviceId, ts);
    var rest := deviceId + EncodeTlvs(ts);
    assert raw == (mac + header) + (U16Bytes(DeviceIdType) + U16Bytes(|deviceId| + 4) + rest);
    assert raw[14] == header[0] && raw[15] == header[1];
    HeaderFields(DeviceIdType, |deviceId| + 4, rest);
    ReadU16Window(raw, 18, U16Bytes(DeviceIdType) + U16Bytes(|deviceId| + 4) + rest, 0);
    ReadU16Window(raw, 18, U16Bytes(DeviceIdType) + U16Bytes(|deviceId| + 4) + rest, 2);
    assert Signature(raw, 14);
  }

  /** A bare-header frame decodes to the dispatch over its Device-ID TLV and the
      TLVs after it. */
  lemma {:induction false} ParseBareFrame(mac: seq<Byte>, header: seq<Byte>, deviceId: seq<Byte>, ts: seq<Tlv>,
                       sourceMac: string, now: int)
    requires |mac| == 14 && |header| == 4 && AllEncodable(ts)
    requires (header[0] == 1 || header[0] == 2) && header[1] > 0
    requires 0 < |deviceId| < 252
    ensures ParseRaw(BareFrame(mac, header, deviceId, ts), sourceMac, now)
         == Some(ApplyAll(Default(now).(sourceMac := sourceMac, ttl := header[1]),
                          [Tlv(DeviceIdType, deviceId)] + ts))
  {
    BareFrameFound(mac, header, deviceId, ts);
    var first := Tlv(DeviceIdType, deviceId);
    var body := EncodeTlvs([first] + ts);
    assert ([first] + ts)[1..] == ts;
    var raw := BareFrame(mac, header, deviceId, ts);
    assert raw == (mac + header) + body;
    assert raw[15] == header[1];
    TlvsShift(raw, 18, 0);
    assert raw[18..] == body + [];
    TlvsOfEncoded([first] + ts, []);
    assert ([first] + ts) + Tlvs([], 0) == [first] + ts;
  }

  /** The source MAC reported for a frame is the rendering of bytes 6..11 of its
      MAC header. */
  lemma {:induction false} SnapFrameSourceMac(mac: seq<Byte>, header: seq<Byte>, ts: seq<Tlv>, tail: seq<Byte>)
    requires |mac| == 14 && |header| == 4 && AllEncodable(ts)
    ensures Render.SourceMac(SnapFrame(mac, header, ts, tail)) == Render.ColonHex(mac[6..12])
  {
    var raw := SnapFrame(mac, header, ts, tail);
    assert raw[6..12] == mac[6..12];
  }

  // ---------------------------------------------------------------------------
  // Advertising a record

  /** A text the decode-then-strip gives back: ASCII, no NUL at either end, and
      short enough for one TLV. */
  predicate TextOk(t: string)
  {
    IsAscii(t) && Unpadded(t) && |t| + 4 < 0x1_0000
  }

  function TextTlv(typ: nat, t: string): (r: Tlv)
    requires TextOk(t)
    ensures Encodable(r) || typ >= 0x1_0000
  {
    Tlv(typ, EncodeAscii(t))
  }

  /** An Address TLV payload: the 32-bit entry count, then the entries. */
  function AddressPayload(es: seq<CdpAddress.Entry>): seq<Byte>
    requires CdpAddress.AllWellFormed(es) && |es| < 0x1_0000_0000
  {
    U32Bytes(|es|) + CdpAddress.EncodeEntries(es)
  }

  predicate AddressesOk(es: seq<CdpAddress.Entry>, rendered: seq<string>)
  {
    CdpAddress.AllWellFormed(es) && |es| < 0x1_0000_0000
    && |AddressPayload(es)| + 4 < 0x1_0000
    && rendered == CdpAddress.Ipv4Addresses(es)
  }

  /** What a sender can put on the wire for a record: every text field
      advertisable, the address lists the IPv4 renderings of some entry lists,
      the capabilities a selection of the table, VLAN ids within 16 bits, and
      duplex "Full" or "Half". */
  predicate Advertisable(n: CdpNeighbor, ips: seq<CdpAddress.Entry>, mgmt: seq<CdpAddress.Entry>)
  {
    HeadOk(n, ips) && OptionalOk(n) && TextOk(n.vtpDomain) && AddressesOk(mgmt, n.mgmtAddresses)
  }

  predicate HeadOk(n: CdpNeighbor, ips: seq<CdpAddress.Entry>)
  {
    TextOk(n.deviceId) && TextOk(n.portId) && TextOk(n.softwareVersion) && TextOk(n.platform)
    && AddressesOk(ips, n.ipAddresses)
    && Flags.InTableOrder(n.capabilities, CapabilityNames)
  }

  predicate OptionalOk(n: CdpNeighbor)
  {
    && (n.nativeVlan.Some? ==> n.nativeVlan.value < 0x1_0000)
    && (n.voiceVlan.Some? ==> n.voiceVlan.value < 0x1_0000)
    && (n.duplex.Some? ==> n.duplex.value == "Full" || n.duplex.value == "Half")
  }

  function CapabilityWord(caps: seq<string>): (r: nat)
    ensures r < 0x80
  {
    Flags.EncodeBound(caps, CapabilityNames);
    CapabilityTableSize();
    Flags.EncodeFlags(caps, CapabilityNames)
  }

  /** Device ID, Addresses, Port ID, Capabilities, Version, Platform. */
  function HeadTlvs(n: CdpNeighbor, ips: seq<CdpAddress.Entry>): seq<Tlv>
    requires HeadOk(n, ips)
  {
    IdentityTlvs(n, ips) + CapabilityTlvs(n) + DescriptionTlvs(n)
  }

  function CapabilityTlvs(n: CdpNeighbor): seq<Tlv>
  {
    [Tlv(CapabilitiesType, U32Bytes(CapabilityWord(n.capabilities)))]
  }

  function IdentityTlvs(n: CdpNeighbor, ips: seq<CdpAddress.Entry>): seq<Tlv>
    requires HeadOk(n, ips)
  {
    [TextTlv(DeviceIdType, n.deviceId)] + [Tlv(AddressType, AddressPayload(ips))] + [TextTlv(PortIdType, n.portId)]
  }

  function DescriptionTlvs(n: CdpNeighbor): seq<Tlv>
    requires TextOk(n.softwareVersion) && TextOk(n.platform)
  {
    [TextTlv(VersionType, n.softwareVersion)] + [TextTlv(PlatformType, n.platform)]
  }

  /** Native VLAN, Voice VLAN (flag byte 1, then the id) and Duplex, each only
      when the record has a value. */
  function OptionalTlvs(n: CdpNeighbor): seq<Tlv>
    requires OptionalOk(n)
  {
    (if n.nativeVlan.Some? then [Tlv(NativeVlanType, U16Bytes(n.nativeVlan.value))] else [])
    + (if n.voiceVlan.Some? then [Tlv(VoiceVlanType, [1] + U16Bytes(n.voiceVlan.value))] else [])
    + (if n.duplex.Some? then [Tlv(DuplexType, [if n.duplex.value == "Full" then 1 else 0])] else [])
  }

  /** The TLVs a device advertising `n` sends. */
  function Advertise(n: CdpNeighbor, ips: seq<CdpAddress.Entry>, mgmt: seq<CdpAddress.Entry>): seq<Tlv>
    requires Advertisable(n, ips, mgmt)
  {
    HeadTlvs(n, ips) + OptionalTlvs(n)
    + [TextTlv(VtpDomainType, n.vtpDomain)] + [Tlv(MgmtAddressType, AddressPayload(mgmt))]
  }

  /** The record a decode starts from, carrying `n`'s metadata. */
  function Blank(n: CdpNeighbor): CdpNeighbor
  {
    Default(n.lastSeen).(sourceMac := n.sourceMac, ttl := n.ttl,
                         localInterface := n.localInterface, localPortSpeed := n.localPortSpeed)
  }

  lemma {:induction false} ApplyAllSingle(n: CdpNeighbor, t: Tlv)
    ensures ApplyAll(n, [t]) == ApplyTlv(n, t)
  {
    assert [t][..0] == [];
  }

  /** An advertised text TLV decodes to the text itself. */
  lemma {:induction false} TextTlvDecodes(typ: nat, t: string)
    requires TextOk(t)
    ensures Text(TextTlv(typ, t).payload) == t
  {
    TextOfEncoded(t);
  }

  /** An advertised address list decodes to the renderings of its IPv4 entries. */
  lemma {:induction false} AddressPayloadDecodes(es: seq<CdpAddress.Entry>)
    requires CdpAddress.AllWellFormed(es) && |es| < 0x1_0000_0000
    ensures CdpAddress.ParseAddress(AddressPayload(es)) == CdpAddress.Ipv4Addresses(es)
  {
    CdpAddress.ParseEncoded(es, []);
    assert AddressPayload(es) + [] == AddressPayload(es);
  }

  /** An advertised capability list decodes to itself. */
  lemma {:induction false} CapabilityWordDecodes(caps: seq<string>)
    requires Flags.InTableOrder(caps, CapabilityNames)
    ensures ParseCapabilities(ReadU32(U32Bytes(CapabilityWord(caps)), 0)) == caps
  {
    Flags.DecodeEncode(caps, CapabilityNames);
  }

  lemma {:induction false} CapabilityTlvDecodes(m: CdpNeighbor, caps: seq<string>)
    requires Flags.InTableOrder(caps, CapabilityNames)
    ensures ApplyTlv(m, Tlv(CapabilitiesType, U32Bytes(CapabilityWord(caps)))) == m.(capabilities := caps)
  {
    CapabilityWordDecodes(caps);
  }

  /** Device ID, Addresses and Port ID set exactly those three fields. */
  lemma {:induction false} IdentityDecoded(m: CdpNeighbor, n: CdpNeighbor, ips: seq<CdpAddress.Entry>)
    requires HeadOk(n, ips)
    ensures ApplyAll(m, IdentityTlvs(n, ips))
         == m.(deviceId := n.deviceId, ipAddresses := n.ipAddresses, portId := n.portId)
  {
    var t1 := TextTlv(DeviceIdType, n.deviceId);
    var t2 := Tlv(AddressType, AddressPayload(ips));
    var t3 := TextTlv(PortIdType, n.portId);
    TextTlvDecodes(DeviceIdType, n.deviceId);
    TextTlvDecodes(PortIdType, n.portId);
    AddressPayloadDecodes(ips);
    ApplyAllSingle(m, t1);
    ApplyAllSnoc(m, [t1], t2);
    ApplyAllSnoc(m, [t1] + [t2], t3);
  }

  /** The Capabilities TLV sets exactly the capability list. */
  lemma {:induction false} CapabilitiesDecoded(m: CdpNeighbor, n: CdpNeighbor)
    requires Flags.InTableOrder(n.capabilities, CapabilityNames)
    ensures ApplyAll(m, CapabilityTlvs(n)) == m.(capabilities := n.capabilities)
  {
    CapabilityTlvDecodes(m, n.capabilities);
    ApplyAllSingle(m, CapabilityTlvs(n)[0]);
  }

  /** Version and Platform set exactly those two fields. */
  lemma {:induction false} DescriptionDecoded(m: CdpNeighbor, n: CdpNeighbor)
    requires TextOk(n.softwareVersion) && TextOk(n.platform)
    ensures ApplyAll(m, DescriptionTlvs(n)) == m.(softwareVersion := n.softwareVersion, platform := n.platform)
  {
    var t5 := TextTlv(VersionType, n.softwareVersion);
    var t6 := TextTlv(PlatformType, n.platform);
    VersionApplied(m, n.softwareVersion);
    PlatformApplied(m.(softwareVersion := n.softwareVersion), n.platform);
    ApplyAllSingle(m, t5);
    ApplyAllSnoc(m, [t5], t6);
  }

  /** Single-TLV steps of the decode, one per text field, kept apart so that
      each proof sees one branch of the dispatch. */
  lemma {:induction false} VersionApplied(m: CdpNeighbor, v: string)
    requires TextOk(v)
    ensures ApplyTlv(m, TextTlv(VersionType, v)) == m.(softwareVersion := v)
  {
    TextFieldsApplied(m, EncodeAscii(v));
    TextTlvDecodes(VersionType, v);
  }

  lemma {:induction false} PlatformApplied(m: CdpNeighbor, v: string)
    requires TextOk(v)
    ensures ApplyTlv(m, TextTlv(PlatformType, v)) == m.(platform := v)
  {
    TextFieldsApplied(m, EncodeAscii(v));
    TextTlvDecodes(PlatformType, v);
  }

  /** The text TLVs on any payload, with the payload left abstract. */
  lemma {:induction false} TextFieldsApplied(m: CdpNeighbor, p: seq<Byte>)
    ensures ApplyTlv(m, Tlv(VersionType, p)) == m.(softwareVersion := Text(p))
    ensures ApplyTlv(m, Tlv(PlatformType, p)) == m.(platform := Text(p))
    ensures ApplyTlv(m, Tlv(VtpDomainType, p)) == m.(vtpDomain := Text(p))
  {
  }

  /** The optional TLVs set exactly the VLANs and duplex the record has, and
      leave the others as they were. */
  lemma {:induction false} OptionalDecoded(m: CdpNeighbor, n: CdpNeighbor)
    requires OptionalOk(n)
    requires m.nativeVlan.None? && m.voiceVlan.None? && m.duplex.None?
    ensures ApplyAll(m, OptionalTlvs(n)) == m.(nativeVlan := n.nativeVlan, voiceVlan := n.voiceVlan, duplex := n.duplex)
  {
    var native := if n.nativeVlan.Some? then [Tlv(NativeVlanType, U16Bytes(n.nativeVlan.value))] else [];
    var voice := if n.voiceVlan.Some? then [Tlv(VoiceVlanType, [1] + U16Bytes(n.voiceVlan.value))] else [];
    var duplex := if n.duplex.Some? then [Tlv(DuplexType, [if n.duplex.value == "Full" then 1 else 0])] else [];
    var m1 := m.(nativeVlan := n.nativeVlan);
    var m2 := m1.(voiceVlan := n.voiceVlan);
    if n.nativeVlan.Some? {
      ApplyAllSingle(m, native[0]);
    }
    assert ApplyAll(m, native) == m1;
    ApplyAllAppend(m, native, voice);
    if n.voiceVlan.Some? {
      var p := [1] + U16Bytes(n.voiceVlan.value);
      assert p[1..3] == U16Bytes(n.voiceVlan.value);
      ReadU16Window(p, 1, U16Bytes(n.voiceVlan.value), 0);
      ApplyAllSingle(m1, voice[0]);
    }
    assert ApplyAll(m1, voice) == m2;
    ApplyAllAppend(m, native + voice, duplex);
    if n.duplex.Some? {
      ApplyAllSingle(m2, duplex[0]);
    }
  }

  /** VTP Domain and Management Addresses set exactly those two fields. */
  lemma {:induction false} TailDecoded(m: CdpNeighbor, n: CdpNeighbor, mgmt: seq<CdpAddress.Entry>)
    requires TextOk(n.vtpDomain) && AddressesOk(mgmt, n.mgmtAddresses)
    ensures ApplyAll(m, [TextTlv(VtpDomainType, n.vtpDomain)] + [Tlv(MgmtAddressType, AddressPayload(mgmt))])
         == m.(vtpDomain := n.vtpDomain, mgmtAddresses := n.mgmtAddresses)
  {
    var t1 := TextTlv(VtpDomainType, n.vtpDomain);
    var t2 := Tlv(MgmtAddressType, AddressPayload(mgmt));
    var m1 := m.(vtpDomain := n.vtpDomain);
    VtpDomainApplied(m, n.vtpDomain);
    MgmtAddressesApplied(m1, mgmt, n.mgmtAddresses);
    ApplyAllSingle(m, t1);
    ApplyAllSnoc(m, [t1], t2);
  }

  lemma {:induction false} VtpDomainApplied(m: CdpNeighbor, v: string)
    requires TextOk(v)
    ensures ApplyTlv(m, TextTlv(VtpDomainType, v)) == m.(vtpDomain := v)
  {
    TextFieldsApplied(m, EncodeAscii(v));
    TextTlvDecodes(VtpDomainType, v);
  }

  lemma {:induction false} MgmtAddressesApplied(m: CdpNeighbor, es: seq<CdpAddress.Entry>, rendered: seq<string>)
    requires AddressesOk(es, rendered)
    ensures ApplyTlv(m, Tlv(MgmtAddressType, AddressPayload(es))) == m.(mgmtAddresses := rendered)
  {
    AddressPayloadDecodes(es);
  }

  /** Decoding what a device advertises gives back the advertised record: every
      field the TLVs carry is recovered, and the metadata the decode starts from
      is kept. */
  lemma {:induction false} DecodeAdvertised(n: CdpNeighbor, ips: seq<CdpAddress.Entry>, mgmt: seq<CdpAddress.Entry>)
    requires Advertisable(n, ips, mgmt)
    ensures ApplyAll(Blank(n), Advertise(n, ips, mgmt)) == n
  {
    var b := Blank(n);
    var head := IdentityTlvs(n, ips) + CapabilityTlvs(n) + DescriptionTlvs(n);
    var tail := [TextTlv(VtpDomainType, n.vtpDomain)] + [Tlv(MgmtAddressType, AddressPayload(mgmt))];
    assert Advertise(n, ips, mgmt) == head + OptionalTlvs(n) + tail;
    ApplyAllAppend(b, head + OptionalTlvs(n), tail);
    ApplyAllAppend(b, head, OptionalTlvs(n));
    ApplyAllAppend(b, IdentityTlvs(n, ips) + CapabilityTlvs(n), DescriptionTlvs(n));
    ApplyAllAppend(b, IdentityTlvs(n, ips), CapabilityTlvs(n));
    IdentityDecoded(b, n, ips);
    var m1 := b.(deviceId := n.deviceId, ipAddresses := n.ipAddresses, portId := n.portId);
    CapabilitiesDecoded(m1, n);
    var m1' := m1.(capabilities := n.capabilities);
    DescriptionDecoded(m1', n);
    var m2 := m1'.(softwareVersion := n.softwareVersion, platform := n.platform);
    OptionalDecoded(m2, n);
    var m3 := m2.(nativeVlan := n.nativeVlan, voiceVlan := n.voiceVlan, duplex := n.duplex);
    TailDecoded(m3, n, mgmt);
  }
}

=== FILE: discovery.dfy ===
/** The combined CDP/LLDP capture: how a received frame is classified and
    decoded into a neighbour, the per-interface neighbour table, and the
    coordinator that runs one capture per interface, stamps each neighbour
    with the local link speed and keeps the table of all neighbours. Capture
    threads are modelled by a running flag; a frame arrives as bytes together
    with the interface it was received on and the capture time. */
module Discovery {
  import opened Bytes
  import opened Strings
  import Cdp
  import Lldp
  import Nic
  import opened Neighbor

  // ---------------------------------------------------------------------------
  // Classifying a frame

  /** The result of `_detect_protocol`. */
  datatype Protocol = CdpFrame | LldpFrame | UnknownFrame

  /** The CDP multicast destination 01:00:0c:cc:cc:cc. */
  const CdpMulticast: seq<Byte> := [0x01, 0x00, 0x0C, 0xCC, 0xCC, 0xCC]

  /** The three LLDP multicast destinations: nearest bridge, nearest non-TPMR
      bridge and nearest customer bridge. */
  const LldpMulticasts: seq<seq<Byte>> := [
    [0x01, 0x80, 0xC2, 0x00, 0x00, 0x0E],
    [0x01, 0x80, 0xC2, 0x00, 0x00, 0x03],
    [0x01, 0x80, 0xC2, 0x00, 0x00, 0x00]
  ]

  /** `_detect_protocol`: a frame shorter than an Ethernet header is unknown;
      the CDP destination wins over everything; an LLDP destination or the
      LLDP EtherType makes it LLDP. */
  function DetectProtocol(raw: seq<Byte>): (r: Protocol)
    ensures |raw| < 14 ==> r == UnknownFrame
    ensures r == CdpFrame <==> |raw| >= 14 && raw[..6] == CdpMulticast
    ensures r == LldpFrame <==>
      |raw| >= 14 && raw[..6] != CdpMulticast && (raw[..6] in LldpMulticasts || ReadU16(raw, 12) == Lldp.LldpEtherType)
    ensures r == UnknownFrame <==>
      |raw| < 14 || (raw[..6] != CdpMulticast && raw[..6] !in LldpMulticasts && ReadU16(raw, 12) != Lldp.LldpEtherType)
  {
    if |raw| < 14 then UnknownFrame
    else if raw[..6] == CdpMulticast then CdpFrame
    else if raw[..6] in LldpMulticasts then LldpFrame
    else if ReadU16(raw, 12) == Lldp.LldpEtherType then LldpFrame
    else UnknownFrame
  }

  /** A frame of full Ethernet length sent to any of the three LLDP multicast
      destinations is classified as LLDP, whatever its EtherType: none of them
      is the CDP destination. */
  lemma {:induction false} LldpDestinationIsLldp(raw: seq<Byte>, k: nat)
    requires |raw| >= 14 && k < |LldpMulticasts| && raw[..6] == LldpMulticasts[k]
    ensures DetectProtocol(raw) == LldpFrame
  {
  }

  /** A frame of full Ethernet length sent to the CDP destination is
      classified as CDP, whatever its EtherType, even the LLDP one. */
  lemma {:induction false} CdpDestinationWins(raw: seq<Byte>)
    requires |raw| >= 14 && raw[..6] == CdpMulticast
    ensures DetectProtocol(raw) == CdpFrame
  {
  }

  /** Every frame the LLDP decoder accepts is classified as LLDP, unless it is
      sent to the CDP multicast address, which takes precedence. */
  lemma {:induction false} LldpDecodableIsLldp(raw: seq<Byte>, now: int)
    requires Lldp.ParsePacket(raw, now).Some?
    ensures DetectProtocol(raw) == (if raw[..6] == CdpMulticast then CdpFrame else LldpFrame)
  {
  }

  /** The other direction does not hold: a frame to an LLDP multicast address
      with another EtherType is classified as LLDP and then rejected by the
      decoder. */
  lemma {:induction false} LldpAddressWithoutEtherType(raw: seq<Byte>, now: int)
    requires |raw| >= 14 && raw[..6] == LldpMulticasts[0] && ReadU16(raw, 12) != Lldp.LldpEtherType
    ensures DetectProtocol(raw) == LldpFrame
    ensures Lldp.ParsePacket(raw, now).None?
  {
    assert raw[..6] != CdpMulticast by {
      assert raw[..6][1] != CdpMulticast[1];
    }
  }

  /** The packet handler of a capture on `interface`: classify the frame,
      decode it with the matching decoder, record the interface it arrived on
      and convert it to the protocol-neutral record. Unknown frames and frames
      the decoder rejects yield nothing. */
  function HandleFrame(interface: string, raw: seq<Byte>, now: int): (r: Option<DiscoveryNeighbor>)
    ensures r.Some? ==> r.value.localInterface == interface && r.value.lastSeen == now && Decoded(r.value)
    ensures r.Some? && DetectProtocol(raw) == CdpFrame ==>
      Cdp.ParsePacket(raw, now).Some?
      && r.value == FromCdp(Cdp.ParsePacket(raw, now).value.(localInterface := interface))
    ensures r.Some? && DetectProtocol(raw) == LldpFrame ==>
      Lldp.ParsePacket(raw, now).Some?
      && r.value == FromLldp(Lldp.ParsePacket(raw, now).value.(localInterface := interface))
    ensures r.Some? <==> match DetectProtocol(raw)
                          case CdpFrame => Cdp.ParsePacket(raw, now).Some?
                          case LldpFrame => Lldp.ParsePacket(raw, now).Some?
                          case UnknownFrame => false
  {
    match DetectProtocol(raw)
    case CdpFrame =>
      (match Cdp.ParsePacket(raw, now)
       case None => None
       case Some(c) => Some(FromCdp(c.(localInterface := interface))))
    case LldpFrame =>
      (match Lldp.ParsePacket(raw, now)
       case None => None
       case Some(l) => Some(FromLldp(l.(localInterface := interface))))
    case UnknownFrame => None
  }

  /** A neighbour produced by the handler names its protocol, and the protocol
      is the one the frame was classified as. */
  lemma {:induction false} HandledProtocol(interface: string, raw: seq<Byte>, now: int)
    requires HandleFrame(interface, raw, now).Some?
    ensures var n := HandleFrame(interface, raw, now).value;
      (n.protocol == CdpProtocol <==> DetectProtocol(raw) == CdpFrame)
      && (n.protocol == LldpProtocol <==> DetectProtocol(raw) == LldpFrame)
  {
  }

  // ---------------------------------------------------------------------------
  // One interface

  /** `DiscoveryCapture`: the interface, whether its capture runs, and its
      neighbour table keyed by `Key`. */
  datatype Capture = Capture(interface: string, running: bool, neighbors: map<string, DiscoveryNeighbor>)

  function NewCapture(interface: string): Capture
  {
    Capture(interface, false, map[])
  }

  /** Every entry of a capture's table sits under its own key and arrived on
      the capture's interface. */
  ghost predicate CaptureConsistent(c: Capture)
  {
    forall k :: k in c.neighbors ==>
      k == Key(c.neighbors[k]) && c.neighbors[k].localInterface == c.interface && Decoded(c.neighbors[k])
  }

  /** A neighbour made by one of the two decoders. */
  predicate Decoded(n: DiscoveryNeighbor)
  {
    n.protocol == CdpProtocol || n.protocol == LldpProtocol
  }

  /** `_update_neighbor`: store the neighbour under its key, replacing any
      entry with the same key. The table grows by at most one entry, and not
      at all when the key is already present. */
  function UpdateNeighbor(c: Capture, n: DiscoveryNeighbor): (r: Capture)
    ensures r.interface == c.interface && r.running == c.running
    ensures Key(n) in r.neighbors && r.neighbors[Key(n)] == n
    ensures forall k :: k != Key(n) ==> (k in r.neighbors <==> k in c.neighbors)
    ensures forall k :: k in c.neighbors && k != Key(n) ==> r.neighbors[k] == c.neighbors[k]
    ensures |r.neighbors| == if Key(n) in c.neighbors then |c.neighbors| else |c.neighbors| + 1
  {
    c.(neighbors := c.neighbors[Key(n) := n])
  }

  /** Updating with a neighbour from the capture's own interface keeps the
      table consistent. */
  lemma {:induction false} UpdateNeighborConsistent(c: Capture, n: DiscoveryNeighbor)
    requires CaptureConsistent(c) && n.localInterface == c.interface && Decoded(n)
    ensures CaptureConsistent(UpdateNeighbor(c, n))
  {
  }

  /** A neighbour announced again (same protocol, interface, device and port)
      replaces its entry: the table does not grow. */
  lemma {:induction false} ReannouncementReplaces(c: Capture, a: DiscoveryNeighbor, b: DiscoveryNeighbor)
    requires Identity(a) == Identity(b)
    ensures UpdateNeighbor(UpdateNeighbor(c, a), b).neighbors == UpdateNeighbor(c, b).neighbors
    ensures |UpdateNeighbor(UpdateNeighbor(c, a), b).neighbors| == |UpdateNeighbor(c, a).neighbors|
  {
  }

  // ---------------------------------------------------------------------------
  // The coordinator

  /** `MultiInterfaceDiscoveryCapture`: the captures by interface name, the
      table of all neighbours, and the interface table loaded at creation. */
  datatype Coordinator = Coordinator(
    captures: map<string, Capture>,
    all: map<string, DiscoveryNeighbor>,
    info: map<string, Nic.NetworkInterface>)

  /** A new coordinator over the interfaces the system reports. */
  function NewCoordinator(ifs: seq<Nic.NetworkInterface>): (r: Coordinator)
    ensures r.captures == map[] && r.all == map[]
    ensures forall i :: 0 <= i < |ifs| ==> ifs[i].name in r.info
  {
    Coordinator(map[], map[], Nic.InfoTable(ifs))
  }

  /** The neighbour with the local link speed filled in. */
  function Stamp(info: map<string, Nic.NetworkInterface>, n: DiscoveryNeighbor): (r: DiscoveryNeighbor)
    ensures r == n.(localPortSpeed := r.localPortSpeed)
    ensures Key(r) == Key(n)
  {
    n.(localPortSpeed := Nic.InterfaceSpeed(info, n.localInterface))
  }

  /** What the coordinator keeps true: every capture is filed under its own
      interface and is consistent, and every neighbour of the combined table
      sits under its own key carrying the speed of its local interface. */
  ghost predicate Consistent(co: Coordinator)
  {
    CapturesConsistent(co.captures) && StampedTable(co.all, co.info)
  }

  ghost predicate CapturesConsistent(captures: map<string, Capture>)
  {
    forall i :: i in captures ==> captures[i].interface == i && CaptureConsistent(captures[i])
  }

  ghost predicate StampedTable(all: map<string, DiscoveryNeighbor>, info: map<string, Nic.NetworkInterface>)
  {
    forall k :: k in all ==>
      k == Key(all[k]) && all[k].localPortSpeed == Nic.InterfaceSpeed(info, all[k].localInterface)
  }

  lemma {:induction false} NewCoordinatorConsistent(ifs: seq<Nic.NetworkInterface>)
    ensures Consistent(NewCoordinator(ifs))
  {
  }

  /** `add_interface`: a new, stopped capture for an interface not yet
      managed; an interface already managed is left as it is. */
  function AddInterface(co: Coordinator, interface: string): (r: Coordinator)
    ensures r.captures.Keys == co.captures.Keys + {interface}
    ensures interface in co.captures ==> r == co
    ensures interface !in co.captures ==> r.captures[interface] == NewCapture(interface)
    ensures forall i :: i in co.captures ==> r.captures[i] == co.captures[i]
    ensures r.all == co.all && r.info == co.info
  {
    if interface in co.captures then co
    else co.(captures := co.captures[interface := NewCapture(interface)])
  }

  /** Adding an interface twice is adding it once. */
  lemma {:induction false} AddInterfaceIdempotent(co: Coordinator, interface: string)
    ensures AddInterface(AddInterface(co, interface), interface) == AddInterface(co, interface)
  {
  }

  /** `remove_interface`: the capture is stopped and forgotten. The neighbours
      it found stay in the combined table. */
  function RemoveInterface(co: Coordinator, interface: string): (r: Coordinator)
    ensures r.captures.Keys == co.captures.Keys - {interface}
    ensures forall i :: i in r.captures ==> r.captures[i] == co.captures[i]
    ensures r.all == co.all && r.info == co.info
  {
    if interface in co.captures then co.(captures := co.captures - {interface})
    else co
  }

  /** The capture with its running flag set to `on`. */
  function SetRunning(c: Capture, on: bool): Capture
  {
    c.(running := on)
  }

  /** `start_all` (`on`) and `stop_all` (not `on`): every managed capture is
      started or stopped. */
  function SetAll(co: Coordinator, on: bool): (r: Coordinator)
    ensures r.captures.Keys == co.captures.Keys
    ensures forall i :: i in r.captures ==> r.captures[i] == co.captures[i].(running := on)
    ensures r.all == co.all && r.info == co.info
  {
    co.(captures := map i | i in co.captures :: SetRunning(co.captures[i], on))
  }

  /** `start_interface` (`on`) and `stop_interface` (not `on`): only the named
      capture changes, and only when it is managed. */
  function SetInterface(co: Coordinator, interface: string, on: bool): (r: Coordinator)
    ensures r.captures.Keys == co.captures.Keys
    ensures interface in co.captures ==> r.captures[interface] == co.captures[interface].(running := on)
    ensures forall i :: i in co.captures && i != interface ==> r.captures[i] == co.captures[i]
    ensures r.all == co.all && r.info == co.info
  {
    if interface in co.captures then co.(captures := co.captures[interface := SetRunning(co.captures[interface], on)])
    else co
  }

  /** `is_running`: for a named interface, whether its capture is managed and
      running; for no name (the empty name is falsy), whether any capture
      runs. */
  function IsRunning(co: Coordinator, interface: string): (r: bool)
    ensures r ==> exists i :: i in co.captures && co.captures[i].running
    ensures interface != "" && r ==> interface in co.captures
    ensures interface == "" && !r ==> forall i :: i in co.captures ==> !co.captures[i].running
    ensures interface != "" ==> (r <==> interface in co.captures && co.captures[interface].running)
  {
    if interface != "" then interface in co.captures && co.captures[interface].running
    else exists i :: i in co.captures && co.captures[i].running
  }

  /** Starting or stopping one interface leaves the answer for every other
      named interface as it was. */
  lemma {:induction false} SetInterfaceOthersRunning(co: Coordinator, interface: string, on: bool, other: string)
    requires other != "" && other != interface
    ensures IsRunning(SetInterface(co, interface, on), other) == IsRunning(co, other)
  {
  }

  /** After `start_all` something runs exactly when some interface is managed,
      and after `stop_all` nothing runs; a single start or stop is seen by the
      query for that interface. */
  lemma {:induction false} RunningAfterStartStop(co: Coordinator, interface: string)
    ensures IsRunning(SetAll(co, true), "") <==> co.captures != map[]
    ensures !IsRunning(SetAll(co, false), interface)
    ensures interface != "" ==>
      (IsRunning(SetInterface(co, interface, true), interface) <==> interface in co.captures)
    ensures !IsRunning(SetInterface(co, interface, false), interface) || interface == ""
    ensures interface != "" && interface !in co.captures ==> !IsRunning(co, interface)
  {
    if co.captures != map[] {
      var i :| i in co.captures;
      assert SetAll(co, true).captures[i].running;
    }
  }

  /** `clear_all_neighbors`: the combined table and every capture's table are
      emptied; the captures themselves stay. */
  function ClearAll(co: Coordinator): (r: Coordinator)
    ensures r.all == map[] && r.info == co.info
    ensures r.captures.Keys == co.captures.Keys
    ensures forall i :: i in r.captures ==> r.captures[i] == co.captures[i].(neighbors := map[])
  {
    co.(all := map[], captures := map i | i in co.captures :: co.captures[i].(neighbors := map[]))
  }

  /** `_on_neighbor_discovered`: the neighbour is stamped with the speed of its
      local interface and stored in the combined table under its key. */
  function OnNeighborDiscovered(co: Coordinator, n: DiscoveryNeighbor): (r: Coordinator)
    ensures r.captures == co.captures && r.info == co.info
    ensures Key(n) in r.all && r.all[Key(n)].localPortSpeed == Nic.InterfaceSpeed(co.info, n.localInterface)
    ensures r.all[Key(n)] == n.(localPortSpeed := r.all[Key(n)].localPortSpeed)
    ensures forall k :: k != Key(n) ==> (k in r.all <==> k in co.all)
    ensures forall k :: k in co.all && k != Key(n) ==> r.all[k] == co.all[k]
  {
    co.(all := co.all[Key(n) := Stamp(co.info, n)])
  }

  /** A frame received on `interface`. When the interface's capture runs and
      the handler yields a neighbour, the capture stores it and hands it to
      the coordinator, which stamps it and stores it too. The record is one
      shared object in the source, so the stamp shows in both tables. A frame
      for an unmanaged or stopped capture, or one that yields nothing,
      changes nothing. */
  function Receive(co: Coordinator, interface: string, raw: seq<Byte>, now: int): (r: Coordinator)
    ensures r.info == co.info && r.captures.Keys == co.captures.Keys
    ensures forall i :: i in co.captures ==> r.captures[i].running == co.captures[i].running
    ensures forall i :: i in co.captures && i != interface ==> r.captures[i] == co.captures[i]
    ensures (interface !in co.captures || !co.captures[interface].running
             || HandleFrame(interface, raw, now).None?) ==> r == co
    ensures (interface in co.captures && co.captures[interface].running
             && HandleFrame(interface, raw, now).Some?) ==> r == Store(co, interface, HandleFrame(interface, raw, now).value)
  {
    if interface !in co.captures || !co.captures[interface].running then co
    else match HandleFrame(interface, raw, now)
      case None => co
      case Some(n) => Store(co, interface, n)
  }

  /** The neighbour `n` found on `interface` stored by the capture and by the
      coordinator. */
  function Store(co: Coordinator, interface: string, n: DiscoveryNeighbor): (r: Coordinator)
    requires interface in co.captures
    ensures r.info == co.info && r.captures.Keys == co.captures.Keys
    ensures r.captures[interface].running == co.captures[interface].running
    ensures forall i :: i in co.captures && i != interface ==> r.captures[i] == co.captures[i]
  {
    var local := UpdateNeighbor(co.captures[interface], Stamp(co.info, n));
    OnNeighborDiscovered(co, n).(captures := co.captures[interface := local])
  }

  /** A frame that decodes on a running capture ends up, stamped, under its key
      in both the capture's table and the combined table, and no other entry
      of the combined table changes. */
  lemma {:induction false} ReceiveStores(co: Coordinator, interface: string, raw: seq<Byte>, now: int)
    requires interface in co.captures && co.captures[interface].running
    requires HandleFrame(interface, raw, now).Some?
    ensures var n := HandleFrame(interface, raw, now).value;
      var r := Receive(co, interface, raw, now);
      && Key(n) in r.all && r.all[Key(n)] == Stamp(co.info, n)
      && Key(n) in r.captures[interface].neighbors
      && r.captures[interface].neighbors[Key(n)] == r.all[Key(n)]
      && (forall k :: k in co.all && k != Key(n) ==> k in r.all && r.all[k] == co.all[k])
  {
  }

  // ---------------------------------------------------------------------------
  // The invariant

  lemma {:induction false} AddInterfaceConsistent(co: Coordinator, interface: string)
    requires Consistent(co)
    ensures Consistent(AddInterface(co, interface))
  {
  }

  lemma {:induction false} RemoveInterfaceConsistent(co: Coordinator, interface: string)
    requires Consistent(co)
    ensures Consistent(RemoveInterface(co, interface))
  {
  }

  lemma {:induction false} SetRunningConsistent(co: Coordinator, interface: string, on: bool)
    requires Consistent(co)
    ensures Consistent(SetAll(co, on)) && Consistent(SetInterface(co, interface, on))
  {
    var r := SetAll(co, on);
    forall i | i in r.captures
      ensures r.captures[i].interface == i && CaptureConsistent(r.captures[i])
    {
      assert r.captures[i].neighbors == co.captures[i].neighbors;
    }
  }

  lemma {:induction false} ClearAllConsistent(co: Coordinator)
    requires Consistent(co)
    ensures Consistent(ClearAll(co))
  {
  }

  /** Receiving a frame keeps the coordinator consistent. */
  lemma {:induction false} ReceiveConsistent(co: Coordinator, interface: string, raw: seq<Byte>, now: int)
    requires Consistent(co)
    ensures Consistent(Receive(co, interface, raw, now))
  {
    if interface in co.captures && co.captures[interface].running && HandleFrame(interface, raw, now).Some? {
      StoreConsistent(co, interface, HandleFrame(interface, raw, now).value);
    }
  }

  lemma {:induction false} StoreConsistent(co: Coordinator, interface: string, n: DiscoveryNeighbor)
    requires Consistent(co) && interface in co.captures && n.localInterface == interface && Decoded(n)
    ensures Consistent(Store(co, interface, n))
  {
    var stamped := Stamp(co.info, n);
    var r := Store(co, interface, n);
    UpdateNeighborConsistent(co.captures[interface], stamped);
    assert r.captures == co.captures[interface := UpdateNeighbor(co.captures[interface], stamped)];
    StampedTableUpdate(co.all, co.info, n);
  }

  lemma {:induction false} StampedTableUpdate(all: map<string, DiscoveryNeighbor>, info: map<string, Nic.NetworkInterface>, n: DiscoveryNeighbor)
    requires StampedTable(all, info)
    ensures StampedTable(all[Key(n) := Stamp(info, n)], info)
  {
  }

  // ---------------------------------------------------------------------------
  // Mirroring

  /** Every neighbour a capture holds is also in the combined table under the
      same key, as the same record. */
  ghost predicate Mirrored(co: Coordinator)
  {
    forall i, k :: i in co.captures && k in co.captures[i].neighbors ==>
      k in co.all && co.all[k] == co.captures[i].neighbors[k]
  }

  /** No managed interface name holds ":". */
  predicate PlainNames(co: Coordinator)
  {
    forall i :: i in co.captures ==> ':' !in i
  }

  /** Decoded neighbours on interfaces whose names hold no ":" share a key only
      when they share the interface. */
  lemma {:induction false} KeySeparatesInterfaces(a: DiscoveryNeighbor, b: DiscoveryNeighbor)
    requires Decoded(a) && Decoded(b) && ':' !in a.localInterface && ':' !in b.localInterface
    ensures Key(a) == Key(b) ==> a.localInterface == b.localInterface
  {
    if Key(a) == Key(b) {
      JoinFour(a.protocol, a.localInterface, a.deviceId, a.portId, ":");
      JoinFour(b.protocol, b.localInterface, b.deviceId, b.portId, ":");
      var ra := a.localInterface + ":" + (a.deviceId + ":" + a.portId);
      var rb := b.localInterface + ":" + (b.deviceId + ":" + b.portId);
      assert Key(a) == a.protocol + ":" + ra;
      assert Key(b) == b.protocol + ":" + rb;
      SeparatedPrefix(a.protocol, ra, b.protocol, rb, ':');
      SeparatedPrefix(a.localInterface, a.deviceId + ":" + a.portId, b.localInterface, b.deviceId + ":" + b.portId, ':');
    }
  }

  lemma {:induction false} NewCoordinatorMirrored(ifs: seq<Nic.NetworkInterface>)
    ensures Mirrored(NewCoordinator(ifs))
  {
  }

  lemma {:induction false} ManagementMirrored(co: Coordinator, interface: string, on: bool)
    requires Mirrored(co)
    ensures Mirrored(AddInterface(co, interface)) && Mirrored(RemoveInterface(co, interface))
    ensures Mirrored(SetInterface(co, interface, on)) && Mirrored(ClearAll(co))
  {
  }

  lemma {:induction false} SetAllMirrored(co: Coordinator, on: bool)
    requires Mirrored(co)
    ensures Mirrored(SetAll(co, on))
  {
    var r := SetAll(co, on);
    forall i | i in r.captures
      ensures r.captures[i].neighbors == co.captures[i].neighbors
    {
    }
  }

  /** Storing keeps every capture's neighbours mirrored, provided interface
      names hold no ":": the new key cannot land on another interface's
      entry. */
  lemma {:induction false} StoreMirrored(co: Coordinator, interface: string, n: DiscoveryNeighbor)
    requires Consistent(co) && Mirrored(co) && PlainNames(co)
    requires interface in co.captures && n.localInterface == interface && Decoded(n)
    ensures Mirrored(Store(co, interface, n))
  {
    var stamped := Stamp(co.info, n);
    var r := Store(co, interface, n);
    assert r.captures == co.captures[interface := UpdateNeighbor(co.captures[interface], stamped)];
    assert r.all == co.all[Key(n) := stamped];
    forall i, k | i in r.captures && k in r.captures[i].neighbors
      ensures k in r.all && r.all[k] == r.captures[i].neighbors[k]
    {
      if i != interface || k != Key(n) {
        var v := co.captures[i].neighbors[k];
        assert r.captures[i].neighbors[k] == v;
        assert k == Key(v) && v.localInterface == i && Decoded(v);
        KeySeparatesInterfaces(v, n);
      }
    }
  }

  /** Receiving a frame keeps every capture's neighbours mirrored, for plain
      interface names. */
  lemma {:induction false} ReceiveMirrored(co: Coordinator, interface: string, raw: seq<Byte>, now: int)
    requires Consistent(co) && Mirrored(co) && PlainNames(co)
    ensures Mirrored(Receive(co, interface, raw, now))
  {
    if interface in co.captures && co.captures[interface].running && HandleFrame(interface, raw, now).Some? {
      StoreMirrored(co, interface, HandleFrame(interface, raw, now).value);
    }
  }
}

=== FILE: display.dfy ===
/** The neighbour table of the combined listener window: neighbours kept in
    arrival order under the ":"-joined key, the protocol-mode filter that
    decides which of them are shown, and the counts shown above the table. */
module Display {
  import opened Bytes
  import opened Strings
  import opened Neighbor

  /** The protocol modes the window offers. */
  const BothMode: string := "both"
  const CdpMode: string := "cdp"
  const LldpMode: string := "lldp"
  const AutoMode: string := "auto"

  /** The window's neighbour dictionary: key and neighbour pairs in insertion
      order. */
  type Table = seq<(string, DiscoveryNeighbor)>

  /** Every key occurs once, and every neighbour sits under its own key. */
  ghost predicate WellKeyed(t: Table)
  {
    (forall i, j :: 0 <= i < j < |t| ==> t[i].0 != t[j].0)
    && (forall i :: 0 <= i < |t| ==> t[i].0 == Key(t[i].1))
  }

  /** The position of `key` in the table, if present. */
  function IndexOf(t: Table, key: string): (r: Option<nat>)
    ensures r.None? <==> forall i :: 0 <= i < |t| ==> t[i].0 != key
    ensures r.Some? ==> r.value < |t| && t[r.value].0 == key
    decreases |t|
  {
    if t == [] then None
    else if t[|t| - 1].0 == key then Some(|t| - 1)
    else IndexOf(t[..|t| - 1], key)
  }

  /** `_on_neighbor_discovered_gui`: `self.neighbors[key] = neighbor`. A new
      key is appended; a known key keeps its place and gets the new
      neighbour. */
  function Put(t: Table, n: DiscoveryNeighbor): (r: Table)
    ensures IndexOf(t, Key(n)).None? ==> r == t + [(Key(n), n)]
    ensures IndexOf(t, Key(n)).Some? ==> r == t[IndexOf(t, Key(n)).value := (Key(n), n)]
  {
    match IndexOf(t, Key(n))
    case None => t + [(Key(n), n)]
    case Some(i) => t[i := (Key(n), n)]
  }

  /** Putting keeps the table well keyed, holds the neighbour under its key,
      grows the table only for a new key, and leaves every other entry where
      it was. */
  lemma {:induction false} PutWellKeyed(t: Table, n: DiscoveryNeighbor)
    requires WellKeyed(t)
    ensures WellKeyed(Put(t, n))
    ensures (Key(n), n) in Put(t, n)
    ensures |Put(t, n)| == if exists i :: 0 <= i < |t| && t[i].0 == Key(n) then |t| else |t| + 1
    ensures forall i :: 0 <= i < |t| && t[i].0 != Key(n) ==> Put(t, n)[i] == t[i]
  {
    var r := Put(t, n);
    var idx := IndexOf(t, Key(n));
    if idx.None? {
      assert r[|t|] == (Key(n), n);
    } else {
      assert r[idx.value] == (Key(n), n);
    }
  }

  // ---------------------------------------------------------------------------
  // The filter

  /** The loop of the "auto" mode: is there a CDP neighbour for the same
      device on the same local interface? */
  function HasCdpTwin(t: Table, n: DiscoveryNeighbor): bool
    decreases |t|
  {
    if t == [] then false
    else
      var other := t[0].1;
      if other.protocol == CdpProtocol && other.deviceId == n.deviceId && other.localInterface == n.localInterface then true
      else HasCdpTwin(t[1..], n)
  }

  /** A CDP neighbour for the same device on the same interface. */
  predicate CdpTwin(n: DiscoveryNeighbor, other: DiscoveryNeighbor)
  {
    other.protocol == CdpProtocol && other.deviceId == n.deviceId && other.localInterface == n.localInterface
  }

  lemma {:induction false} HasCdpTwinExists(t: Table, n: DiscoveryNeighbor)
    ensures HasCdpTwin(t, n) <==> exists i :: 0 <= i < |t| && CdpTwin(n, t[i].1)
    decreases |t|
  {
    if t != [] {
      HasCdpTwinExists(t[1..], n);
      if exists i :: 0 <= i < |t[1..]| && CdpTwin(n, t[1..][i].1) {
        var i :| 0 <= i < |t[1..]| && CdpTwin(n, t[1..][i].1);
        assert t[i + 1] == t[1..][i];
      }
      if exists i :: 0 <= i < |t| && CdpTwin(n, t[i].1) {
        var i :| 0 <= i < |t| && CdpTwin(n, t[i].1);
        if i > 0 {
          assert t[1..][i - 1] == t[i];
        }
      }
    }
  }

  /** `_should_display_neighbor`. */
  function ShouldDisplay(mode: string, n: DiscoveryNeighbor, t: Table): (r: bool)
    ensures !r ==> mode == CdpMode || mode == LldpMode || mode == AutoMode
    ensures n.protocol == CdpProtocol && mode != LldpMode ==> r
    ensures mode == AutoMode && !r ==> HasCdpTwin(t, n)
  {
    if mode == BothMode then true
    else if mode == CdpMode then n.protocol == CdpProtocol
    else if mode == LldpMode then n.protocol == LldpProtocol
    else if mode == AutoMode then n.protocol == CdpProtocol || !HasCdpTwin(t, n)
    else true
  }

  /** The filter in the terms of the mode descriptions: "both" and any
      unrecognised mode show everything, "cdp" and "lldp" show their own
      protocol, and "auto" shows every CDP neighbour and hides another
      neighbour exactly when the table holds a CDP neighbour for the same
      device on the same interface. */
  lemma {:induction false} ShouldDisplayModes(mode: string, n: DiscoveryNeighbor, t: Table)
    ensures mode == CdpMode ==> (ShouldDisplay(mode, n, t) <==> n.protocol == CdpProtocol)
    ensures mode == LldpMode ==> (ShouldDisplay(mode, n, t) <==> n.protocol == LldpProtocol)
    ensures mode == AutoMode ==>
      (ShouldDisplay(mode, n, t) <==> n.protocol == CdpProtocol || !exists i :: 0 <= i < |t| && CdpTwin(n, t[i].1))
    ensures mode !in {CdpMode, LldpMode, AutoMode} ==> ShouldDisplay(mode, n, t)
  {
    HasCdpTwinExists(t, n);
  }

  /** The entries of `entries` the filter shows, judged against table `t`, in
      order. */
  function Shown(mode: string, entries: Table, t: Table): (r: Table)
    ensures |r| <= |entries|
    decreases |entries|
  {
    if entries == [] then []
    else
      var rest := Shown(mode, entries[..|entries| - 1], t);
      var e := entries[|entries| - 1];
      if ShouldDisplay(mode, e.1, t) then rest + [e] else rest
  }

  /** `displayed_neighbors` of `_refresh_neighbor_display`. */
  function Displayed(mode: string, t: Table): Table
  {
    Shown(mode, t, t)
  }

  /** An entry is displayed exactly when it is stored and the filter shows
      it. */
  lemma {:induction false} ShownExact(mode: string, entries: Table, t: Table)
    ensures forall e :: e in Shown(mode, entries, t) <==> e in entries && ShouldDisplay(mode, e.1, t)
    decreases |entries|
  {
    if entries != [] {
      ShownExact(mode, entries[..|entries| - 1], t);
      assert entries == entries[..|entries| - 1] + [entries[|entries| - 1]];
    }
  }

  /** Mode "both" displays the whole table, in order. */
  lemma {:induction false} ShownAll(entries: Table, t: Table)
    ensures Shown(BothMode, entries, t) == entries
    decreases |entries|
  {
    if entries != [] {
      ShownAll(entries[..|entries| - 1], t);
    }
  }

  // ---------------------------------------------------------------------------
  // Counts

  /** How many entries carry protocol `p`. */
  function Count(entries: Table, p: string): (r: nat)
    ensures r <= |entries|
    decreases |entries|
  {
    if entries == [] then 0
    else Count(entries[..|entries| - 1], p) + (if entries[|entries| - 1].1.protocol == p then 1 else 0)
  }

  /** The counts `_refresh_neighbor_display` puts above the table. */
  datatype Counts = Counts(shown: nat, displayedCdp: nat, displayedLldp: nat, totalCdp: nat, totalLldp: nat, total: nat)

  function Refresh(mode: string, t: Table): (r: Counts)
    ensures r.displayedCdp <= r.totalCdp && r.displayedLldp <= r.totalLldp
    ensures r.shown <= r.total
  {
    var d := Displayed(mode, t);
    ShownCount(mode, t, t, CdpProtocol);
    ShownCount(mode, t, t, LldpProtocol);
    Counts(|d|, Count(d, CdpProtocol), Count(d, LldpProtocol), Count(t, CdpProtocol), Count(t, LldpProtocol), |t|)
  }

  /** Filtering never adds entries of a protocol. */
  lemma {:induction false} ShownCount(mode: string, entries: Table, t: Table, p: string)
    ensures Count(Shown(mode, entries, t), p) <= Count(entries, p)
    decreases |entries|
  {
    if entries != [] {
      var init := entries[..|entries| - 1];
      var rest := Shown(mode, init, t);
      ShownCount(mode, init, t, p);
      var r := Shown(mode, entries, t);
      if r != rest {
        assert r[..|r| - 1] == rest;
      }
    }
  }

  lemma {:induction false} CountSnoc(a: Table, e: (string, DiscoveryNeighbor), p: string)
    ensures Count(a + [e], p) == Count(a, p) + (if e.1.protocol == p then 1 else 0)
  {
    assert (a + [e])[..|a|] == a;
  }

  /** In mode "cdp" every CDP entry and no LLDP entry is displayed, and in mode
      "lldp" the other way round. */
  lemma {:induction false} SingleProtocolCounts(mode: string, p: string, q: string, entries: Table, t: Table)
    requires (mode == CdpMode && p == CdpProtocol && q == LldpProtocol)
          || (mode == LldpMode && p == LldpProtocol && q == CdpProtocol)
    ensures Count(Shown(mode, entries, t), p) == Count(entries, p)
    ensures Count(Shown(mode, entries, t), q) == 0
    decreases |entries|
  {
    if entries != [] {
      var init := entries[..|entries| - 1];
      var e := entries[|entries| - 1];
      SingleProtocolCounts(mode, p, q, init, t);
      assert entries == init + [e];
      CountSnoc(init, e, p);
      if ShouldDisplay(mode, e.1, t) {
        CountSnoc(Shown(mode, init, t), e, p);
        CountSnoc(Shown(mode, init, t), e, q);
      }
    }
  }

  /** In mode "auto" every CDP entry is displayed. */
  lemma {:induction false} AutoShowsAllCdp(entries: Table, t: Table)
    ensures Count(Shown(AutoMode, entries, t), CdpProtocol) == Count(entries, CdpProtocol)
    decreases |entries|
  {
    if entries != [] {
      var init := entries[..|entries| - 1];
      var e := entries[|entries| - 1];
      AutoShowsAllCdp(init, t);
      assert entries == init + [e];
      CountSnoc(init, e, CdpProtocol);
      if ShouldDisplay(AutoMode, e.1, t) {
        CountSnoc(Shown(AutoMode, init, t), e, CdpProtocol);
      }
    }
  }
}

=== FILE: flags.dfy ===
/** Capability bitmasks: both decoders turn a bitmask into the list of names of
    its set bits, testing the flags in a fixed table order. */
module Flags {

  /** `(v >> i) & 1 == 1`. */
  predicate Bit(v: nat, i: nat)
    decreases i
  {
    if i == 0 then v % 2 == 1 else Bit(v / 2, i - 1)
  }

  function Pow2(n: nat): (r: nat)
    ensures r >= 1
  {
    if n == 0 then 1 else 2 * Pow2(n - 1)
  }

  /** The names of the set bits of `v`, bit `i` selecting `names[i]`, in table
      order: the chain of `if cap_value & FLAG: capabilities.append(NAME)` tests. */
  function DecodeFlags(v: nat, names: seq<string>): (r: seq<string>)
    ensures |r| <= |names|
    decreases |names|
  {
    if names == [] then []
    else (if v % 2 == 1 then [names[0]] else []) + DecodeFlags(v / 2, names[1..])
  }

  predicate Distinct(names: seq<string>)
  {
    forall i, j :: 0 <= i < j < |names| ==> names[i] != names[j]
  }

  /** `flags` is a selection of `names`, listed in table order. */
  predicate InTableOrder(flags: seq<string>, names: seq<string>)
    decreases |names|
  {
    if flags == [] then true
    else if names == [] then false
    else if flags[0] == names[0] then InTableOrder(flags[1..], names[1..])
    else InTableOrder(flags, names[1..])
  }

  /** The bitmask whose decoding is `flags`: the inverse of `DecodeFlags`. */
  function EncodeFlags(flags: seq<string>, names: seq<string>): nat
    decreases |names|
  {
    if names == [] then 0
    else if flags != [] && flags[0] == names[0] then 1 + 2 * EncodeFlags(flags[1..], names[1..])
    else 2 * EncodeFlags(flags, names[1..])
  }

  lemma {:induction false} DecodeMembers(v: nat, names: seq<string>, x: string)
    requires x in DecodeFlags(v, names)
    ensures x in names
    decreases |names|
  {
    if names != [] && x != names[0] {
      DecodeMembers(v / 2, names[1..], x);
    }
  }

  /** The decoded names come out in table order. */
  lemma {:induction false} DecodeInTableOrder(v: nat, names: seq<string>)
    ensures InTableOrder(DecodeFlags(v, names), names)
    decreases |names|
  {
    if names != [] {
      DecodeInTableOrder(v / 2, names[1..]);
      var rest := DecodeFlags(v / 2, names[1..]);
      if v % 2 == 1 {
        assert ([names[0]] + rest)[1..] == rest;
      } else {
        assert DecodeFlags(v, names) == rest;
        if rest != [] && rest[0] == names[0] {
          InTableOrderTail(rest, names[1..]);
        }
      }
    }
  }

  /** Dropping the first element of a selection keeps it a selection. */
  lemma {:induction false} InTableOrderTail(flags: seq<string>, names: seq<string>)
    requires flags != [] && InTableOrder(flags, names)
    ensures InTableOrder(flags[1..], names)
    decreases |names|, 1
  {
    if flags[0] != names[0] {
      InTableOrderTail(flags, names[1..]);
      InTableOrderWeaken(flags[1..], names);
    } else {
      InTableOrderWeaken(flags[1..], names);
    }
  }

  /** A selection of the tail of a table is a selection of the table. */
  lemma {:induction false} InTableOrderWeaken(flags: seq<string>, names: seq<string>)
    requires names != [] && InTableOrder(flags, names[1..])
    ensures InTableOrder(flags, names)
    decreases |names|, 0
  {
    if flags != [] && flags[0] == names[0] {
      InTableOrderTail(flags, names[1..]);
    }
  }

  /** Name `i` is listed exactly when bit `i` is set. */
  lemma {:induction false} DecodeMembership(v: nat, names: seq<string>, i: nat)
    requires Distinct(names) && i < |names|
    ensures names[i] in DecodeFlags(v, names) <==> Bit(v, i)
    decreases i
  {
    var rest := DecodeFlags(v / 2, names[1..]);
    if names[0] in rest {
      DecodeMembers(v / 2, names[1..], names[0]);
      assert false;
    }
    if i > 0 {
      assert names[i] == names[1..][i - 1];
      DecodeMembership(v / 2, names[1..], i - 1);
    }
  }

  /** Encoding the decoded names recovers every bit the table covers. */
  lemma {:induction false} EncodeDecode(v: nat, names: seq<string>)
    requires Distinct(names) && v < Pow2(|names|)
    ensures EncodeFlags(DecodeFlags(v, names), names) == v
    decreases |names|
  {
    if names != [] {
      var rest := DecodeFlags(v / 2, names[1..]);
      EncodeDecode(v / 2, names[1..]);
      if v % 2 == 1 {
        assert ([names[0]] + rest)[1..] == rest;
      } else {
        if rest != [] && rest[0] == names[0] {
          DecodeMembers(v / 2, names[1..], rest[0]);
          assert false;
        }
        assert [] + rest == rest;
      }
    }
  }

  /** Decoding the encoding of a selection gives the selection back. */
  lemma {:induction false} DecodeEncode(flags: seq<string>, names: seq<string>)
    requires InTableOrder(flags, names)
    ensures DecodeFlags(EncodeFlags(flags, names), names) == flags
    decreases |names|
  {
    if names != [] {
      if flags != [] && flags[0] == names[0] {
        var e := EncodeFlags(flags[1..], names[1..]);
        assert (1 + 2 * e) % 2 == 1 && (1 + 2 * e) / 2 == e;
        DecodeEncode(flags[1..], names[1..]);
        assert [flags[0]] + flags[1..] == flags;
      } else {
        var e := EncodeFlags(flags, names[1..]);
        assert (2 * e) % 2 == 0 && (2 * e) / 2 == e;
        DecodeEncode(flags, names[1..]);
        assert [] + flags == flags;
      }
    }
  }

  /** Bits above the table are ignored. */
  lemma {:induction false} HighBitsIgnored(v: nat, k: nat, names: seq<string>)
    ensures DecodeFlags(v + Pow2(|names|) * k, names) == DecodeFlags(v, names)
    decreases |names|
  {
    if names != [] {
      var x := Pow2(|names| - 1) * k;
      assert Pow2(|names|) * k == 2 * x;
      assert (v + 2 * x) % 2 == v % 2;
      assert (v + 2 * x) / 2 == v / 2 + x;
      HighBitsIgnored(v / 2, k, names[1..]);
    }
  }

  /** `HighBitsIgnored` with the table's width given as a number. */
  lemma {:induction false} HighBitsIgnoredAbove(v: nat, k: nat, names: seq<string>, width: nat)
    requires Pow2(|names|) == width
    ensures DecodeFlags(v + width * k, names) == DecodeFlags(v, names)
  {
    HighBitsIgnored(v, k, names);
  }

  /** A selection encodes to a mask within the table's bits. */
  lemma {:induction false} EncodeBound(flags: seq<string>, names: seq<string>)
    ensures EncodeFlags(flags, names) < Pow2(|names|)
    decreases |names|
  {
    if names != [] {
      if flags != [] && flags[0] == names[0] {
        EncodeBound(flags[1..], names[1..]);
      } else {
        EncodeBound(flags, names[1..]);
      }
    }
  }
}

=== FILE: lldp.dfy ===
/** The LLDP decoder (`LLDPParser`): the EtherType check, the walk over the
    chain of TLVs with the packed 7-bit type / 9-bit length header of IEEE
    802.1AB (clause 8.4), and the dispatch of each TLV to the neighbour record.

    As for CDP, `Tlvs` is the structural walk (which TLVs the loop visits before
    it stops) and `ApplyAll` the left fold of the per-type dispatch `ApplyTlv`. */
module Lldp {
  import opened Bytes
  import opened TypeLength
  import Render
  import Flags

  const EndType: nat := 0
  const ChassisIdType: nat := 1
  const PortIdType: nat := 2
  const TtlType: nat := 3
  const PortDescriptionType: nat := 4
  const SystemNameType: nat := 5
  const SystemDescriptionType: nat := 6
  const CapabilitiesType: nat := 7
  const MgmtAddressType: nat := 8
  const OrgSpecificType: nat := 127

  /** Chassis ID subtypes 4 (MAC address) and 5 (network address); Port ID
      subtypes 3 (MAC address) and 4 (network address). */
  const ChassisMacSubtype: nat := 4
  const ChassisNetworkSubtype: nat := 5
  const PortMacSubtype: nat := 3
  const PortNetworkSubtype: nat := 4

  /** Address family numbers 1 (IPv4) and 2 (IPv6), used both by the network
      address subtypes and by the Management Address TLV. */
  const Ipv4Family: nat := 1
  const Ipv6Family: nat := 2

  /** The IEEE 802.1 OUI 00-80-C2 and its Port VLAN ID (1) and VLAN Name (3)
      subtypes. */
  const Ieee8021Oui: seq<Byte> := [0x00, 0x80, 0xC2]
  const PortVlanSubtype: nat := 1
  const VlanNameSubtype: nat := 3

  const LldpEtherType: nat := 0x88CC

  /** The TTL a fresh record starts with, in seconds. */
  const DefaultTtl: nat := 120

  /** Bit `i` of a capability word names `CapabilityNames[i]`
      (0x0001 Other … 0x0400 TPMR). */
  const CapabilityNames: seq<string> :=
    ["Other", "Repeater", "Bridge", "WLAN AP", "Router", "Telephone", "DOCSIS",
     "Station", "C-VLAN", "S-VLAN", "TPMR"]

  /** `LLDPNeighbor`. The `protocol` field is always "LLDP" and is not stored;
      `last_seen` is the capture time, supplied by the caller. */
  datatype LldpNeighbor = LldpNeighbor(
    chassisId: string,
    portId: string,
    portDescription: string,
    systemName: string,
    systemDescription: string,
    capabilities: seq<string>,
    enabledCapabilities: seq<string>,
    mgmtAddresses: seq<string>,
    vlanId: Option<nat>,
    vlanName: string,
    sourceMac: string,
    localInterface: string,
    localPortSpeed: string,
    lastSeen: int,
    ttl: nat)

  /** A record with every field at its default, as `LLDPNeighbor()` builds it. */
  function Default(now: int): (r: LldpNeighbor)
    ensures r.ttl == DefaultTtl && r.lastSeen == now
    ensures r.chassisId == "" && r.portId == "" && r.systemName == ""
    ensures r.capabilities == [] && r.enabledCapabilities == [] && r.mgmtAddresses == []
    ensures r.portDescription == "" && r.systemDescription == ""
    ensures r.vlanId.None? && r.vlanName == ""
    ensures r.sourceMac == "" && r.localInterface == "" && r.localPortSpeed == ""
  {
    LldpNeighbor("", "", "", "", "", [], [], [], None, "", "", "", "", now, DefaultTtl)
  }

  // ---------------------------------------------------------------------------
  // Capabilities

  /** `parse_capabilities`: the chain of flag tests over the capability table. */
  function ParseCapabilities(v: nat): (r: seq<string>)
    ensures |r| <= |CapabilityNames|
    ensures Flags.InTableOrder(r, CapabilityNames)
  {
    Flags.DecodeInTableOrder(v, CapabilityNames);
    Flags.DecodeFlags(v, CapabilityNames)
  }

  lemma {:induction false} CapabilityNamesDistinct()
    ensures Flags.Distinct(CapabilityNames)
  {
  }

  lemma {:induction false} CapabilityTableSize()
    ensures Flags.Pow2(|CapabilityNames|) == 0x800
  {
    assert Flags.Pow2(0) == 1;
    assert Flags.Pow2(1) == 2;
    assert Flags.Pow2(2) == 4;
    assert Flags.Pow2(3) == 8;
    assert Flags.Pow2(4) == 16;
    assert Flags.Pow2(5) == 32;
    assert Flags.Pow2(6) == 64;
    assert Flags.Pow2(7) == 128;
    assert Flags.Pow2(8) == 256;
    assert Flags.Pow2(9) == 512;
    assert Flags.Pow2(10) == 1024;
  }

  /** The capability list names exactly the set bits among the low eleven, in
      table order. */
  lemma {:induction false} CapabilitiesMembership(v: nat)
    ensures forall i :: 0 <= i < |CapabilityNames| ==>
      (CapabilityNames[i] in ParseCapabilities(v) <==> Flags.Bit(v, i))
    ensures Flags.InTableOrder(ParseCapabilities(v), CapabilityNames)
  {
    CapabilityNamesDistinct();
    forall i | 0 <= i < |CapabilityNames|
      ensures CapabilityNames[i] in Flags.DecodeFlags(v, CapabilityNames) <==> Flags.Bit(v, i)
    {
      Flags.DecodeMembership(v, CapabilityNames, i);
    }
    Flags.DecodeInTableOrder(v, CapabilityNames);
  }

  /** Bits above 0x0400 never change the capability list. */
  lemma {:induction false} CapabilitiesIgnoreHighBits(v: nat, k: nat)
    ensures ParseCapabilities(v + 0x800 * k) == ParseCapabilities(v)
  {
    CapabilityTableSize();
    HighBitsOfWideTable(v, k, CapabilityNames);
  }

  lemma {:induction false} HighBitsOfWideTable(v: nat, k: nat, names: seq<string>)
    requires Flags.Pow2(|names|) == 0x800
    ensures Flags.DecodeFlags(v + 0x800 * k, names) == Flags.DecodeFlags(v, names)
  {
    Flags.HighBitsIgnoredAbove(v, k, names, 0x800);
  }

  /** The capability list names exactly the bits it was decoded from: encoding it
      again gives back the low eleven bits. */
  lemma {:induction false} CapabilitiesRoundTrip(v: nat)
    requires v < 0x800
    ensures Flags.EncodeFlags(ParseCapabilities(v), CapabilityNames) == v
  {
    CapabilityNamesDistinct();
    CapabilityTableSize();
    Flags.EncodeDecode(v, CapabilityNames);
  }

  /** 0x0014 = Bridge (0x0004) + Router (0x0010). */
  lemma {:induction false} CapabilitiesExample()
    ensures ParseCapabilities(0x14) == ["Bridge", "Router"]
  {
    var ns := CapabilityNames;
    assert Flags.DecodeFlags(0, ns[5..]) == [] by {
      assert Flags.DecodeFlags(0, ns[11..]) == [];
      assert Flags.DecodeFlags(0, ns[10..]) == [];
      assert Flags.DecodeFlags(0, ns[9..]) == [];
      assert Flags.DecodeFlags(0, ns[8..]) == [];
      assert Flags.DecodeFlags(0, ns[7..]) == [];
      assert Flags.DecodeFlags(0, ns[6..]) == [];
    }
    assert Flags.DecodeFlags(1, ns[4..]) == ["Router"];
    assert Flags.DecodeFlags(2, ns[3..]) == ["Router"];
    assert Flags.DecodeFlags(5, ns[2..]) == ["Bridge", "Router"];
    assert Flags.DecodeFlags(10, ns[1..]) == ["Bridge", "Router"];
    assert Flags.DecodeFlags(20, ns) == ["Bridge", "Router"];
  }

  // ---------------------------------------------------------------------------
  // Chassis ID, Port ID and Management Address

  /** `parse_chassis_id`: a 6-byte MAC address (subtype 4) in colon hex; a
      network address (subtype 5) in dotted decimal for IPv4 or as eight 16-bit
      hex groups for IPv6; anything else, including a network address too short
      for its family, as text. */
  function ChassisId(subtype: nat, data: seq<Byte>): (r: string)
    ensures subtype != ChassisMacSubtype && subtype != ChassisNetworkSubtype ==> r == Text(data)
    ensures subtype == ChassisMacSubtype && |data| != 6 ==> r == Text(data)
  {
    if subtype == ChassisMacSubtype && |data| == 6 then Render.ColonHex(data)
    else if subtype == ChassisNetworkSubtype && |data| >= 2 && data[0] == Ipv4Family && |data| >= 5 then
      Render.DottedDecimal(data[1..5])
    else if subtype == ChassisNetworkSubtype && |data| >= 2 && data[0] == Ipv6Family && |data| >= 17 then
      Render.HexGroups(data[1..17])
    else Text(data)
  }

  /** What a chassis ID reads back to: the MAC address or the network address it
      was rendered from, or else the decoded text. */
  lemma {:induction false} ChassisIdDecodes(subtype: nat, data: seq<Byte>)
    ensures subtype == ChassisMacSubtype && |data| == 6 ==>
      Render.ParseColonHex(ChassisId(subtype, data)) == Some(data)
    ensures subtype == ChassisNetworkSubtype && |data| >= 5 && data[0] == Ipv4Family ==>
      Render.ParseDottedDecimal(ChassisId(subtype, data)) == Some(data[1..5])
    ensures subtype == ChassisNetworkSubtype && |data| >= 17 && data[0] == Ipv6Family ==>
      Render.ParseColonHex(ChassisId(subtype, data)) == Some(data[1..17])
    ensures (!(subtype == ChassisMacSubtype && |data| == 6)
             && !(subtype == ChassisNetworkSubtype && |data| >= 5 && data[0] == Ipv4Family)
             && !(subtype == ChassisNetworkSubtype && |data| >= 17 && data[0] == Ipv6Family)) ==>
      ChassisId(subtype, data) == Text(data)
  {
    if subtype == ChassisMacSubtype && |data| == 6 {
      Render.ColonHexRoundTrip(data);
    } else if subtype == ChassisNetworkSubtype && |data| >= 5 && data[0] == Ipv4Family {
      Render.DottedDecimalRoundTrip(data[1..5]);
    } else if subtype == ChassisNetworkSubtype && |data| >= 17 && data[0] == Ipv6Family {
      Render.HexGroupsRoundTrip(data[1..17]);
    }
  }

  /** `parse_port_id`: a 6-byte MAC address (subtype 3) in colon hex, an IPv4
      network address (subtype 4) in dotted decimal, anything else as text;
      unlike the chassis ID there is no IPv6 rendering. */
  function PortId(subtype: nat, data: seq<Byte>): (r: string)
    ensures subtype != PortMacSubtype && subtype != PortNetworkSubtype ==> r == Text(data)
    ensures subtype == PortMacSubtype && |data| != 6 ==> r == Text(data)
  {
    if subtype == PortMacSubtype && |data| == 6 then Render.ColonHex(data)
    else if subtype == PortNetworkSubtype && |data| >= 2 && data[0] == Ipv4Family && |data| >= 5 then
      Render.DottedDecimal(data[1..5])
    else Text(data)
  }

  /** What a port ID reads back to; an IPv6 network address is left as text. */
  lemma {:induction false} PortIdDecodes(subtype: nat, data: seq<Byte>)
    ensures subtype == PortMacSubtype && |data| == 6 ==>
      Render.ParseColonHex(PortId(subtype, data)) == Some(data)
    ensures subtype == PortNetworkSubtype && |data| >= 5 && data[0] == Ipv4Family ==>
      Render.ParseDottedDecimal(PortId(subtype, data)) == Some(data[1..5])
    ensures (!(subtype == PortMacSubtype && |data| == 6)
             && !(subtype == PortNetworkSubtype && |data| >= 5 && data[0] == Ipv4Family)) ==>
      PortId(subtype, data) == Text(data)
  {
    if subtype == PortMacSubtype && |data| == 6 {
      Render.ColonHexRoundTrip(data);
    } else if subtype == PortNetworkSubtype && |data| >= 5 && data[0] == Ipv4Family {
      Render.DottedDecimalRoundTrip(data[1..5]);
    }
  }

  /** `parse_mgmt_address`: the payload opens with the address-string length
      (which counts the subtype byte), the address subtype and the address; an
      IPv4 address renders in dotted decimal, an IPv6 one in 16-bit hex groups,
      and anything else, or a payload too short for its declared length, gives
      no address. */
  function MgmtAddress(data: seq<Byte>): (r: Option<string>)
    ensures r.Some? ==> |data| >= 3 && 2 <= data[0] as nat && data[0] as nat + 1 <= |data|
    ensures r.Some? ==> data[1] == Ipv4Family || data[1] == Ipv6Family
  {
    if |data| < 3 then None
    else
      var addrLen: nat := data[0];
      if addrLen < 2 || |data| < addrLen + 1 then None
      else
        var addr := data[2..addrLen + 1];
        if data[1] == Ipv4Family && |addr| >= 4 then Some(Render.DottedDecimal(addr[..4]))
        else if data[1] == Ipv6Family && |addr| >= 16 then Some(Render.HexGroups(addr[..16]))
        else None
  }

  /** The conditions under which a management address is found, and what it
      reads back to: the first 4 (IPv4) or 16 (IPv6) bytes after the subtype. */
  lemma {:induction false} MgmtAddressDecodes(data: seq<Byte>)
    ensures MgmtAddress(data).Some? <==>
      |data| >= 3 && 2 <= data[0] && data[0] + 1 <= |data|
      && ((data[1] == Ipv4Family && data[0] >= 5) || (data[1] == Ipv6Family && data[0] >= 17))
    ensures MgmtAddress(data).Some? && data[1] == Ipv4Family ==>
      Render.ParseDottedDecimal(MgmtAddress(data).value) == Some(data[2..6])
    ensures MgmtAddress(data).Some? && data[1] == Ipv6Family ==>
      Render.ParseColonHex(MgmtAddress(data).value) == Some(data[2..18])
  {
    if |data| >= 3 && 2 <= data[0] && data[0] + 1 <= |data| {
      var addr := data[2..data[0] + 1];
      if data[1] == Ipv4Family && |addr| >= 4 {
        assert addr[..4] == data[2..6];
        Render.DottedDecimalRoundTrip(data[2..6]);
      } else if data[1] == Ipv6Family && |addr| >= 16 {
        assert addr[..16] == data[2..18];
        Render.HexGroupsRoundTrip(data[2..18]);
      }
    }
  }

  // ---------------------------------------------------------------------------
  // TLV walk

  /** `(header >> 9) & 0x7F`: the top seven bits of the 16-bit header word. The
      mask removes nothing from a 16-bit word (`HeaderSplit`), so it is left
      out here. */
  function HeaderType(word: nat): nat
  {
    word / 0x200
  }

  /** `header & 0x01FF`: the low nine bits. */
  function HeaderLength(word: nat): nat
  {
    word % 0x200
  }

  /** A 16-bit header word is exactly its type and length packed together, so
      the mask on the type removes nothing. */
  lemma {:induction false} HeaderSplit(word: nat)
    requires word < 0x1_0000
    ensures HeaderType(word) == (word / 0x200) % 0x80 && HeaderLength(word) < 0x200
    ensures word == HeaderType(word) * 0x200 + HeaderLength(word)
  {
  }

  /** The packed header word of a TLV. */
  function HeaderWord(typ: nat, len: nat): (r: nat)
    requires typ < 0x80 && len < 0x200
    ensures r < 0x1_0000
  {
    typ * 0x200 + len
  }

  /** Packing and unpacking a header are inverse. */
  lemma {:induction false} HeaderWordFields(typ: nat, len: nat)
    requires typ < 0x80 && len < 0x200
    ensures HeaderType(HeaderWord(typ, len)) == typ && HeaderLength(HeaderWord(typ, len)) == len
  {
    HeaderSplit(HeaderWord(typ, len));
  }

  /** The bytes a run of TLVs occupies on the wire: a 2-byte header each, plus
      the payload. */
  function Span(ts: seq<Tlv>): nat
  {
    if ts == [] then 0 else |ts[0].payload| + 2 + Span(ts[1..])
  }

  /** The TLVs the walk visits from `offset`: it stops before a header that does
      not fit, at an End of LLDPDU TLV, and before a TLV running past the frame. */
  function Tlvs(raw: seq<Byte>, offset: nat): (r: seq<Tlv>)
    ensures r != [] ==> offset + 2 * |r| <= |raw|
    decreases |raw| - offset
  {
    if offset + 2 > |raw| then []
    else
      var word := ReadU16(raw, offset);
      var typ := HeaderType(word);
      var len := HeaderLength(word);
      if typ == EndType then []
      else if offset + 2 + len > |raw| then []
      else [Tlv(typ, raw[offset + 2..offset + 2 + len])] + Tlvs(raw, offset + 2 + len)
  }

  /** Every TLV the walk visits lies inside the frame, and each visited TLV has
      a nonzero type below 128. */
  lemma {:induction false} TlvsWithinFrame(raw: seq<Byte>, offset: nat)
    ensures Tlvs(raw, offset) != [] ==> offset + Span(Tlvs(raw, offset)) <= |raw|
    ensures forall k :: 0 <= k < |Tlvs(raw, offset)| ==> 0 < Tlvs(raw, offset)[k].typ < 0x80
    decreases |raw| - offset
  {
    if offset + 2 <= |raw| {
      var word := ReadU16(raw, offset);
      var len := HeaderLength(word);
      if HeaderType(word) != EndType && offset + 2 + len <= |raw| {
        TlvsWithinFrame(raw, offset + 2 + len);
        var r := Tlvs(raw, offset);
        assert r[1..] == Tlvs(raw, offset + 2 + len);
        forall k | 0 <= k < |r|
          ensures 0 < r[k].typ < 0x80
        {
          if k > 0 {
            assert r[k] == r[1..][k - 1];
          }
        }
      }
    }
  }

  /** One step of the walk over a header that is not End and whose TLV fits. */
  lemma {:induction false} TlvsStep(raw: seq<Byte>, offset: nat)
    requires offset + 2 <= |raw|
    requires HeaderType(ReadU16(raw, offset)) != EndType
    requires offset + 2 + HeaderLength(ReadU16(raw, offset)) <= |raw|
    ensures Tlvs(raw, offset) ==
      [Tlv(HeaderType(ReadU16(raw, offset)), raw[offset + 2..offset + 2 + HeaderLength(ReadU16(raw, offset))])]
      + Tlvs(raw, offset + 2 + HeaderLength(ReadU16(raw, offset)))
  {
  }

  /** The walk ends at an End of LLDPDU header, and at a TLV that overruns the
      frame, whatever follows. */
  lemma {:induction false} WalkStops(raw: seq<Byte>, offset: nat)
    requires offset + 2 <= |raw|
    requires HeaderType(ReadU16(raw, offset)) == EndType
          || offset + 2 + HeaderLength(ReadU16(raw, offset)) > |raw|
    ensures Tlvs(raw, offset) == []
  {
  }

  // ---------------------------------------------------------------------------
  // Dispatch

  /** The IEEE 802.1 OUI opens the payload. */
  predicate Ieee8021(p: seq<Byte>)
  {
    |p| >= 3 && p[0] == Ieee8021Oui[0] && p[1] == Ieee8021Oui[1] && p[2] == Ieee8021Oui[2]
  }

  /** An organisationally specific TLV (OUI, subtype, data). Port VLAN ID sets
      the VLAN id; VLAN Name sets the name when it fits, and the VLAN id only
      when none (or 0) is set yet. Other OUIs and subtypes are skipped. */
  function OrgSpecific(n: LldpNeighbor, p: seq<Byte>): (r: LldpNeighbor)
    requires |p| >= 4
    ensures r == n.(vlanId := r.vlanId, vlanName := r.vlanName)
  {
    if !Ieee8021(p) then n
    else if p[3] == PortVlanSubtype && |p| - 4 >= 2 then n.(vlanId := Some(ReadU16(p, 4)))
    else if p[3] == VlanNameSubtype && |p| - 4 >= 3 then
      var vid := ReadU16(p, 4);
      var nameLen: nat := p[6];
      var n' := if |p| - 4 >= 3 + nameLen then n.(vlanName := Decode(p[7..7 + nameLen])) else n;
      if n'.vlanId.None? || n'.vlanId.value == 0 then n'.(vlanId := Some(vid)) else n'
    else n
  }

  /** The dispatch on one TLV: the field its type selects, under that field's
      payload-length condition; any other TLV leaves the record as it is. */
  function ApplyTlv(n: LldpNeighbor, t: Tlv): (r: LldpNeighbor)
    ensures r.sourceMac == n.sourceMac && r.localInterface == n.localInterface
    ensures r.localPortSpeed == n.localPortSpeed && r.lastSeen == n.lastSeen
  {
    var p := t.payload;
    if t.typ == ChassisIdType then (if |p| >= 2 then n.(chassisId := ChassisId(p[0], p[1..])) else n)
    else if t.typ == PortIdType then (if |p| >= 2 then n.(portId := PortId(p[0], p[1..])) else n)
    else if t.typ == TtlType then (if |p| >= 2 then n.(ttl := ReadU16(p, 0)) else n)
    else if t.typ == PortDescriptionType then n.(portDescription := Text(p))
    else if t.typ == SystemNameType then n.(systemName := Text(p))
    else if t.typ == SystemDescriptionType then n.(systemDescription := Text(p))
    else if t.typ == CapabilitiesType then
      (if |p| >= 4 then
         n.(capabilities := ParseCapabilities(ReadU16(p, 0)),
            enabledCapabilities := ParseCapabilities(ReadU16(p, 2)))
       else n)
    else if t.typ == MgmtAddressType then
      (if |p| >= 3 && MgmtAddress(p).Some? then n.(mgmtAddresses := n.mgmtAddresses + [MgmtAddress(p).value]) else n)
    else if t.typ == OrgSpecificType then (if |p| >= 4 then OrgSpecific(n, p) else n)
    else n
  }

  /** The TLV types the dispatch acts on; every other type is skipped. */
  predicate Known(typ: nat)
  {
    || typ == ChassisIdType || typ == PortIdType || typ == TtlType || typ == PortDescriptionType
    || typ == SystemNameType || typ == SystemDescriptionType || typ == CapabilitiesType
    || typ == MgmtAddressType || typ == OrgSpecificType
  }

  /** A TLV of a type outside the dispatch, such as a reserved type or one of
      the 9..126 range, changes nothing. */
  lemma {:induction false} UnknownTlvIgnored(n: LldpNeighbor, t: Tlv)
    requires !Known(t.typ)
    ensures ApplyTlv(n, t) == n
  {
  }

  /** Which overwritten field each TLV sets: exactly the field its type selects,
      under that field's payload-length condition. */
  lemma {:induction false} ApplyTlvOverwrittenFields(n: LldpNeighbor, t: Tlv)
    ensures ApplyTlv(n, t).chassisId ==
      if t.typ == ChassisIdType && |t.payload| >= 2 then ChassisId(t.payload[0], t.payload[1..]) else n.chassisId
    ensures ApplyTlv(n, t).portId ==
      if t.typ == PortIdType && |t.payload| >= 2 then PortId(t.payload[0], t.payload[1..]) else n.portId
    ensures ApplyTlv(n, t).ttl ==
      if t.typ == TtlType && |t.payload| >= 2 then ReadU16(t.payload, 0) else n.ttl
    ensures ApplyTlv(n, t).systemName ==
      if t.typ == SystemNameType then Text(t.payload) else n.systemName
    ensures ApplyTlv(n, t).systemDescription ==
      if t.typ == SystemDescriptionType then Text(t.payload) else n.systemDescription
    ensures ApplyTlv(n, t).portDescription ==
      if t.typ == PortDescriptionType then Text(t.payload) else n.portDescription
    ensures ApplyTlv(n, t).capabilities ==
      if t.typ == CapabilitiesType && |t.payload| >= 4 then ParseCapabilities(ReadU16(t.payload, 0)) else n.capabilities
    ensures ApplyTlv(n, t).enabledCapabilities ==
      if t.typ == CapabilitiesType && |t.payload| >= 4 then ParseCapabilities(ReadU16(t.payload, 2)) else n.enabledCapabilities
  {
  }

  /** The address a Management Address TLV contributes, if any. */
  function MgmtOf(t: Tlv): Option<string>
  {
    if t.typ == MgmtAddressType && |t.payload| >= 3 then MgmtAddress(t.payload) else None
  }

  /** Management Address TLVs append; no other TLV touches the list. */
  lemma {:induction false} ApplyTlvMgmt(n: LldpNeighbor, t: Tlv)
    ensures ApplyTlv(n, t).mgmtAddresses ==
      n.mgmtAddresses + (if MgmtOf(t).Some? then [MgmtOf(t).value] else [])
  {
  }

  /** Only organisationally specific TLVs touch the VLAN fields. */
  lemma {:induction false} ApplyTlvVlan(n: LldpNeighbor, t: Tlv)
    requires t.typ != OrgSpecificType
    ensures ApplyTlv(n, t).vlanId == n.vlanId && ApplyTlv(n, t).vlanName == n.vlanName
  {
  }

  // ---------------------------------------------------------------------------
  // Fold

  /** The dispatch applied to each TLV in turn, first to last: the record the
      loop holds after visiting `ts`. */
  function ApplyAll(n: LldpNeighbor, ts: seq<Tlv>): (r: LldpNeighbor)
    ensures r.sourceMac == n.sourceMac && r.localInterface == n.localInterface
    ensures r.localPortSpeed == n.localPortSpeed && r.lastSeen == n.lastSeen
    decreases |ts|
  {
    if ts == [] then n else ApplyTlv(ApplyAll(n, ts[..|ts| - 1]), ts[|ts| - 1])
  }

  lemma {:induction false} ApplyAllSnoc(n: LldpNeighbor, ts: seq<Tlv>, t: Tlv)
    ensures ApplyAll(n, ts + [t]) == ApplyTlv(ApplyAll(n, ts), t)
  {
    assert (ts + [t])[..|ts|] == ts;
  }

  lemma {:induction false} ApplyAllCons(n: LldpNeighbor, t: Tlv, ts: seq<Tlv>)
    ensures ApplyAll(n, [t] + ts) == ApplyAll(ApplyTlv(n, t), ts)
  {
    ApplyAllAppend(n, [t], ts);
    assert [t][..0] == [];
  }

  /** Applying two runs of TLVs one after the other is applying their
      concatenation. */
  lemma {:induction false} ApplyAllAppend(n: LldpNeighbor, a: seq<Tlv>, b: seq<Tlv>)
    ensures ApplyAll(n, a + b) == ApplyAll(ApplyAll(n, a), b)
    decreases |b|
  {
    if b == [] {
      assert a + b == a;
    } else {
      var b' := b[..|b| - 1];
      assert (a + b)[..|a + b| - 1] == a + b';
      assert (a + b)[|a + b| - 1] == b[|b| - 1];
      ApplyAllAppend(n, a, b');
    }
  }

  /** The chassis ID, port ID, TTL and the three text fields hold the value of
      the LAST TLV of their type long enough to be decoded, and keep their
      earlier value when there is none. */
  lemma {:induction false} OverwrittenFieldsLastWins(n: LldpNeighbor, ts: seq<Tlv>)
    ensures ApplyAll(n, ts).chassisId ==
      (match LastPayload(ts, ChassisIdType, 2)
       case None => n.chassisId
       case Some(p) => ChassisId(p[0], p[1..]))
    ensures ApplyAll(n, ts).portId ==
      (match LastPayload(ts, PortIdType, 2)
       case None => n.portId
       case Some(p) => PortId(p[0], p[1..]))
    ensures ApplyAll(n, ts).ttl ==
      (match LastPayload(ts, TtlType, 2)
       case None => n.ttl
       case Some(p) => ReadU16(p, 0))
    ensures ApplyAll(n, ts).systemName == TextOr(LastPayload(ts, SystemNameType, 0), n.systemName)
    ensures ApplyAll(n, ts).systemDescription == TextOr(LastPayload(ts, SystemDescriptionType, 0), n.systemDescription)
    ensures ApplyAll(n, ts).portDescription == TextOr(LastPayload(ts, PortDescriptionType, 0), n.portDescription)
    decreases |ts|
  {
    if ts != [] {
      OverwrittenFieldsLastWins(n, ts[..|ts| - 1]);
      ApplyTlvOverwrittenFields(ApplyAll(n, ts[..|ts| - 1]), ts[|ts| - 1]);
    }
  }

  /** Both capability lists come from the same TLV: the last System
      Capabilities TLV of at least 4 bytes. */
  lemma {:induction false} CapabilitiesLastWins(n: LldpNeighbor, ts: seq<Tlv>)
    ensures ApplyAll(n, ts).capabilities ==
      (match LastPayload(ts, CapabilitiesType, 4)
       case None => n.capabilities
       case Some(p) => ParseCapabilities(ReadU16(p, 0)))
    ensures ApplyAll(n, ts).enabledCapabilities ==
      (match LastPayload(ts, CapabilitiesType, 4)
       case None => n.enabledCapabilities
       case Some(p) => ParseCapabilities(ReadU16(p, 2)))
    decreases |ts|
  {
    if ts != [] {
      CapabilitiesLastWins(n, ts[..|ts| - 1]);
      ApplyTlvOverwrittenFields(ApplyAll(n, ts[..|ts| - 1]), ts[|ts| - 1]);
    }
  }

  /** The addresses the Management Address TLVs of `ts` carry, in TLV order. */
  function MgmtAddressesOf(ts: seq<Tlv>): (r: seq<string>)
    ensures |r| <= |ts|
  {
    if ts == [] then []
    else
      var t := ts[|ts| - 1];
      MgmtAddressesOf(ts[..|ts| - 1]) + (if MgmtOf(t).Some? then [MgmtOf(t).value] else [])
  }

  /** Management addresses accumulate: the list grows by every address found,
      in TLV order, and nothing is overwritten. */
  lemma {:induction false} MgmtAddressesAccumulate(n: LldpNeighbor, ts: seq<Tlv>)
    ensures ApplyAll(n, ts).mgmtAddresses == n.mgmtAddresses + MgmtAddressesOf(ts)
    decreases |ts|
  {
    if ts != [] {
      var ts' := ts[..|ts| - 1];
      MgmtAddressesAccumulate(n, ts');
      ApplyTlvMgmt(ApplyAll(n, ts'), ts[|ts| - 1]);
    }
  }

  // ---------------------------------------------------------------------------
  // VLAN TLVs

  /** A Port VLAN ID TLV sets the VLAN id, whatever was set before. */
  lemma {:induction false} PortVlanSets(n: LldpNeighbor, p: seq<Byte>)
    requires |p| >= 6 && Ieee8021(p) && p[3] == PortVlanSubtype
    ensures ApplyTlv(n, Tlv(OrgSpecificType, p)) == n.(vlanId := Some(ReadU16(p, 4)))
  {
  }

  /** A VLAN Name TLV sets the name when the declared name fits in the payload,
      and otherwise leaves it; it sets the VLAN id only when none, or 0, is set. */
  lemma {:induction false} VlanNameSets(n: LldpNeighbor, p: seq<Byte>)
    requires |p| >= 7 && Ieee8021(p) && p[3] == VlanNameSubtype
    ensures ApplyTlv(n, Tlv(OrgSpecificType, p)).vlanName ==
      if |p| >= 7 + p[6] as nat then Decode(p[7..7 + p[6] as nat]) else n.vlanName
    ensures ApplyTlv(n, Tlv(OrgSpecificType, p)).vlanId ==
      if n.vlanId.None? || n.vlanId.value == 0 then Some(ReadU16(p, 4)) else n.vlanId
    ensures ApplyTlv(n, Tlv(OrgSpecificType, p)) ==
      n.(vlanName := ApplyTlv(n, Tlv(OrgSpecificType, p)).vlanName,
         vlanId := ApplyTlv(n, Tlv(OrgSpecificType, p)).vlanId)
  {
  }

  /** A VLAN id set by an earlier Port VLAN ID TLV survives every later VLAN Name
      TLV, unless it is 0. */
  lemma {:induction false} PortVlanSurvivesNames(n: LldpNeighbor, ps: seq<seq<Byte>>)
    requires n.vlanId.Some? && n.vlanId.value != 0
    requires forall k :: 0 <= k < |ps| ==> |ps[k]| >= 7 && Ieee8021(ps[k]) && ps[k][3] == VlanNameSubtype
    ensures ApplyAll(n, seq(|ps|, k requires 0 <= k < |ps| => Tlv(OrgSpecificType, ps[k]))).vlanId == n.vlanId
    decreases |ps|
  {
    var ts := seq(|ps|, k requires 0 <= k < |ps| => Tlv(OrgSpecificType, ps[k]));
    if ps != [] {
      var ps' := ps[..|ps| - 1];
      var ts' := seq(|ps'|, k requires 0 <= k < |ps'| => Tlv(OrgSpecificType, ps'[k]));
      assert ts[..|ts| - 1] == ts';
      PortVlanSurvivesNames(n, ps');
      VlanNameSets(ApplyAll(n, ts'), ps[|ps| - 1]);
    }
  }

  /** A record never holds a VLAN name without a VLAN id. */
  predicate VlanConsistent(n: LldpNeighbor)
  {
    n.vlanName != "" ==> n.vlanId.Some?
  }

  /** Every TLV keeps a record VLAN-consistent: a VLAN Name TLV that sets the
      name also sets the id when none is held. */
  lemma {:induction false} ApplyTlvVlanConsistent(n: LldpNeighbor, t: Tlv)
    requires VlanConsistent(n)
    ensures VlanConsistent(ApplyTlv(n, t))
  {
    if t.typ != OrgSpecificType {
      ApplyTlvVlan(n, t);
    }
  }

  lemma {:induction false} ApplyAllVlanConsistent(n: LldpNeighbor, ts: seq<Tlv>)
    requires VlanConsistent(n)
    ensures VlanConsistent(ApplyAll(n, ts))
    decreases |ts|
  {
    if ts != [] {
      ApplyAllVlanConsistent(n, ts[..|ts| - 1]);
      ApplyTlvVlanConsistent(ApplyAll(n, ts[..|ts| - 1]), ts[|ts| - 1]);
    }
  }

  /** No decoded frame reports a VLAN name without a VLAN id. */
  lemma {:induction false} DecodedVlanConsistent(raw: seq<Byte>, sourceMac: string, now: int)
    requires ParseRaw(raw, sourceMac, now).Some?
    ensures VlanConsistent(ParseRaw(raw, sourceMac, now).value)
  {
    ApplyAllVlanConsistent(Default(now).(sourceMac := sourceMac), Tlvs(raw, 14));
  }

  /** Organisationally specific TLVs with another OUI are skipped. */
  lemma {:induction false} OtherOuiIgnored(n: LldpNeighbor, p: seq<Byte>)
    requires |p| >= 4 && !Ieee8021(p)
    ensures ApplyTlv(n, Tlv(OrgSpecificType, p)) == n
  {
  }

  // ---------------------------------------------------------------------------
  // Whole frame

  /** `parse_raw_lldp`: no record for a frame shorter than the 14-byte Ethernet
      header or with an EtherType other than 0x88CC; otherwise the record built
      by the TLV walk from byte 14, however little of it decodes. */
  function ParseRaw(raw: seq<Byte>, sourceMac: string, now: int): (r: Option<LldpNeighbor>)
    ensures r.Some? <==> |raw| >= 14 && ReadU16(raw, 12) == LldpEtherType
    ensures r.Some? ==> r.value.sourceMac == sourceMac && r.value.lastSeen == now
    ensures r.Some? ==> r.value.localInterface == "" && r.value.localPortSpeed == ""
  {
    if |raw| < 14 then None
    else if ReadU16(raw, 12) != LldpEtherType then None
    else Some(ApplyAll(Default(now).(sourceMac := sourceMac), Tlvs(raw, 14)))
  }

  /** The `while offset + 2 <= len(raw_data)` loop of `parse_raw_lldp`, field
      updates in place. */
  method ParseRawLoop(raw: seq<Byte>, sourceMac: string, now: int) returns (r: Option<LldpNeighbor>)
    ensures r == ParseRaw(raw, sourceMac, now)
  {
    if |raw| < 14 {
      return None;
    }
    if ReadU16(raw, 12) != LldpEtherType {
      return None;
    }
    var n := WalkLoop(raw, Default(now).(sourceMac := sourceMac), 14);
    return Some(n);
  }

  /** The TLV loop: from `start`, each TLV updates the record in place until End
      of LLDPDU or the first TLV that does not fit. */
  method WalkLoop(raw: seq<Byte>, n0: LldpNeighbor, start: nat) returns (n: LldpNeighbor)
    requires start <= |raw|
    ensures n == ApplyAll(n0, Tlvs(raw, start))
  {
    n := n0;
    var offset := start;
    while offset + 2 <= |raw|
      invariant offset <= |raw|
      invariant ApplyAll(n, Tlvs(raw, offset)) == ApplyAll(n0, Tlvs(raw, start))
      decreases |raw| - offset
    {
      var stop;
      n, offset, stop := WalkStep(raw, n, offset);
      if stop {
        return;
      }
    }
  }

  /** One pass of the loop body: reads the header at `offset`, stops at End or
      an overrun, and otherwise applies the TLV and moves exactly 2 + length
      bytes on. */
  method WalkStep(raw: seq<Byte>, n: LldpNeighbor, offset: nat) returns (n': LldpNeighbor, offset': nat, stop: bool)
    requires offset + 2 <= |raw|
    ensures stop ==> Tlvs(raw, offset) == [] && n' == n
    ensures !stop ==> offset' == offset + 2 + HeaderLength(ReadU16(raw, offset)) <= |raw|
    ensures !stop ==> ApplyAll(n', Tlvs(raw, offset')) == ApplyAll(n, Tlvs(raw, offset))
  {
    var word := ReadU16(raw, offset);
    var typ := HeaderType(word);
    var len := HeaderLength(word);
    if typ == EndType {
      return n, offset, true;
    }
    if offset + 2 + len > |raw| {
      return n, offset, true;
    }
    var t := Tlv(typ, raw[offset + 2..offset + 2 + len]);
    var rest := Tlvs(raw, offset + 2 + len);
    TlvsStep(raw, offset);
    assert Tlvs(raw, offset) == [t] + rest;
    ApplyAllCons(n, t, rest);
    return ApplyTlv(n, t), offset + 2 + len, false;
  }

  /** `parse_lldp_packet`: the raw decode with the frame's own source MAC. */
  function ParsePacket(raw: seq<Byte>, now: int): (r: Option<LldpNeighbor>)
    ensures r.Some? <==> |raw| >= 14 && ReadU16(raw, 12) == LldpEtherType
    ensures r.Some? ==> r.value.sourceMac == Render.SourceMac(raw)
  {
    ParseRaw(raw, Render.SourceMac(raw), now)
  }
}

=== FILE: lldp_frames.dfy ===
/** LLDP frames as a sender lays them out (IEEE 802.1AB clause 8), and what the
    decoder recovers from them: the TLV walk inverts the TLV encoding, an End
    of LLDPDU TLV or a TLV running past the frame ends the walk with the fields
    decoded so far, and a record advertised field by field is decoded back to
    itself. */
module LldpFrames {
  import opened Bytes
  import opened TypeLength
  import Render
  import Flags
  import opened Lldp

  /** A TLV the packed header can carry: a type in 1..127 (0 would read as End
      of LLDPDU) and a payload below 512 bytes. */
  predicate Encodable(t: Tlv)
  {
    0 < t.typ < 0x80 && |t.payload| < 0x200
  }

  predicate AllEncodable(ts: seq<Tlv>)
  {
    forall k :: 0 <= k < |ts| ==> Encodable(ts[k])
  }

  /** The 2-byte packed header, then the payload. */
  function EncodeTlv(t: Tlv): (r: seq<Byte>)
    requires Encodable(t)
    ensures |r| == |t.payload| + 2
  {
    U16Bytes(HeaderWord(t.typ, |t.payload|)) + t.payload
  }

  function EncodeTlvs(ts: seq<Tlv>): (r: seq<Byte>)
    requires AllEncodable(ts)
    ensures |r| == Span(ts)
  {
    if ts == [] then [] else EncodeTlv(ts[0]) + EncodeTlvs(ts[1..])
  }

  /** The End of LLDPDU TLV: type 0, length 0. */
  const EndOfLldpdu: seq<Byte> := [0, 0]

  /** Walking from `k + j` is walking the frame with its first `k` bytes cut
      off, from `j`: what comes before the walk's position is never read. */
  lemma {:induction false} TlvsShift(data: seq<Byte>, k: nat, j: nat)
    requires k <= |data|
    ensures Tlvs(data, k + j) == Tlvs(data[k..], j)
    decreases |data| - k - j
  {
    var d := data[k..];
    if k + j + 2 <= |data| {
      ReadU16Window(data, k, d, j);
      var word := ReadU16(data, k + j);
      var len := HeaderLength(word);
      if HeaderType(word) != EndType && k + j + 2 + len <= |data| {
        SubWindow(data, k, d, j + 2, j + 2 + len);
        TlvsShift(data, k, j + 2 + len);
      }
    }
  }

  /** Walking from `|p| + j` over `p + d` is walking `d` from `j`. */
  lemma {:induction false} TlvsAfter(p: seq<Byte>, d: seq<Byte>, j: nat)
    ensures Tlvs(p + d, |p| + j) == Tlvs(d, j)
  {
    assert (p + d)[|p|..] == d;
    TlvsShift(p + d, |p|, j);
  }

  /** The header word of an encoded header reads back, and unpacks to the type
      and length it was packed from. */
  lemma {:induction false} HeaderReads(typ: nat, len: nat, rest: seq<Byte>)
    requires typ < 0x80 && len < 0x200
    ensures |U16Bytes(HeaderWord(typ, len)) + rest| >= 2
    ensures HeaderType(ReadU16(U16Bytes(HeaderWord(typ, len)) + rest, 0)) == typ
    ensures HeaderLength(ReadU16(U16Bytes(HeaderWord(typ, len)) + rest, 0)) == len
  {
    var h := U16Bytes(HeaderWord(typ, len));
    var data := h + rest;
    assert data[0] == h[0] && data[1] == h[1];
    assert ReadU16(data, 0) == ReadU16(h, 0);
    HeaderWordFields(typ, len);
  }

  /** The walk over an encoded TLV followed by anything visits that TLV, then
      walks what follows. */
  lemma {:induction false} TlvsOfEncodedTlv(t: Tlv, rest: seq<Byte>)
    requires Encodable(t)
    ensures Tlvs(EncodeTlv(t) + rest, 0) == [t] + Tlvs(rest, 0)
  {
    var h := U16Bytes(HeaderWord(t.typ, |t.payload|));
    var e := EncodeTlv(t);
    var data := e + rest;
    assert data == h + (t.payload + rest);
    HeaderReads(t.typ, |t.payload|, t.payload + rest);
    assert data[2..|e|] == t.payload;
    TlvsAfter(e, rest, 0);
  }

  lemma {:induction false} EncodeTlvsCons(ts: seq<Tlv>, tail: seq<Byte>)
    requires AllEncodable(ts) && ts != []
    ensures EncodeTlvs(ts) + tail == EncodeTlv(ts[0]) + (EncodeTlvs(ts[1..]) + tail)
  {
  }

  /** The walk inverts the encoding: it visits exactly the encoded TLVs, then
      walks whatever follows them. */
  lemma {:induction false} TlvsOfEncoded(ts: seq<Tlv>, tail: seq<Byte>)
    requires AllEncodable(ts)
    ensures Tlvs(EncodeTlvs(ts) + tail, 0) == ts + Tlvs(tail, 0)
    decreases |ts|
  {
    if ts == [] {
      assert EncodeTlvs(ts) + tail == tail;
    } else {
      var rest := EncodeTlvs(ts[1..]) + tail;
      EncodeTlvsCons(ts, tail);
      TlvsOfEncodedTlv(ts[0], rest);
      TlvsOfEncoded(ts[1..], tail);
      ConsAppend(ts, Tlvs(tail, 0));
    }
  }

  /** An End of LLDPDU header ends the walk whatever length it declares and
      whatever follows it. */
  lemma {:induction false} EndStops(len: nat, rest: seq<Byte>)
    requires len < 0x200
    ensures Tlvs(U16Bytes(HeaderWord(EndType, len)) + rest, 0) == []
  {
    HeaderReads(EndType, len, rest);
  }

  /** A header announcing more bytes than the frame holds ends the walk. */
  lemma {:induction false} OverrunStops(typ: nat, len: nat, rest: seq<Byte>)
    requires typ < 0x80 && len < 0x200 && |rest| < len
    ensures Tlvs(U16Bytes(HeaderWord(typ, len)) + rest, 0) == []
  {
    HeaderReads(typ, len, rest);
  }

  // ---------------------------------------------------------------------------
  // Whole frames

  /** An Ethernet II frame carrying LLDP: destination and source MAC, EtherType
      0x88CC, the encoded TLVs, and trailing bytes. */
  function Frame(dst: seq<Byte>, src: seq<Byte>, ts: seq<Tlv>, tail: seq<Byte>): (r: seq<Byte>)
    requires |dst| == 6 && |src| == 6 && AllEncodable(ts)
    ensures |r| == 14 + Span(ts) + |tail|
  {
    dst + src + [0x88, 0xCC] + EncodeTlvs(ts) + tail
  }

  /** The decode of a frame: the record is the dispatch over the encoded TLVs
      followed by whatever the walk reads from the trailing bytes. */
  lemma {:induction false} ParseFrame(dst: seq<Byte>, src: seq<Byte>, ts: seq<Tlv>, tail: seq<Byte>, sourceMac: string, now: int)
    requires |dst| == 6 && |src| == 6 && AllEncodable(ts)
    ensures ParseRaw(Frame(dst, src, ts, tail), sourceMac, now)
         == Some(ApplyAll(Default(now).(sourceMac := sourceMac), ts + Tlvs(tail, 0)))
  {
    var raw := Frame(dst, src, ts, tail);
    assert raw[12] == 0x88 && raw[13] == 0xCC;
    FrameBody(dst, src, ts, tail);
  }

  /** The walk from byte 14 visits the encoded TLVs, then walks the trailing
      bytes. */
  lemma {:induction false} FrameBody(dst: seq<Byte>, src: seq<Byte>, ts: seq<Tlv>, tail: seq<Byte>)
    requires |dst| == 6 && |src| == 6 && AllEncodable(ts)
    ensures Tlvs(Frame(dst, src, ts, tail), 14) == ts + Tlvs(tail, 0)
  {
    var head := dst + src + [0x88, 0xCC];
    assert |head| == 14;
    assert Frame(dst, src, ts, tail) == (head + EncodeTlvs(ts)) + tail;
    Assoc(head, EncodeTlvs(ts), tail);
    TlvsAfter(head, EncodeTlvs(ts) + tail, 0);
    TlvsOfEncoded(ts, tail);
  }

  /** A frame closed by End of LLDPDU decodes to exactly its TLVs, whatever
      padding follows the End TLV. */
  lemma {:induction false} ParseTerminatedFrame(dst: seq<Byte>, src: seq<Byte>, ts: seq<Tlv>, padding: seq<Byte>,
                             sourceMac: string, now: int)
    requires |dst| == 6 && |src| == 6 && AllEncodable(ts)
    ensures ParseRaw(Frame(dst, src, ts, EndOfLldpdu + padding), sourceMac, now)
         == Some(ApplyAll(Default(now).(sourceMac := sourceMac), ts))
  {
    assert U16Bytes(HeaderWord(EndType, 0)) == EndOfLldpdu;
    EndStops(0, padding);
    ParseFrame(dst, src, ts, EndOfLldpdu + padding, sourceMac, now);
    assert ts + [] == ts;
  }

  /** A TLV running past the end of the frame ends the walk: the record still
      comes back, holding exactly the fields decoded before it. */
  lemma {:induction false} PartialRecordOnOverrun(dst: seq<Byte>, src: seq<Byte>, ts: seq<Tlv>,
                               typ: nat, len: nat, rest: seq<Byte>, sourceMac: string, now: int)
    requires |dst| == 6 && |src| == 6 && AllEncodable(ts)
    requires typ < 0x80 && len < 0x200 && |rest| < len
    ensures ParseRaw(Frame(dst, src, ts, U16Bytes(HeaderWord(typ, len)) + rest), sourceMac, now)
         == Some(ApplyAll(Default(now).(sourceMac := sourceMac), ts))
  {
    OverrunStops(typ, len, rest);
    ParseFrame(dst, src, ts, U16Bytes(HeaderWord(typ, len)) + rest, sourceMac, now);
    assert ts + [] == ts;
  }

  /** A frame with any other EtherType gives no record, whatever it carries. */
  lemma {:induction false} OtherEtherTypeRejected(dst: seq<Byte>, src: seq<Byte>, etherType: nat, body: seq<Byte>,
                               sourceMac: string, now: int)
    requires |dst| == 6 && |src| == 6 && etherType < 0x1_0000 && etherType != LldpEtherType
    ensures ParseRaw(dst + src + U16Bytes(etherType) + body, sourceMac, now).None?
  {
    var raw := dst + src + U16Bytes(etherType) + body;
    assert raw[12..14] == U16Bytes(etherType);
    ReadU16Window(raw, 12, U16Bytes(etherType), 0);
  }

  /** The source MAC reported for a frame is the rendering of its source
      address. */
  lemma {:induction false} FrameSourceMac(dst: seq<Byte>, src: seq<Byte>, ts: seq<Tlv>, tail: seq<Byte>)
    requires |dst| == 6 && |src| == 6 && AllEncodable(ts)
    ensures Render.SourceMac(Frame(dst, src, ts, tail)) == Render.ColonHex(src)
  {
    var raw := Frame(dst, src, ts, tail);
    assert raw[6..12] == src;
  }

  // ---------------------------------------------------------------------------
  // Advertising a record

  /** The chassis and port ID subtype "locally assigned": the ID travels as
      text. */
  const LocalSubtype: nat := 7

  /** A text the decode-then-strip gives back, short enough to share one TLV
      with `room` other bytes. */
  predicate TextFits(t: string, room: nat)
  {
    IsAscii(t) && Unpadded(t) && |t| + room < 0x200
  }

  /** An IPv4 address as four octets, each. */
  predicate AllIpv4(addrs: seq<seq<Byte>>)
  {
    forall k :: 0 <= k < |addrs| ==> |addrs[k]| == 4
  }

  /** The dotted-decimal renderings of `addrs`, in order. */
  function Renderings(addrs: seq<seq<Byte>>): (r: seq<string>)
    ensures |r| == |addrs|
    ensures forall k :: 0 <= k < |r| ==> r[k] == Render.DottedDecimal(addrs[k])
  {
    seq(|addrs|, k requires 0 <= k < |addrs| => Render.DottedDecimal(addrs[k]))
  }

  /** What a sender can put on the wire for a record: non-empty chassis and port
      IDs and the other texts within one TLV each, a 16-bit TTL, capability
      lists that are selections of the table, management addresses that are
      renderings of IPv4 addresses, and a VLAN name only alongside a 16-bit
      VLAN id. */
  predicate Advertisable(n: LldpNeighbor, mgmt: seq<seq<Byte>>)
  {
    IdentityOk(n) && DescriptionOk(n) && CapabilitiesOk(n)
    && AllIpv4(mgmt) && n.mgmtAddresses == Renderings(mgmt) && VlanOk(n)
  }

  predicate IdentityOk(n: LldpNeighbor)
  {
    |n.chassisId| >= 1 && TextFits(n.chassisId, 1) && |n.portId| >= 1 && TextFits(n.portId, 1)
    && n.ttl < 0x1_0000
  }

  predicate DescriptionOk(n: LldpNeighbor)
  {
    TextFits(n.portDescription, 0) && TextFits(n.systemName, 0) && TextFits(n.systemDescription, 0)
  }

  predicate CapabilitiesOk(n: LldpNeighbor)
  {
    Flags.InTableOrder(n.capabilities, CapabilityNames)
    && Flags.InTableOrder(n.enabledCapabilities, CapabilityNames)
  }

  predicate VlanOk(n: LldpNeighbor)
  {
    match n.vlanId
    case None => n.vlanName == ""
    case Some(v) => v < 0x1_0000 && IsAscii(n.vlanName) && |n.vlanName| < 0x100
  }

  /** A Chassis ID or Port ID TLV carrying `t` as a locally assigned ID. */
  function IdTlv(typ: nat, t: string): (r: Tlv)
    requires 0 < typ < 0x80 && TextFits(t, 1)
    ensures Encodable(r)
  {
    Tlv(typ, [LocalSubtype] + EncodeAscii(t))
  }

  function TextTlv(typ: nat, t: string): (r: Tlv)
    requires 0 < typ < 0x80 && TextFits(t, 0)
    ensures Encodable(r)
  {
    Tlv(typ, EncodeAscii(t))
  }

  /** Chassis ID, Port ID and TTL, the three TLVs an LLDPDU opens with. */
  function IdentityTlvs(n: LldpNeighbor): (r: seq<Tlv>)
    requires IdentityOk(n)
    ensures AllEncodable(r)
  {
    [IdTlv(ChassisIdType, n.chassisId), IdTlv(PortIdType, n.portId), Tlv(TtlType, U16Bytes(n.ttl))]
  }

  /** Port Description, System Name and System Description. */
  function DescriptionTlvs(n: LldpNeighbor): (r: seq<Tlv>)
    requires DescriptionOk(n)
    ensures AllEncodable(r)
  {
    [TextTlv(PortDescriptionType, n.portDescription), TextTlv(SystemNameType, n.systemName),
     TextTlv(SystemDescriptionType, n.systemDescription)]
  }

  function CapabilityWord(caps: seq<string>): (r: nat)
    ensures r < 0x800
  {
    Flags.EncodeBound(caps, CapabilityNames);
    CapabilityTableSize();
    Flags.EncodeFlags(caps, CapabilityNames)
  }

  /** System Capabilities: the supported word, then the enabled word. */
  function CapabilityTlv(n: LldpNeighbor): (r: Tlv)
    ensures Encodable(r)
  {
    Tlv(CapabilitiesType, U16Bytes(CapabilityWord(n.capabilities)) + U16Bytes(CapabilityWord(n.enabledCapabilities)))
  }

  /** A Management Address TLV for an IPv4 address: address-string length 5,
      subtype IPv4, the address, interface numbering subtype 1 with interface
      number 0, and no OID. */
  function MgmtTlv(a: seq<Byte>): (r: Tlv)
    requires |a| == 4
    ensures Encodable(r)
  {
    Tlv(MgmtAddressType, [5, Ipv4Family] + a + [1, 0, 0, 0, 0, 0])
  }

  function MgmtTlvs(mgmt: seq<seq<Byte>>): (r: seq<Tlv>)
    requires AllIpv4(mgmt)
    ensures |r| == |mgmt| && AllEncodable(r)
  {
    seq(|mgmt|, k requires 0 <= k < |mgmt| && AllIpv4(mgmt) => MgmtTlv(mgmt[k]))
  }

  /** The IEEE 802.1 Port VLAN ID TLV. */
  function PortVlanTlv(v: nat): (r: Tlv)
    requires v < 0x1_0000
    ensures Encodable(r)
  {
    Tlv(OrgSpecificType, Ieee8021Oui + [PortVlanSubtype] + U16Bytes(v))
  }

  /** The IEEE 802.1 VLAN Name TLV: the VLAN id, the name length, the name. */
  function VlanNameTlv(v: nat, name: string): (r: Tlv)
    requires v < 0x1_0000 && IsAscii(name) && |name| < 0x100
    ensures Encodable(r)
  {
    Tlv(OrgSpecificType, Ieee8021Oui + [VlanNameSubtype] + U16Bytes(v) + [|name|] + EncodeAscii(name))
  }

  /** Both VLAN TLVs when the record has a VLAN id, none otherwise. */
  function VlanTlvs(n: LldpNeighbor): (r: seq<Tlv>)
    requires VlanOk(n)
    ensures AllEncodable(r)
  {
    match n.vlanId
    case None => []
    case Some(v) => [PortVlanTlv(v), VlanNameTlv(v, n.vlanName)]
  }

  lemma {:induction false} AllEncodableAppend(a: seq<Tlv>, b: seq<Tlv>)
    requires AllEncodable(a) && AllEncodable(b)
    ensures AllEncodable(a + b)
  {
    assert forall k :: 0 <= k < |a + b| ==> (a + b)[k] == if k < |a| then a[k] else b[k - |a|];
  }

  /** The TLVs a device advertising `n` sends, End of LLDPDU aside. */
  function Advertise(n: LldpNeighbor, mgmt: seq<seq<Byte>>): (r: seq<Tlv>)
    requires Advertisable(n, mgmt)
    ensures AllEncodable(r)
  {
    var head := IdentityTlvs(n) + DescriptionTlvs(n);
    AllEncodableAppend(IdentityTlvs(n), DescriptionTlvs(n));
    AllEncodableAppend(head, [CapabilityTlv(n)]);
    AllEncodableAppend(head + [CapabilityTlv(n)], MgmtTlvs(mgmt));
    AllEncodableAppend(head + [CapabilityTlv(n)] + MgmtTlvs(mgmt), VlanTlvs(n));
    head + [CapabilityTlv(n)] + MgmtTlvs(mgmt) + VlanTlvs(n)
  }

  /** The record a decode starts from, carrying `n`'s metadata. */
  function Blank(n: LldpNeighbor): LldpNeighbor
  {
    Default(n.lastSeen).(sourceMac := n.sourceMac, localInterface := n.localInterface,
                         localPortSpeed := n.localPortSpeed)
  }

  // The TLVs one by one.

  lemma {:induction false} ApplyAllSingle(n: LldpNeighbor, t: Tlv)
    ensures ApplyAll(n, [t]) == ApplyTlv(n, t)
  {
    assert [t][..0] == [];
  }

  lemma {:induction false} ChassisApplied(m: LldpNeighbor, t: string)
    requires |t| >= 1 && TextFits(t, 1)
    ensures ApplyTlv(m, IdTlv(ChassisIdType, t)) == m.(chassisId := t)
  {
    var p := IdTlv(ChassisIdType, t).payload;
    assert p[1..] == EncodeAscii(t);
    TextOfEncoded(t);
  }

  lemma {:induction false} PortApplied(m: LldpNeighbor, t: string)
    requires |t| >= 1 && TextFits(t, 1)
    ensures ApplyTlv(m, IdTlv(PortIdType, t)) == m.(portId := t)
  {
    var p := IdTlv(PortIdType, t).payload;
    assert p[1..] == EncodeAscii(t);
    TextOfEncoded(t);
  }

  lemma {:induction false} TextApplied(m: LldpNeighbor, typ: nat, t: string)
    requires typ == PortDescriptionType || typ == SystemNameType || typ == SystemDescriptionType
    requires TextFits(t, 0)
    ensures typ == PortDescriptionType ==> ApplyTlv(m, TextTlv(typ, t)) == m.(portDescription := t)
    ensures typ == SystemNameType ==> ApplyTlv(m, TextTlv(typ, t)) == m.(systemName := t)
    ensures typ == SystemDescriptionType ==> ApplyTlv(m, TextTlv(typ, t)) == m.(systemDescription := t)
  {
    TextOfEncoded(t);
  }

  /** An advertised capability list decodes to itself. */
  lemma {:induction false} CapabilityWordDecodes(caps: seq<string>)
    requires Flags.InTableOrder(caps, CapabilityNames)
    ensures ParseCapabilities(CapabilityWord(caps)) == caps
  {
    Flags.DecodeEncode(caps, CapabilityNames);
  }

  /** Two 16-bit words side by side read back. */
  lemma {:induction false} TwoWordsRead(a: nat, b: nat)
    requires a < 0x1_0000 && b < 0x1_0000
    ensures |U16Bytes(a) + U16Bytes(b)| == 4
    ensures ReadU16(U16Bytes(a) + U16Bytes(b), 0) == a && ReadU16(U16Bytes(a) + U16Bytes(b), 2) == b
  {
    var p := U16Bytes(a) + U16Bytes(b);
    assert p[0..2] == U16Bytes(a) && p[2..4] == U16Bytes(b);
    ReadU16Window(p, 0, U16Bytes(a), 0);
    ReadU16Window(p, 2, U16Bytes(b), 0);
  }

  lemma {:induction false} CapabilityWordsApplied(m: LldpNeighbor, a: nat, b: nat)
    requires a < 0x1_0000 && b < 0x1_0000
    ensures ApplyTlv(m, Tlv(CapabilitiesType, U16Bytes(a) + U16Bytes(b)))
         == m.(capabilities := ParseCapabilities(a), enabledCapabilities := ParseCapabilities(b))
  {
    TwoWordsRead(a, b);
    CapabilityPayloadApplied(m, U16Bytes(a) + U16Bytes(b));
  }

  lemma {:induction false} CapabilityPayloadApplied(m: LldpNeighbor, p: seq<Byte>)
    requires |p| >= 4
    ensures ApplyTlv(m, Tlv(CapabilitiesType, p))
         == m.(capabilities := ParseCapabilities(ReadU16(p, 0)), enabledCapabilities := ParseCapabilities(ReadU16(p, 2)))
  {
    var t := Tlv(CapabilitiesType, p);
    var r := ApplyTlv(m, t);
    assert r == m.(capabilities := r.capabilities, enabledCapabilities := r.enabledCapabilities);
    ApplyTlvOverwrittenFields(m, t);
  }

  lemma {:induction false} CapabilitiesApplied(m: LldpNeighbor, n: LldpNeighbor)
    requires CapabilitiesOk(n)
    ensures ApplyTlv(m, CapabilityTlv(n))
         == m.(capabilities := n.capabilities, enabledCapabilities := n.enabledCapabilities)
  {
    CapabilityWordsApplied(m, CapabilityWord(n.capabilities), CapabilityWord(n.enabledCapabilities));
    CapabilityWordDecodes(n.capabilities);
    CapabilityWordDecodes(n.enabledCapabilities);
  }

  lemma {:induction false} MgmtApplied(m: LldpNeighbor, a: seq<Byte>)
    requires |a| == 4
    ensures ApplyTlv(m, MgmtTlv(a)) == m.(mgmtAddresses := m.mgmtAddresses + [Render.DottedDecimal(a)])
  {
    var p := MgmtTlv(a).payload;
    assert p[2..6] == a && p[0] == 5 && p[1] == Ipv4Family;
    assert p[2..p[0] as nat + 1][..4] == a;
  }

  lemma {:induction false} PortVlanApplied(m: LldpNeighbor, v: nat)
    requires v < 0x1_0000
    ensures ApplyTlv(m, PortVlanTlv(v)) == m.(vlanId := Some(v))
  {
    var t := PortVlanTlv(v);
    assert t.typ == 127;
    var p := t.payload;
    assert p[4..6] == U16Bytes(v);
    ReadU16Window(p, 4, U16Bytes(v), 0);
    PortVlanSets(m, p);
  }

  lemma {:induction false} VlanNameApplied(m: LldpNeighbor, v: nat, name: string)
    requires v < 0x1_0000 && IsAscii(name) && |name| < 0x100
    requires m.vlanId == Some(v)
    ensures ApplyTlv(m, VlanNameTlv(v, name)) == m.(vlanName := name)
  {
    var t := VlanNameTlv(v, name);
    assert t.typ == 127;
    var p := t.payload;
    assert p[4..6] == U16Bytes(v);
    ReadU16Window(p, 4, U16Bytes(v), 0);
    assert p[6] == |name|;
    assert p[7..7 + |name|] == EncodeAscii(name);
    VlanNameSets(m, p);
  }

  // The TLVs group by group.

  lemma {:induction false} IdentityDecoded(m: LldpNeighbor, n: LldpNeighbor)
    requires IdentityOk(n)
    ensures ApplyAll(m, IdentityTlvs(n)) == m.(chassisId := n.chassisId, portId := n.portId, ttl := n.ttl)
  {
    var t1 := IdTlv(ChassisIdType, n.chassisId);
    var t2 := IdTlv(PortIdType, n.portId);
    var t3 := Tlv(TtlType, U16Bytes(n.ttl));
    assert IdentityTlvs(n) == [t1] + [t2] + [t3];
    ChassisApplied(m, n.chassisId);
    PortApplied(m.(chassisId := n.chassisId), n.portId);
    ApplyAllSingle(m, t1);
    ApplyAllSnoc(m, [t1], t2);
    ApplyAllSnoc(m, [t1] + [t2], t3);
  }

  lemma {:induction false} DescriptionDecoded(m: LldpNeighbor, n: LldpNeighbor)
    requires DescriptionOk(n)
    ensures ApplyAll(m, DescriptionTlvs(n))
         == m.(portDescription := n.portDescription, systemName := n.systemName,
               systemDescription := n.systemDescription)
  {
    var t1 := TextTlv(PortDescriptionType, n.portDescription);
    var t2 := TextTlv(SystemNameType, n.systemName);
    var t3 := TextTlv(SystemDescriptionType, n.systemDescription);
    assert DescriptionTlvs(n) == [t1] + [t2] + [t3];
    var m1 := m.(portDescription := n.portDescription);
    var m2 := m1.(systemName := n.systemName);
    TextApplied(m, PortDescriptionType, n.portDescription);
    TextApplied(m1, SystemNameType, n.systemName);
    TextApplied(m2, SystemDescriptionType, n.systemDescription);
    ApplyAllSingle(m, t1);
    ApplyAllSnoc(m, [t1], t2);
    ApplyAllSnoc(m, [t1] + [t2], t3);
  }

  /** Each Management Address TLV appends its address, in order. */
  lemma {:induction false} MgmtDecoded(m: LldpNeighbor, mgmt: seq<seq<Byte>>)
    requires AllIpv4(mgmt)
    ensures ApplyAll(m, MgmtTlvs(mgmt)) == m.(mgmtAddresses := m.mgmtAddresses + Renderings(mgmt))
    decreases |mgmt|
  {
    if mgmt == [] {
      assert m.mgmtAddresses + Renderings(mgmt) == m.mgmtAddresses;
    } else {
      var init := mgmt[..|mgmt| - 1];
      var a := mgmt[|mgmt| - 1];
      assert MgmtTlvs(mgmt) == MgmtTlvs(init) + [MgmtTlv(a)];
      assert Renderings(mgmt) == Renderings(init) + [Render.DottedDecimal(a)];
      MgmtDecoded(m, init);
      ApplyAllSnoc(m, MgmtTlvs(init), MgmtTlv(a));
      MgmtApplied(ApplyAll(m, MgmtTlvs(init)), a);
    }
  }

  lemma {:induction false} VlanDecoded(m: LldpNeighbor, n: LldpNeighbor)
    requires VlanOk(n) && m.vlanId.None? && m.vlanName == ""
    ensures ApplyAll(m, VlanTlvs(n)) == m.(vlanId := n.vlanId, vlanName := n.vlanName)
  {
    match n.vlanId
    case None =>
    case Some(v) =>
      var t1 := PortVlanTlv(v);
      var t2 := VlanNameTlv(v, n.vlanName);
      assert VlanTlvs(n) == [t1] + [t2];
      PortVlanApplied(m, v);
      VlanNameApplied(m.(vlanId := Some(v)), v, n.vlanName);
      ApplyAllSingle(m, t1);
      ApplyAllSnoc(m, [t1], t2);
  }

  lemma {:induction false} EmptyAppend<T>(s: seq<T>)
    ensures [] + s == s
  {
  }

  /** The decode inverts the advertisement: applying the advertised TLVs to the
      blank record gives back the advertised record. */
  lemma {:induction false} AdvertiseRoundTrip(n: LldpNeighbor, mgmt: seq<seq<Byte>>)
    requires Advertisable(n, mgmt)
    ensures ApplyAll(Blank(n), Advertise(n, mgmt)) == n
  {
    var b := Blank(n);
    var ids := IdentityTlvs(n);
    var ds := DescriptionTlvs(n);
    var ms := MgmtTlvs(mgmt);
    var vs := VlanTlvs(n);
    var m1 := b.(chassisId := n.chassisId, portId := n.portId, ttl := n.ttl);
    var m2 := m1.(portDescription := n.portDescription, systemName := n.systemName,
                  systemDescription := n.systemDescription);
    var m3 := m2.(capabilities := n.capabilities, enabledCapabilities := n.enabledCapabilities);
    var m4 := m3.(mgmtAddresses := Renderings(mgmt));
    var c := CapabilityTlv(n);
    IdentityDecoded(b, n);
    ApplyAllAppend(b, ids, ds);
    DescriptionDecoded(m1, n);
    assert ApplyAll(b, ids + ds) == m2;
    ApplyAllSnoc(b, ids + ds, c);
    CapabilitiesApplied(m2, n);
    assert ApplyAll(b, ids + ds + [c]) == m3;
    ApplyAllAppend(b, ids + ds + [c], ms);
    MgmtDecoded(m3, mgmt);
    assert m3.mgmtAddresses == [];
    EmptyAppend(Renderings(mgmt));
    assert ApplyAll(b, ids + ds + [c] + ms) == m4;
    ApplyAllAppend(b, ids + ds + [c] + ms, vs);
    VlanDecoded(m4, n);
    assert Advertise(n, mgmt) == ids + ds + [c] + ms + vs;
    assert m4.(vlanId := n.vlanId, vlanName := n.vlanName) == n;
  }

  /** The whole frame: an advertised record, closed by End of LLDPDU and any
      padding, decodes back to the record itself. */
  lemma {:induction false} AdvertisedFrameDecodes(dst: seq<Byte>, src: seq<Byte>, n: LldpNeighbor, mgmt: seq<seq<Byte>>,
                               padding: seq<Byte>)
    requires |dst| == 6 && |src| == 6 && Advertisable(n, mgmt)
    requires n.localInterface == "" && n.localPortSpeed == ""
    ensures ParseRaw(Frame(dst, src, Advertise(n, mgmt), EndOfLldpdu + padding), n.sourceMac, n.lastSeen)
         == Some(n)
  {
    ParseTerminatedFrame(dst, src, Advertise(n, mgmt), padding, n.sourceMac, n.lastSeen);
    AdvertiseRoundTrip(n, mgmt);
  }
}

=== FILE: neighbor.dfy ===
/** The protocol-neutral neighbour record the GUI works with, built from either
    a CDP or an LLDP record: the field mapping of each source, the display IP,
    the dictionary `to_dict` renders, and the ":"-joined table key. */
module Neighbor {
  import opened Bytes
  import opened Strings
  import Cdp
  import Lldp
  import TypeLength

  const CdpProtocol: string := "CDP"
  const LldpProtocol: string := "LLDP"
  const NotAvailable: string := "N/A"

  /** `DiscoveryNeighbor`. The `_original` back-reference is not kept;
      `last_seen` is the capture time as a number. */
  datatype DiscoveryNeighbor = DiscoveryNeighbor(
    protocol: string,
    deviceId: string,
    portId: string,
    platform: string,
    capabilities: seq<string>,
    ipAddresses: seq<string>,
    mgmtAddresses: seq<string>,
    softwareVersion: string,
    nativeVlan: Option<nat>,
    voiceVlan: Option<nat>,
    vlanName: string,
    duplex: Option<string>,
    vtpDomain: string,
    portDescription: string,
    sourceMac: string,
    localInterface: string,
    localPortSpeed: string,
    lastSeen: int,
    ttl: nat)

  // ---------------------------------------------------------------------------
  // From CDP

  /** The CDP fields of a neighbour, read back as a CDP record. */
  function CdpOf(d: DiscoveryNeighbor): Cdp.CdpNeighbor
  {
    Cdp.CdpNeighbor(d.deviceId, d.ipAddresses, d.portId, d.capabilities, d.softwareVersion,
                    d.platform, d.nativeVlan, d.voiceVlan, d.duplex, d.vtpDomain, d.mgmtAddresses,
                    d.sourceMac, d.localInterface, d.localPortSpeed, d.lastSeen, d.ttl)
  }

  /** `from_cdp`: protocol "CDP", every CDP field copied unchanged, and the
      LLDP-only fields at their defaults. */
  function FromCdp(c: Cdp.CdpNeighbor): (r: DiscoveryNeighbor)
    ensures r.protocol == CdpProtocol
    ensures CdpOf(r) == c
    ensures r.vlanName == "" && r.portDescription == ""
  {
    DiscoveryNeighbor(CdpProtocol, c.deviceId, c.portId, c.platform, c.capabilities, c.ipAddresses,
                      c.mgmtAddresses, c.softwareVersion, c.nativeVlan, c.voiceVlan, "", c.duplex,
                      c.vtpDomain, "", c.sourceMac, c.localInterface, c.localPortSpeed, c.lastSeen, c.ttl)
  }

  /** The neighbours `from_cdp` can produce. */
  predicate CdpShaped(d: DiscoveryNeighbor)
  {
    d.protocol == CdpProtocol && d.vlanName == "" && d.portDescription == ""
  }

  /** `from_cdp` loses nothing: it is a bijection between CDP records and the
      CDP-shaped neighbours, with `CdpOf` as its inverse. */
  lemma {:induction false} FromCdpBijective(c: Cdp.CdpNeighbor, d: DiscoveryNeighbor)
    ensures CdpShaped(FromCdp(c))
    ensures CdpShaped(d) ==> FromCdp(CdpOf(d)) == d
    ensures FromCdp(c) == d <==> CdpShaped(d) && CdpOf(d) == c
  {
  }

  // ---------------------------------------------------------------------------
  // From LLDP

  /** Platform strings are cut to this many characters. */
  const PlatformWidth: nat := 50

  /** The platform `from_lldp` extracts from a system description: "" for an
      empty description, otherwise the first line cut to 50 characters. */
  function Platform(desc: string): (r: string)
    ensures desc == "" ==> r == ""
    ensures StartsWith(desc, r) && '\n' !in r && |r| <= PlatformWidth
    ensures |r| < PlatformWidth ==> |r| == |desc| || desc[|r|] == '\n'
  {
    if desc == "" then ""
    else
      var line := Split(desc, '\n')[0];
      FirstFieldOfSplit(desc, '\n');
      if |line| <= PlatformWidth then line else line[..PlatformWidth]
  }

  /** The platform is the only string with those properties: the longest
      prefix of the description, at most 50 characters, that stops at the
      first line break. */
  lemma {:induction false} PlatformUnique(desc: string, p: string)
    requires StartsWith(desc, p) && '\n' !in p && |p| <= PlatformWidth
    requires |p| < PlatformWidth ==> |p| == |desc| || desc[|p|] == '\n'
    ensures p == Platform(desc)
  {
    var q := Platform(desc);
    assert |p| == |q|;
    assert p == desc[..|p|] == q;
  }

  /** `from_lldp`: the device ID is the system name, or the chassis ID when
      there is no system name; the platform comes from the system description,
      which is also kept whole as the software version; the capabilities are
      the enabled ones, or the supported ones when none is enabled; the VLAN id
      becomes the native VLAN; there are no IP addresses, voice VLAN or duplex. */
  function FromLldp(l: Lldp.LldpNeighbor): (r: DiscoveryNeighbor)
    ensures r.protocol == LldpProtocol
    ensures r.deviceId == (if l.systemName != "" then l.systemName else l.chassisId)
    ensures r.platform == Platform(l.systemDescription) && r.softwareVersion == l.systemDescription
    ensures r.capabilities == (if l.enabledCapabilities != [] then l.enabledCapabilities else l.capabilities)
    ensures r.ipAddresses == [] && r.voiceVlan.None? && r.duplex.None? && r.vtpDomain == ""
    ensures r.portId == l.portId && r.mgmtAddresses == l.mgmtAddresses
    ensures r.nativeVlan == l.vlanId && r.vlanName == l.vlanName && r.portDescription == l.portDescription
    ensures r.sourceMac == l.sourceMac && r.localInterface == l.localInterface
    ensures r.localPortSpeed == l.localPortSpeed && r.lastSeen == l.lastSeen && r.ttl == l.ttl
  {
    DiscoveryNeighbor(
      LldpProtocol,
      if l.systemName != "" then l.systemName else l.chassisId,
      l.portId,
      Platform(l.systemDescription),
      if l.enabledCapabilities != [] then l.enabledCapabilities else l.capabilities,
      [],
      l.mgmtAddresses,
      l.systemDescription,
      l.vlanId,
      None,
      l.vlanName,
      None,
      "",
      l.portDescription,
      l.sourceMac,
      l.localInterface,
      l.localPortSpeed,
      l.lastSeen,
      l.ttl)
  }

  /** What an LLDP neighbour's summary fields mean: a device ID is shown
      whenever the neighbour named either its system or its chassis, the
      platform is the head of the software version, and the capabilities are
      one of the two advertised lists, empty only when both are. */
  lemma {:induction false} FromLldpSummary(l: Lldp.LldpNeighbor)
    ensures FromLldp(l).deviceId == "" <==> l.systemName == "" && l.chassisId == ""
    ensures StartsWith(FromLldp(l).softwareVersion, FromLldp(l).platform)
    ensures FromLldp(l).capabilities == [] <==> l.capabilities == [] && l.enabledCapabilities == []
  {
  }

  /** A neighbour normalised from any decoded LLDP frame holds a native VLAN id
      whenever it holds a VLAN name. The id may be 0, which the dictionary
      shows as "N/A" (`VlanNameBesideVlanZero`). */
  lemma {:induction false} LldpVlanNameHasVlan(raw: seq<Byte>, sourceMac: string, now: int)
    requires Lldp.ParseRaw(raw, sourceMac, now).Some?
    ensures FromLldp(Lldp.ParseRaw(raw, sourceMac, now).value).vlanName != ""
        ==> FromLldp(Lldp.ParseRaw(raw, sourceMac, now).value).nativeVlan.Some?
  {
    Lldp.DecodedVlanConsistent(raw, sourceMac, now);
  }

  // ---------------------------------------------------------------------------
  // Display IP

  /** `get_display_ip`: the first IP address, else the first management
      address, else "N/A". */
  function DisplayIp(d: DiscoveryNeighbor): (r: string)
    ensures d.ipAddresses != [] ==> r == d.ipAddresses[0]
    ensures d.ipAddresses == [] && d.mgmtAddresses != [] ==> r == d.mgmtAddresses[0]
    ensures d.ipAddresses == [] && d.mgmtAddresses == [] ==> r == NotAvailable
  {
    if d.ipAddresses != [] then d.ipAddresses[0]
    else if d.mgmtAddresses != [] then d.mgmtAddresses[0]
    else NotAvailable
  }

  /** The displayed IP of an LLDP neighbour is its first management address:
      LLDP records carry no other IP list. */
  lemma {:induction false} LldpDisplayIp(l: Lldp.LldpNeighbor)
    ensures DisplayIp(FromLldp(l)) == if l.mgmtAddresses != [] then l.mgmtAddresses[0] else NotAvailable
  {
  }

  /** Whatever the display IP is, it is one of the neighbour's addresses or
      "N/A". */
  lemma {:induction false} DisplayIpIsAnAddress(d: DiscoveryNeighbor)
    ensures DisplayIp(d) in d.ipAddresses + d.mgmtAddresses || DisplayIp(d) == NotAvailable
  {
  }

  // ---------------------------------------------------------------------------
  // to_dict

  /** Software text longer than this is cut and marked with "...". */
  const SoftwareWidth: nat := 150

  /** The text itself when it is at most 150 characters, otherwise its first
      150 characters and "...". */
  function Abbreviate(s: string): (r: string)
    ensures |s| <= SoftwareWidth ==> r == s
    ensures |s| > SoftwareWidth ==> |r| == SoftwareWidth + 3 && r[..SoftwareWidth] == s[..SoftwareWidth]
    ensures |s| > SoftwareWidth ==> r[SoftwareWidth..] == "..."
  {
    if |s| > SoftwareWidth then s[..SoftwareWidth] + "..." else s
  }

  /** `x or "N/A"` for a string. */
  function OrNa(s: string): string
  {
    if s == "" then NotAvailable else s
  }

  /** `str(v) if v else "N/A"`: an absent VLAN and VLAN 0 both show as "N/A". */
  function VlanText(v: Option<nat>): string
  {
    if v.Some? && v.value != 0 then Dec(v.value) else NotAvailable
  }

  function DuplexText(v: Option<string>): string
  {
    if v.Some? then OrNa(v.value) else NotAvailable
  }

  /** `to_dict`, in key order. The merged IP text (built from a set, so its
      order is not determined) and the formatted timestamp are supplied by the
      caller. */
  function ToDict(d: DiscoveryNeighbor, ipText: string, seenText: string): (r: seq<(string, string)>)
    ensures |r| == if d.protocol == CdpProtocol then 16 else 15
    ensures forall i, j :: 0 <= i < j < |r| ==> r[i].0 != r[j].0
  {
    [("Protocol", d.protocol),
     ("Device ID", OrNa(d.deviceId)),
     ("Port ID", OrNa(d.portId)),
     ("Platform", OrNa(d.platform)),
     ("Capabilities", if d.capabilities != [] then Join(d.capabilities, ", ") else NotAvailable),
     ("IP Addresses", ipText),
     ("Software/Description", if d.softwareVersion != "" then Abbreviate(d.softwareVersion) else NotAvailable),
     ("Native VLAN", VlanText(d.nativeVlan))]
    + (if d.protocol == CdpProtocol then
         [("Voice VLAN", VlanText(d.voiceVlan)),
          ("Duplex", DuplexText(d.duplex)),
          ("VTP Domain", OrNa(d.vtpDomain))]
       else
         [("VLAN Name", OrNa(d.vlanName)),
          ("Port Description", OrNa(d.portDescription))])
    + [("Source MAC", d.sourceMac),
       ("Local Interface", d.localInterface),
       ("Local Port Speed", OrNa(d.localPortSpeed)),
       ("Last Seen", seenText),
       ("TTL", Dec(d.ttl) + "s")]
  }

  function Keys(entries: seq<(string, string)>): (r: seq<string>)
    ensures |r| == |entries|
    ensures forall i :: 0 <= i < |r| ==> r[i] == entries[i].0
  {
    seq(|entries|, i requires 0 <= i < |entries| => entries[i].0)
  }

  /** The value stored under `key`: the first entry with that key. */
  function Lookup(entries: seq<(string, string)>, key: string): (r: Option<string>)
    ensures r.None? <==> key !in Keys(entries)
    ensures r.Some? ==> (key, r.value) in entries
  {
    if entries == [] then None
    else if entries[0].0 == key then Some(entries[0].1)
    else
      assert Keys(entries) == [entries[0].0] + Keys(entries[1..]);
      Lookup(entries[1..], key)
  }

  const CommonHead: seq<string> :=
    ["Protocol", "Device ID", "Port ID", "Platform", "Capabilities", "IP Addresses",
     "Software/Description", "Native VLAN"]
  const CdpOnly: seq<string> := ["Voice VLAN", "Duplex", "VTP Domain"]
  const LldpOnly: seq<string> := ["VLAN Name", "Port Description"]
  const CommonTail: seq<string> := ["Source MAC", "Local Interface", "Local Port Speed", "Last Seen", "TTL"]

  /** The keys depend on the protocol alone: CDP neighbours get Voice VLAN,
      Duplex and VTP Domain, every other neighbour VLAN Name and Port
      Description, both around the same common keys. */
  lemma {:induction false} ToDictKeys(d: DiscoveryNeighbor, ipText: string, seenText: string)
    ensures Keys(ToDict(d, ipText, seenText))
         == CommonHead + (if d.protocol == CdpProtocol then CdpOnly else LldpOnly) + CommonTail
  {
  }

  /** The value under a key is that of the first entry holding it. */
  lemma {:induction false} LookupAt(entries: seq<(string, string)>, i: nat)
    requires i < |entries|
    requires forall j :: 0 <= j < i ==> entries[j].0 != entries[i].0
    ensures Lookup(entries, entries[i].0) == Some(entries[i].1)
    decreases i
  {
    if i > 0 {
      LookupAt(entries[1..], i - 1);
    }
  }

  /** The protocol-specific keys: a CDP neighbour's dictionary has Voice VLAN
      and VTP Domain and neither VLAN Name nor Port Description, any other
      neighbour's the reverse. */
  lemma {:induction false} ProtocolSpecificKeys(d: DiscoveryNeighbor, ipText: string, seenText: string)
    ensures "Voice VLAN" in Keys(ToDict(d, ipText, seenText)) <==> d.protocol == CdpProtocol
    ensures "VTP Domain" in Keys(ToDict(d, ipText, seenText)) <==> d.protocol == CdpProtocol
    ensures "VLAN Name" in Keys(ToDict(d, ipText, seenText)) <==> d.protocol != CdpProtocol
    ensures "Port Description" in Keys(ToDict(d, ipText, seenText)) <==> d.protocol != CdpProtocol
  {
    ToDictKeys(d, ipText, seenText);
    if d.protocol == CdpProtocol {
      CdpKeySet();
    } else {
      LldpKeySet();
    }
  }

  lemma {:induction false} CdpKeySet()
    ensures "Voice VLAN" in CommonHead + CdpOnly + CommonTail
    ensures "VTP Domain" in CommonHead + CdpOnly + CommonTail
    ensures "VLAN Name" !in CommonHead + CdpOnly + CommonTail
    ensures "Port Description" !in CommonHead + CdpOnly + CommonTail
  {
    var ks := CommonHead + CdpOnly + CommonTail;
    assert ks[8] == "Voice VLAN" && ks[10] == "VTP Domain";
  }

  lemma {:induction false} LldpKeySet()
    ensures "Voice VLAN" !in CommonHead + LldpOnly + CommonTail
    ensures "VTP Domain" !in CommonHead + LldpOnly + CommonTail
    ensures "VLAN Name" in CommonHead + LldpOnly + CommonTail
    ensures "Port Description" in CommonHead + LldpOnly + CommonTail
  {
    var ks := CommonHead + LldpOnly + CommonTail;
    assert ks[8] == "VLAN Name" && ks[9] == "Port Description";
  }

  /** The software text shown: "N/A" when there is none, the text itself up to
      150 characters, and its first 150 characters with "..." beyond. */
  lemma {:induction false} SoftwareShown(d: DiscoveryNeighbor, ipText: string, seenText: string)
    ensures Lookup(ToDict(d, ipText, seenText), "Software/Description")
         == Some(if d.softwareVersion == "" then NotAvailable else Abbreviate(d.softwareVersion))
  {
    var es := ToDict(d, ipText, seenText);
    assert es[6].0 == "Software/Description";
    assert forall j :: 0 <= j < 6 ==> |es[j].0| != 20;
    LookupAt(es, 6);
  }

  /** An 802.1 VLAN Name TLV carrying VLAN id 0 and the name "A" gives a
      neighbour whose dictionary shows the name beside a Native VLAN of "N/A":
      the id is held, but 0 reads as absent. */
  lemma {:induction false} VlanNameBesideVlanZero(now: int, ipText: string, seenText: string)
    ensures var l := Lldp.ApplyTlv(Lldp.Default(now),
                       TypeLength.Tlv(Lldp.OrgSpecificType, [0x00, 0x80, 0xC2, 0x03, 0x00, 0x00, 0x01, 0x41]));
      && l.vlanId == Some(0) && l.vlanName == "A"
      && Lookup(ToDict(FromLldp(l), ipText, seenText), "Native VLAN") == Some(NotAvailable)
      && Lookup(ToDict(FromLldp(l), ipText, seenText), "VLAN Name") == Some("A")
  {
    var p: seq<Byte> := [0x00, 0x80, 0xC2, 0x03, 0x00, 0x00, 0x01, 0x41];
    var l := Lldp.ApplyTlv(Lldp.Default(now), TypeLength.Tlv(Lldp.OrgSpecificType, p));
    assert Lldp.Ieee8021(p) && p[3] == Lldp.VlanNameSubtype && p[6] == 1;
    Lldp.VlanNameSets(Lldp.Default(now), p);
    assert p[7..8] == [0x41];
    assert Decode([0x41]) == "A";
    assert ReadU16(p, 4) == 0;
    assert l.vlanId == Some(0) && l.vlanName == "A";
    VlanShown(FromLldp(l), ipText, seenText);
  }

  /** The dictionary of a non-CDP neighbour shows its VLAN id under Native VLAN
      and its VLAN name under VLAN Name. */
  lemma {:induction false} VlanShown(d: DiscoveryNeighbor, ipText: string, seenText: string)
    requires d.protocol != CdpProtocol
    ensures Lookup(ToDict(d, ipText, seenText), "Native VLAN") == Some(VlanText(d.nativeVlan))
    ensures Lookup(ToDict(d, ipText, seenText), "VLAN Name") == Some(OrNa(d.vlanName))
  {
    var es := ToDict(d, ipText, seenText);
    assert es[7] == ("Native VLAN", VlanText(d.nativeVlan));
    assert es[8] == ("VLAN Name", OrNa(d.vlanName));
    assert forall j :: 0 <= j < 7 ==> |es[j].0| != 11;
    assert forall j :: 0 <= j < 8 ==> es[j].0[0] != 'V';
    LookupAt(es, 7);
    LookupAt(es, 8);
  }

  // ---------------------------------------------------------------------------
  // Table key

  /** `f"{protocol}:{local_interface}:{device_id}:{port_id}"`. */
  function Key(d: DiscoveryNeighbor): (r: string)
    ensures NoColon(d) ==> Split(r, ':') == [d.protocol, d.localInterface, d.deviceId, d.portId]
  {
    var parts := [d.protocol, d.localInterface, d.deviceId, d.portId];
    SplitJoinWhenFree(parts, ':');
    Join(parts, ":")
  }

  lemma {:induction false} JoinFour(a: string, b: string, c: string, d: string, sep: string)
    ensures Join([a, b, c, d], sep) == a + sep + b + sep + c + sep + d
  {
    var ps := [a, b, c, d];
    assert ps[1..] == [b, c, d] && ps[1..][1..] == [c, d] && ps[1..][1..][1..] == [d];
    assert Join([c, d], sep) == c + sep + d;
  }

  /** What the key is meant to identify a neighbour by. */
  function Identity(d: DiscoveryNeighbor): (string, string, string, string)
  {
    (d.protocol, d.localInterface, d.deviceId, d.portId)
  }

  predicate NoColon(d: DiscoveryNeighbor)
  {
    ':' !in d.protocol && ':' !in d.localInterface && ':' !in d.deviceId && ':' !in d.portId
  }

  /** When no identifying field holds a ":", the key determines the identity:
      the key is split back into the four fields. */
  lemma {:induction false} KeyDeterminesIdentity(a: DiscoveryNeighbor, b: DiscoveryNeighbor)
    requires NoColon(a) && NoColon(b)
    ensures Key(a) == Key(b) <==> Identity(a) == Identity(b)
  {
    var pa := [a.protocol, a.localInterface, a.deviceId, a.portId];
    var pb := [b.protocol, b.localInterface, b.deviceId, b.portId];
    SplitJoin(pa, ':');
    SplitJoin(pb, ':');
  }

  /** A device ID holding a ":" makes two different neighbours share a key, so
      one overwrites the other in every table keyed this way. */
  lemma {:induction false} KeyCollision(d: DiscoveryNeighbor)
    ensures Key(d.(protocol := LldpProtocol, localInterface := "eth0", deviceId := "sw:1", portId := "Gi0/1"))
         == Key(d.(protocol := LldpProtocol, localInterface := "eth0:sw", deviceId := "1", portId := "Gi0/1"))
    ensures Identity(d.(protocol := LldpProtocol, localInterface := "eth0", deviceId := "sw:1", portId := "Gi0/1"))
         != Identity(d.(protocol := LldpProtocol, localInterface := "eth0:sw", deviceId := "1", portId := "Gi0/1"))
  {
    JoinFour(LldpProtocol, "eth0", "sw:1", "Gi0/1", ":");
    JoinFour(LldpProtocol, "eth0:sw", "1", "Gi0/1", ":");
  }
}

=== FILE: nic.dfy ===
/** Network interfaces as the capture side sees them: the speed shown for a
    link, how an interface's address list is classified, which interfaces are
    offered for capture, and the two ways an interface is found by name. The
    operating system's interface and statistics tables are inputs. */
module Nic {
  import opened Bytes
  import opened Strings

  /** The address families an interface address entry can carry. */
  datatype Family = Link | Inet | Inet6 | OtherFamily

  /** One entry of the operating system's address table for an interface. */
  datatype Address = Address(family: Family, address: string)

  /** The operating system's statistics for an interface. */
  datatype Stats = Stats(isUp: bool, mtu: nat, speed: nat)

  /** `NetworkInterface`; `speed` is in Mbit/s. */
  datatype NetworkInterface = NetworkInterface(
    name: string,
    displayName: string,
    macAddress: string,
    ipAddresses: seq<string>,
    isUp: bool,
    isLoopback: bool,
    mtu: Option<nat>,
    speed: Option<nat>)

  const UnknownSpeed: string := "Unknown"

  // ---------------------------------------------------------------------------
  // Speed

  /** `get_speed_display`: no speed (or 0) is "Unknown", 1000 Mbit/s and up is
      shown in whole Gbit/s, anything else in Mbit/s. */
  function SpeedDisplay(speed: Option<nat>): (r: string)
    ensures r == UnknownSpeed <==> speed.None? || speed.value == 0
  {
    if speed.None? || speed.value == 0 then UnknownSpeed
    else
      var r := if speed.value >= 1000 then Dec(speed.value / 1000) + "G" else Dec(speed.value) + "M";
      assert r[|r| - 1] != UnknownSpeed[|UnknownSpeed| - 1];
      r
  }

  /** A known speed reads back from its display: the unit letter says which
      scale was used, and the digits before it give the speed in that unit,
      Gbit/s rounded down. */
  lemma {:induction false} SpeedDisplayReadsBack(v: nat)
    requires v > 0
    ensures |SpeedDisplay(Some(v))| >= 2
    ensures SpeedDisplay(Some(v))[|SpeedDisplay(Some(v))| - 1] == if v >= 1000 then 'G' else 'M'
    ensures AllDigits(SpeedDisplay(Some(v))[..|SpeedDisplay(Some(v))| - 1])
    ensures DigitsValue(SpeedDisplay(Some(v))[..|SpeedDisplay(Some(v))| - 1])
         == if v >= 1000 then v / 1000 else v
  {
    var r := SpeedDisplay(Some(v));
    var n := if v >= 1000 then v / 1000 else v;
    assert r[..|r| - 1] == Dec(n);
    DecRoundTrip(n);
  }

  /** 2500 Mbit/s shows as "2G": the Gbit/s figure is rounded down. */
  lemma {:induction false} SpeedDisplayExample()
    ensures SpeedDisplay(Some(2500)) == "2G"
    ensures SpeedDisplay(Some(100)) == "100M"
    ensures SpeedDisplay(Some(0)) == UnknownSpeed
  {
    assert Dec(2) == "2";
    assert Dec(100) == Dec(10) + [DigitChar(0)];
  }

  // ---------------------------------------------------------------------------
  // Address classification

  /** What the address loop of `get_all_interfaces` collects for one
      interface. */
  datatype Classified = Classified(mac: string, ips: seq<string>, loopback: bool)

  /** An IPv4 address is always listed; an IPv6 address is listed unless it is
      link-local ("fe80…"); link-layer and other entries are not. */
  predicate Listable(a: Address)
  {
    a.family == Inet || (a.family == Inet6 && !StartsWith(a.address, "fe80"))
  }

  /** An IPv4 address in 127.0.0.0/8 marks the interface as loopback. */
  predicate LoopbackAddress(a: Address)
  {
    a.family == Inet && StartsWith(a.address, "127.")
  }

  /** The loop over an interface's address entries, first to last: the last
      link-layer address becomes the MAC, listable addresses are appended in
      order, and a 127.x IPv4 address sets the loopback flag. */
  function Classify(addrs: seq<Address>): (r: Classified)
    ensures |r.ips| <= |addrs|
    ensures r.loopback ==> r.ips != []
    decreases |addrs|
  {
    if addrs == [] then Classified("", [], false)
    else
      var c := Classify(addrs[..|addrs| - 1]);
      var a := addrs[|addrs| - 1];
      if a.family == Link then c.(mac := a.address)
      else if Listable(a) then c.(ips := c.ips + [a.address], loopback := c.loopback || LoopbackAddress(a))
      else c
  }

  /** The loopback flag is set exactly when some IPv4 address starts with
      "127.". */
  lemma {:induction false} ClassifyLoopback(addrs: seq<Address>)
    ensures Classify(addrs).loopback <==> exists i :: 0 <= i < |addrs| && LoopbackAddress(addrs[i])
    decreases |addrs|
  {
    if addrs != [] {
      var init := addrs[..|addrs| - 1];
      ClassifyLoopback(init);
      if exists i :: 0 <= i < |init| && LoopbackAddress(init[i]) {
        var i :| 0 <= i < |init| && LoopbackAddress(init[i]);
        assert addrs[i] == init[i];
      }
      if exists i :: 0 <= i < |addrs| && LoopbackAddress(addrs[i]) {
        var i :| 0 <= i < |addrs| && LoopbackAddress(addrs[i]);
        if i < |init| {
          assert init[i] == addrs[i];
        }
      }
    }
  }

  /** The listed addresses are exactly the listable entries' addresses: each
      listed address comes from a listable entry, and every listable entry's
      address is listed, so no link-local IPv6 address is listed unless an
      entry that is listable has the same text. */
  lemma {:induction false} ClassifyAddresses(addrs: seq<Address>)
    ensures forall j :: 0 <= j < |Classify(addrs).ips| ==>
      exists i :: 0 <= i < |addrs| && Listable(addrs[i]) && addrs[i].address == Classify(addrs).ips[j]
    ensures forall i :: 0 <= i < |addrs| && Listable(addrs[i]) ==> addrs[i].address in Classify(addrs).ips
    decreases |addrs|
  {
    if addrs != [] {
      var init := addrs[..|addrs| - 1];
      var c := Classify(init);
      var last := addrs[|addrs| - 1];
      ClassifyAddresses(init);
      assert Classify(addrs).ips == if last.family != Link && Listable(last) then c.ips + [last.address] else c.ips;
      forall j | 0 <= j < |Classify(addrs).ips|
        ensures exists i :: 0 <= i < |addrs| && Listable(addrs[i]) && addrs[i].address == Classify(addrs).ips[j]
      {
        if j < |c.ips| {
          assert Classify(addrs).ips[j] == c.ips[j];
          var i :| 0 <= i < |init| && Listable(init[i]) && init[i].address == c.ips[j];
          assert addrs[i] == init[i];
        } else {
          assert Classify(addrs).ips[j] == addrs[|addrs| - 1].address;
          assert Listable(addrs[|addrs| - 1]);
        }
      }
      forall i | 0 <= i < |addrs| && Listable(addrs[i])
        ensures addrs[i].address in Classify(addrs).ips
      {
        if i < |init| {
          assert init[i] == addrs[i];
          assert addrs[i].address in c.ips;
        }
      }
    } else {
      assert Classify(addrs).ips == [];
    }
  }

  /** The MAC address is the last link-layer entry's address, or "" when there
      is none. */
  lemma {:induction false} ClassifyMac(addrs: seq<Address>)
    ensures (forall i :: 0 <= i < |addrs| ==> addrs[i].family != Link) ==> Classify(addrs).mac == ""
    ensures forall i :: 0 <= i < |addrs| && addrs[i].family == Link
                        && (forall j :: i < j < |addrs| ==> addrs[j].family != Link)
                        ==> Classify(addrs).mac == addrs[i].address
    decreases |addrs|
  {
    if addrs != [] {
      var init := addrs[..|addrs| - 1];
      ClassifyMac(init);
      forall i | 0 <= i < |init| && init[i].family == Link
        ensures addrs[i] == init[i]
      {
      }
    }
  }

  /** The same loop, as the source writes it: one pass over the entries,
      updating the three results in place. */
  method ClassifyLoop(addrs: seq<Address>) returns (mac: string, ips: seq<string>, loopback: bool)
    ensures Classified(mac, ips, loopback) == Classify(addrs)
  {
    mac, ips, loopback := "", [], false;
    var k := 0;
    while k < |addrs|
      invariant k <= |addrs|
      invariant Classified(mac, ips, loopback) == Classify(addrs[..k])
    {
      var a := addrs[k];
      assert addrs[..k + 1][..k] == addrs[..k];
      if a.family == Link {
        mac := a.address;
      } else if a.family == Inet {
        ips := ips + [a.address];
        if StartsWith(a.address, "127.") {
          loopback := true;
        }
      } else if a.family == Inet6 {
        if !StartsWith(a.address, "fe80") {
          ips := ips + [a.address];
        }
      }
      k := k + 1;
    }
    assert addrs[..k] == addrs;
  }

  /** One interface of `get_all_interfaces`: its classified addresses, and the
      up flag, MTU and speed from its statistics entry (down, none and none
      when it has none). The display name is the system name, as on every
      platform but Windows. */
  function BuildInterface(name: string, addrs: seq<Address>, stats: Option<Stats>): (r: NetworkInterface)
    ensures r.name == name && r.displayName == name
    ensures r.isUp <==> stats.Some? && stats.value.isUp
    ensures r.isLoopback <==> exists i :: 0 <= i < |addrs| && LoopbackAddress(addrs[i])
    ensures r.ipAddresses == Classify(addrs).ips && r.macAddress == Classify(addrs).mac
    ensures stats.None? ==> r.mtu.None? && r.speed.None?
    ensures stats.Some? ==> r.mtu == Some(stats.value.mtu) && r.speed == Some(stats.value.speed)
  {
    ClassifyLoopback(addrs);
    var c := Classify(addrs);
    NetworkInterface(
      name, name, c.mac, c.ips,
      stats.Some? && stats.value.isUp,
      c.loopback,
      if stats.Some? then Some(stats.value.mtu) else None,
      if stats.Some? then Some(stats.value.speed) else None)
  }

  /** `get_all_interfaces` over the address table (interface name and entries,
      in the table's order) and the statistics table. */
  function AllInterfaces(table: seq<(string, seq<Address>)>, stats: map<string, Stats>): (r: seq<NetworkInterface>)
    ensures |r| == |table|
    ensures forall i :: 0 <= i < |r| ==>
      r[i] == BuildInterface(table[i].0, table[i].1, if table[i].0 in stats then Some(stats[table[i].0]) else None)
  {
    seq(|table|, i requires 0 <= i < |table| =>
      BuildInterface(table[i].0, table[i].1, if table[i].0 in stats then Some(stats[table[i].0]) else None))
  }

  // ---------------------------------------------------------------------------
  // Capture interfaces

  predicate Capturable(x: NetworkInterface)
  {
    x.isUp && !x.isLoopback
  }

  /** `get_capture_interfaces`: the interfaces that are up and not loopback. */
  function CaptureInterfaces(ifs: seq<NetworkInterface>): (r: seq<NetworkInterface>)
    ensures |r| <= |ifs|
    ensures forall k :: 0 <= k < |r| ==> Capturable(r[k]) && r[k] in ifs
    decreases |ifs|
  {
    if ifs == [] then []
    else
      var rest := CaptureInterfaces(ifs[..|ifs| - 1]);
      if Capturable(ifs[|ifs| - 1]) then rest + [ifs[|ifs| - 1]] else rest
  }

  /** The capture list holds exactly the up, non-loopback interfaces. */
  lemma {:induction false} CaptureInterfacesExact(ifs: seq<NetworkInterface>)
    ensures forall x :: x in CaptureInterfaces(ifs) <==> x in ifs && Capturable(x)
    decreases |ifs|
  {
    if ifs != [] {
      var init := ifs[..|ifs| - 1];
      CaptureInterfacesExact(init);
      assert ifs == init + [ifs[|ifs| - 1]];
    }
  }

  /** Filtering keeps the interfaces' order: the capture list of two lists
      joined is the two capture lists joined. */
  lemma {:induction false} CaptureInterfacesAppend(a: seq<NetworkInterface>, b: seq<NetworkInterface>)
    ensures CaptureInterfaces(a + b) == CaptureInterfaces(a) + CaptureInterfaces(b)
    decreases |b|
  {
    if b == [] {
      assert a + b == a;
    } else {
      var init := b[..|b| - 1];
      CaptureInterfacesAppend(a, init);
      assert (a + b)[..|a + b| - 1] == a + init;
    }
  }

  // ---------------------------------------------------------------------------
  // Finding an interface by name

  /** `get_interface_by_name`: the first interface with that name, if any. */
  method InterfaceByName(ifs: seq<NetworkInterface>, name: string) returns (r: Option<NetworkInterface>)
    ensures r.None? <==> forall i :: 0 <= i < |ifs| ==> ifs[i].name != name
    ensures r.Some? ==> exists k :: 0 <= k < |ifs| && ifs[k] == r.value && ifs[k].name == name
                                    && forall j :: 0 <= j < k ==> ifs[j].name != name
  {
    var k := 0;
    while k < |ifs|
      invariant k <= |ifs|
      invariant forall j :: 0 <= j < k ==> ifs[j].name != name
    {
      if ifs[k].name == name {
        return Some(ifs[k]);
      }
      k := k + 1;
    }
    return None;
  }

  /** `{iface.name: iface for iface in interfaces}`: the table the capture
      coordinators look speeds up in. A later interface with the same name
      replaces an earlier one. */
  function InfoTable(ifs: seq<NetworkInterface>): (r: map<string, NetworkInterface>)
    ensures forall n :: n in r <==> exists i :: 0 <= i < |ifs| && ifs[i].name == n
    decreases |ifs|
  {
    if ifs == [] then map[]
    else
      var init := ifs[..|ifs| - 1];
      var t := InfoTable(init);
      assert forall i :: 0 <= i < |init| ==> init[i] == ifs[i];
      t[ifs[|ifs| - 1].name := ifs[|ifs| - 1]]
  }

  /** The table keeps the last interface of each name. */
  lemma {:induction false} InfoTableLastWins(ifs: seq<NetworkInterface>, k: nat)
    requires k < |ifs|
    requires forall j :: k < j < |ifs| ==> ifs[j].name != ifs[k].name
    ensures ifs[k].name in InfoTable(ifs) && InfoTable(ifs)[ifs[k].name] == ifs[k]
    decreases |ifs|
  {
    if k < |ifs| - 1 {
      var init := ifs[..|ifs| - 1];
      InfoTableLastWins(init, k);
    }
  }

  /** With a duplicated name the table and the search disagree: the search
      finds the first interface, the table holds the last. */
  lemma {:induction false} InfoTableDuplicate(a: NetworkInterface, b: NetworkInterface)
    requires a.name == b.name
    ensures InfoTable([a, b])[a.name] == b
  {
    InfoTableLastWins([a, b], 1);
  }

  /** `get_interface_speed`: the speed display of the named interface, or
      "Unknown" for a name the table does not hold. */
  function InterfaceSpeed(info: map<string, NetworkInterface>, name: string): (r: string)
    ensures name !in info ==> r == UnknownSpeed
    ensures name in info ==> r == SpeedDisplay(info[name].speed)
  {
    if name in info then SpeedDisplay(info[name].speed) else UnknownSpeed
  }
}

=== FILE: render.dfy ===
/** The address renderings shared by both decoders, each with the parser that
    reads it back: dotted decimal (`".".join(str(b) …)`), colon-separated byte
    hex (`":".join(f"{b:02x}" …)`) and colon-separated 16-bit hex groups. */
module Render {
  import opened Bytes
  import opened Strings

  function DecFields(bs: seq<Byte>): (r: seq<string>)
    ensures |r| == |bs|
    ensures forall i :: 0 <= i < |r| ==> r[i] == Dec(bs[i])
  {
    if bs == [] then [] else [Dec(bs[0])] + DecFields(bs[1..])
  }

  /** `".".join(str(b) for b in bs)`. */
  function DottedDecimal(bs: seq<Byte>): string
  {
    Join(DecFields(bs), ".")
  }

  function ParseDecField(f: string): Option<Byte>
  {
    if |f| >= 1 && AllDigits(f) && DigitsValue(f) < 0x100 then Some(DigitsValue(f)) else None
  }

  function ParseDecFields(fs: seq<string>): Option<seq<Byte>>
  {
    if fs == [] then Some([])
    else match (ParseDecField(fs[0]), ParseDecFields(fs[1..]))
      case (Some(b), Some(rest)) => Some([b] + rest)
      case _ => None
  }

  /** Reads a dotted-decimal rendering back into its octets. */
  function ParseDottedDecimal(s: string): Option<seq<Byte>>
  {
    ParseDecFields(Split(s, '.'))
  }

  lemma {:induction false} ParseDecFieldOfDec(b: Byte)
    ensures ParseDecField(Dec(b)) == Some(b)
  {
    DecRoundTrip(b);
  }

  lemma {:induction false} ParseDecFieldsOfDec(bs: seq<Byte>)
    ensures ParseDecFields(DecFields(bs)) == Some(bs)
    decreases |bs|
  {
    if bs != [] {
      var fs := DecFields(bs);
      assert fs[0] == Dec(bs[0]) && fs[1..] == DecFields(bs[1..]);
      ParseDecFieldOfDec(bs[0]);
      ParseDecFieldsOfDec(bs[1..]);
      assert [bs[0]] + bs[1..] == bs;
    }
  }

  /** Dotted decimal is lossless: parsing the rendering returns the octets. */
  lemma {:induction false} DottedDecimalRoundTrip(bs: seq<Byte>)
    requires |bs| >= 1
    ensures ParseDottedDecimal(DottedDecimal(bs)) == Some(bs)
  {
    var fs := DecFields(bs);
    forall i | 0 <= i < |fs|
      ensures '.' !in fs[i]
    {
      DigitsHaveNoSep(fs[i], '.');
    }
    SplitJoin(fs, '.');
    ParseDecFieldsOfDec(bs);
  }

  /** Distinct octet strings render to distinct dotted-decimal strings. */
  lemma {:induction false} DottedDecimalInjective(a: seq<Byte>, b: seq<Byte>)
    requires |a| >= 1 && |b| >= 1
    requires DottedDecimal(a) == DottedDecimal(b)
    ensures a == b
  {
    DottedDecimalRoundTrip(a);
    DottedDecimalRoundTrip(b);
  }

  function HexFields(bs: seq<Byte>): (r: seq<string>)
    ensures |r| == |bs|
    ensures forall i :: 0 <= i < |r| ==> r[i] == Hex2(bs[i])
  {
    if bs == [] then [] else [Hex2(bs[0])] + HexFields(bs[1..])
  }

  /** `":".join(f"{b:02x}" for b in bs)`, the MAC-address rendering. */
  function ColonHex(bs: seq<Byte>): string
  {
    Join(HexFields(bs), ":")
  }

  function GroupFields(bs: seq<Byte>): (r: seq<string>)
    requires |bs| % 2 == 0
    ensures |r| == |bs| / 2
    ensures forall i :: 0 <= i < |r| ==> r[i] == Hex2(bs[2 * i]) + Hex2(bs[2 * i + 1])
  {
    if bs == [] then [] else [Hex2(bs[0]) + Hex2(bs[1])] + GroupFields(bs[2..])
  }

  /** `":".join(f"{d[i]:02x}{d[i+1]:02x}" for i in range(0, len(d), 2))`, the
      IPv6 rendering used for chassis and management addresses. */
  function HexGroups(bs: seq<Byte>): string
    requires |bs| % 2 == 0
  {
    Join(GroupFields(bs), ":")
  }

  function HexPairs(f: string): seq<Byte>
    requires |f| % 2 == 0 && AllHexDigits(f)
    decreases |f|
  {
    if f == [] then [] else [HexValue(f[0]) * 16 + HexValue(f[1])] + HexPairs(f[2..])
  }

  function ParseHexField(f: string): Option<seq<Byte>>
  {
    if |f| >= 2 && |f| % 2 == 0 && AllHexDigits(f) then Some(HexPairs(f)) else None
  }

  function ParseHexFields(fs: seq<string>): Option<seq<Byte>>
  {
    if fs == [] then Some([])
    else match (ParseHexField(fs[0]), ParseHexFields(fs[1..]))
      case (Some(b), Some(rest)) => Some(b + rest)
      case _ => None
  }

  /** Reads a colon-separated hexadecimal rendering (bytes or 16-bit groups) back
      into its octets. */
  function ParseColonHex(s: string): Option<seq<Byte>>
  {
    ParseHexFields(Split(s, ':'))
  }

  lemma {:induction false} Hex2RoundTrip(b: Byte)
    ensures HexPairs(Hex2(b)) == [b]
  {
    HexDigitRoundTrip(b / 16);
    HexDigitRoundTrip(b % 16);
  }

  lemma {:induction false} ParseHexFieldsOfHex(bs: seq<Byte>)
    ensures ParseHexFields(HexFields(bs)) == Some(bs)
    decreases |bs|
  {
    if bs != [] {
      Hex2RoundTrip(bs[0]);
      ParseHexFieldsOfHex(bs[1..]);
      assert HexFields(bs)[1..] == HexFields(bs[1..]);
      assert [bs[0]] + bs[1..] == bs;
    }
  }

  lemma {:induction false} ParseGroupField(x: Byte, y: Byte)
    ensures ParseHexField(Hex2(x) + Hex2(y)) == Some([x, y])
  {
    var f := Hex2(x) + Hex2(y);
    Hex2RoundTrip(x);
    Hex2RoundTrip(y);
    assert f[2..] == Hex2(y);
    assert f[0] == Hex2(x)[0] && f[1] == Hex2(x)[1];
    assert Hex2(x)[2..] == [];
    assert AllHexDigits(f);
    assert HexPairs(f) == [x, y];
  }

  lemma {:induction false} ParseHexFieldsOfGroups(bs: seq<Byte>)
    requires |bs| % 2 == 0
    ensures ParseHexFields(GroupFields(bs)) == Some(bs)
    decreases |bs|
  {
    if bs != [] {
      var fs := GroupFields(bs);
      assert fs[0] == Hex2(bs[0]) + Hex2(bs[1]) && fs[1..] == GroupFields(bs[2..]);
      ParseGroupField(bs[0], bs[1]);
      ParseHexFieldsOfGroups(bs[2..]);
      assert [bs[0], bs[1]] + bs[2..] == bs;
    }
  }

  lemma {:induction false} HexHasNoColon(f: string)
    requires AllHexDigits(f)
    ensures ':' !in f
  {
  }

  /** The MAC rendering is lossless. */
  lemma {:induction false} ColonHexRoundTrip(bs: seq<Byte>)
    requires |bs| >= 1
    ensures ParseColonHex(ColonHex(bs)) == Some(bs)
  {
    var fs := HexFields(bs);
    forall i | 0 <= i < |fs|
      ensures ':' !in fs[i]
    {
      HexHasNoColon(fs[i]);
    }
    SplitJoin(fs, ':');
    ParseHexFieldsOfHex(bs);
  }

  /** The 16-bit-group rendering is lossless. */
  lemma {:induction false} HexGroupsRoundTrip(bs: seq<Byte>)
    requires |bs| >= 2 && |bs| % 2 == 0
    ensures ParseColonHex(HexGroups(bs)) == Some(bs)
  {
    var fs := GroupFields(bs);
    forall i | 0 <= i < |fs|
      ensures ':' !in fs[i]
    {
      assert AllHexDigits(fs[i]);
      HexHasNoColon(fs[i]);
    }
    SplitJoin(fs, ':');
    ParseHexFieldsOfGroups(bs);
  }

  /** The source MAC of a frame: bytes 6..11 in colon-separated hex, or "" for a
      frame too short to hold one. */
  function SourceMac(raw: seq<Byte>): (r: string)
    ensures |raw| >= 12 ==> ParseColonHex(r) == Some(raw[6..12])
    ensures |raw| < 12 ==> r == ""
  {
    if |raw| >= 12 then
      ColonHexRoundTrip(raw[6..12]);
      ColonHex(raw[6..12])
    else ""
  }
}

=== FILE: strings.dfy ===
/** String helpers with the semantics of the Python built-ins the decoders use:
    `sep.join`, `str.split`, `str.startswith`, `str(int)` and `f"{b:02x}"`. */
module Strings {

  predicate StartsWith(s: string, prefix: string)
  {
    |prefix| <= |s| && s[..|prefix|] == prefix
  }

  /** `sep.join(parts)`. */
  function Join(parts: seq<string>, sep: string): string
  {
    if |parts| == 0 then ""
    else if |parts| == 1 then parts[0]
    else parts[0] + sep + Join(parts[1..], sep)
  }

  /** `s.split(sep)` for a one-character separator: always at least one field. */
  function Split(s: string, sep: char): (r: seq<string>)
    ensures |r| >= 1
    decreases |s|
  {
    if |s| == 0 then [""]
    else
      var rest := Split(s[1..], sep);
      if s[0] == sep then [""] + rest
      else [[s[0]] + rest[0]] + rest[1..]
  }

  lemma {:induction false} SplitWithoutSep(x: string, sep: char)
    requires sep !in x
    ensures Split(x, sep) == [x]
    decreases |x|
  {
    if |x| > 0 {
      SplitWithoutSep(x[1..], sep);
      assert [x[0]] + x[1..] == x;
    }
  }

  lemma {:induction false} SplitAtFirstSep(x: string, sep: char, y: string)
    requires sep !in x
    ensures Split(x + [sep] + y, sep) == [x] + Split(y, sep)
    decreases |x|
  {
    var s := x + [sep] + y;
    if |x| == 0 {
      assert s[1..] == y;
    } else {
      assert s[1..] == x[1..] + [sep] + y;
      SplitAtFirstSep(x[1..], sep, y);
      assert [x[0]] + x[1..] == x;
    }
  }

  /** Splitting a join recovers the parts, provided no part contains the separator. */
  lemma {:induction false} SplitJoin(parts: seq<string>, sep: char)
    requires |parts| >= 1
    requires forall i :: 0 <= i < |parts| ==> sep !in parts[i]
    ensures Split(Join(parts, [sep]), sep) == parts
    decreases |parts|
  {
    if |parts| == 1 {
      SplitWithoutSep(parts[0], sep);
    } else {
      SplitJoin(parts[1..], sep);
      SplitAtFirstSep(parts[0], sep, Join(parts[1..], [sep]));
      assert [parts[0]] + parts[1..] == parts;
    }
  }

  /** `SplitJoin` as an implication, for callers that cannot branch. */
  lemma {:induction false} SplitJoinWhenFree(parts: seq<string>, sep: char)
    requires |parts| >= 1
    ensures (forall i :: 0 <= i < |parts| ==> sep !in parts[i]) ==> Split(Join(parts, [sep]), sep) == parts
  {
    if forall i :: 0 <= i < |parts| ==> sep !in parts[i] {
      SplitJoin(parts, sep);
    }
  }

  /** The first field of `s.split(sep)` is everything before the first
      separator: a prefix of `s` without the separator, followed in `s` by the
      separator or by nothing. */
  lemma {:induction false} FirstFieldOfSplit(s: string, sep: char)
    ensures StartsWith(s, Split(s, sep)[0])
    ensures sep !in Split(s, sep)[0]
    ensures |Split(s, sep)[0]| == |s| || s[|Split(s, sep)[0]|] == sep
    decreases |s|
  {
    if |s| > 0 && s[0] != sep {
      var rest := Split(s[1..], sep);
      FirstFieldOfSplit(s[1..], sep);
      assert Split(s, sep)[0] == [s[0]] + rest[0];
      assert s[..1 + |rest[0]|] == [s[0]] + s[1..][..|rest[0]|];
    }
  }

  /** Two texts that each start with a separator-free field: equal texts have
      equal first fields and equal remainders. */
  lemma {:induction false} SeparatedPrefix(x: string, s: string, y: string, t: string, sep: char)
    requires sep !in x && sep !in y
    requires x + [sep] + s == y + [sep] + t
    ensures x == y && s == t
  {
    var a := x + [sep] + s;
    assert a[|x|] == sep && a[|y|] == sep;
    assert x == a[..|x|] == y;
    assert s == a[|x| + 1..] == t;
  }

  predicate IsDigit(c: char)
  {
    '0' <= c <= '9'
  }

  predicate AllDigits(s: string)
  {
    forall i :: 0 <= i < |s| ==> IsDigit(s[i])
  }

  function DigitChar(d: nat): (c: char)
    requires d < 10
    ensures IsDigit(c)
  {
    (48 + d) as char
  }

  /** `str(n)` for a non-negative integer: decimal digits, no leading zero. */
  function Dec(n: nat): (r: string)
    ensures |r| >= 1
    ensures AllDigits(r)
    decreases n
  {
    if n < 10 then [DigitChar(n)] else Dec(n / 10) + [DigitChar(n % 10)]
  }

  /** The value of a string of decimal digits; the inverse of `Dec`. */
  function DigitsValue(s: string): nat
    requires AllDigits(s)
    decreases |s|
  {
    if |s| == 0 then 0
    else DigitsValue(s[..|s| - 1]) * 10 + (s[|s| - 1] as int - 48)
  }

  lemma {:induction false} DecRoundTrip(n: nat)
    ensures DigitsValue(Dec(n)) == n
    decreases n
  {
    if n >= 10 {
      var s := Dec(n);
      assert s[..|s| - 1] == Dec(n / 10);
      DecRoundTrip(n / 10);
    }
  }

  lemma {:induction false} DigitsHaveNoSep(s: string, sep: char)
    requires AllDigits(s) && !IsDigit(sep)
    ensures sep !in s
  {
  }

  predicate IsHexDigit(c: char)
  {
    IsDigit(c) || 'a' <= c <= 'f'
  }

  predicate AllHexDigits(s: string)
  {
    forall i :: 0 <= i < |s| ==> IsHexDigit(s[i])
  }

  /** A lower-case hexadecimal digit. */
  function HexDigit(d: nat): (c: char)
    requires d < 16
    ensures IsHexDigit(c)
  {
    if d < 10 then (48 + d) as char else (87 + d) as char
  }

  function HexValue(c: char): (v: nat)
    requires IsHexDigit(c)
    ensures v < 16
  {
    if IsDigit(c) then c as int - 48 else c as int - 87
  }

  lemma {:induction false} HexDigitRoundTrip(d: nat)
    requires d < 16
    ensures HexValue(HexDigit(d)) == d
  {
  }

  /** `f"{b:02x}"`: two lower-case hexadecimal digits. */
  function Hex2(b: nat): (r: string)
    requires b < 0x100
    ensures |r| == 2 && AllHexDigits(r)
  {
    [HexDigit(b / 16), HexDigit(b % 16)]
  }
}

=== FILE: type_length.dfy ===
/** What the CDP and LLDP decoders share about a walked chain of TLVs: the TLV
    itself, and which TLV of a type the record ends up reflecting when later
    TLVs overwrite earlier ones. */
module TypeLength {
  import opened Bytes

  /** One TLV as a walk cuts it out: its type and its payload (the bytes after
      the header, up to the declared length). */
  datatype Tlv = Tlv(typ: nat, payload: seq<Byte>)

  /** The payload of the last TLV of type `typ` whose payload has at least
      `minLen` bytes: the one whose value the record ends up holding. */
  function LastPayload(ts: seq<Tlv>, typ: nat, minLen: nat): (r: Option<seq<Byte>>)
    ensures r.Some? ==> |r.value| >= minLen && Tlv(typ, r.value) in ts
    ensures r.None? ==> forall k :: 0 <= k < |ts| ==> ts[k].typ != typ || |ts[k].payload| < minLen
    ensures r.Some? ==>
      exists k :: 0 <= k < |ts| && ts[k] == Tlv(typ, r.value) &&
        forall j :: k < j < |ts| ==> ts[j].typ != typ || |ts[j].payload| < minLen
  {
    if ts == [] then None
    else
      var t := ts[|ts| - 1];
      if t.typ == typ && |t.payload| >= minLen then Some(t.payload)
      else
        var r := LastPayload(ts[..|ts| - 1], typ, minLen);
        assert forall j :: 0 <= j < |ts| - 1 ==> ts[..|ts| - 1][j] == ts[j];
        r
  }

  /** The text a field holds after the fold: the decoded last payload, or the
      field's earlier value when no TLV of its type was seen. */
  function TextOr(p: Option<seq<Byte>>, default: string): string
  {
    match p
    case None => default
    case Some(bs) => Text(bs)
  }
}
